=== FILE: README.md ===
# openapi_diff_mcp core in Dafny

A model of the two pure algorithms of the OpenAPI diff tool, with proofs of
what they promise. Both algorithms work on decoded OpenAPI 3.x document trees.

- **The structural diff engine** is `OpenAPIDiffer.compare` in `tools/differ.py`.
  - It splits the `paths` keys and the `components.schemas` keys of two
    documents into `added`, `removed` and `modified`.
  - It splits the five operations `get`, `post`, `put`, `delete` and `patch`
    of a common path item the same way, keyed by the upper-case method.
  - For a common schema it reports field-level changes: `type_changed`,
    `properties` one level deep, and `required` names added and removed.
  - Missing sections count as empty. The OpenAPI validity test is advisory.
- **The schema-usage impact analyzer** is in `tools/analyzer.py`.
  - `_get_schema_ref` reads a local `#/components/schemas/...` reference.
  - `_is_schema_used_in_object` searches the schema graph depth first. It
    follows object properties, array items, local references and the
    `allOf`/`oneOf`/`anyOf` members. One visited set, shared by the whole
    search, cuts cycles.
  - `analyze_schema_impact` scans every operation of every path. It looks
    at request-body media types, response media types per status code, and
    parameters. It lists the affected endpoints with their usage locations,
    and puts one detail record per location in one of three buckets.
  - `analyze_diff_impact` runs that analysis for every modified and added
    schema of a diff, and gives a fixed note for every removed one.
  - Two small projections summarise a schema and its properties.

Modules, one per file:

- `Json` (json.dfy) is the decoded document. `JNode` is a mapping, list,
  string, integer, boolean or null. It also defines the accessors the Python
  code uses: `in`, `.get(key, default)`, truthiness and `or {}`.
- `KeyOrder` (keyorder.dfy) is the fixed order in which every loop visits
  the keys of a mapping.
- `OpenApi` (openapi.dfy) holds the HTTP methods, the `paths` and
  `components.schemas` sections, and the validity test.
- `Refs` (refs.dfy) is the reference extraction.
- `Search` (search.dfy) is the reference search, with the visited set
  threaded through it as a value. It terminates on the pair (schema names
  not yet visited, size of the node).
- `Differ` (differ.dfy) is the diff engine.
- `Analyzer` (analyzer.dfy) is the impact analysis.
- `Projections` (projections.dfy) holds `_get_schema_description` and
  `_get_properties_with_descriptions`.
- `Correlator` (correlator.dfy) is `analyze_diff_impact`, fed the diff that
  `compare` returns.

The preconditions describe the inputs the Python code reads without
raising, and the odd shapes it reads without raising are modelled as Python
reads them. `for` and `in` follow Python on mappings, lists and strings
(`Json.Iter`, `Json.IsIn`). So a path item may be a string or a list as well
as a mapping (`Differ.StringItemExample`), and whether the comparison raises
can depend on the order of the two items (`Differ.RaisingIsOneSided`). A
`required` value may be a string or a mapping (`Differ.StringRequiredGrows`).
A section, a `properties` value, a `parameters` value or a diff part may be an
empty list or an empty string, which is looped over zero times. The shape
predicates are `Differ.Comparable`, `Analyzer.ImpactShape`,
`Correlator.DiffShape`, `Projections.PropertiesShape` and
`Projections.DescriptionShape`. A few inputs that Python reads without
raising are still excluded, and "Left out" names each, on a line that starts
with the predicate. Three kinds of raise are not preconditions; the model
reads the offending value as empty instead, and "Left out" lists each one:

- a `$ref` that is not a string, on which tools/analyzer.py:186 calls
  `startswith`;
- a `components` or `components.schemas` value that is not a mapping, which
  tools/analyzer.py:235 reads once the search follows a reference;
- inside the search, a `properties` value or a composite value of the wrong
  kind (tools/analyzer.py:215-245).

The revisit rule of the reference search is a parameter, `Search.Revisit`.
`AbandonNode` is the code as written: a node whose reference was already
visited is abandoned whole. `SkipExpansion` is the corrected rule from
"Findings": only the repeated expansion is skipped. The impact analysis
(`Analyzer.AnalyzeSchemaImpact`) and `analyze_diff_impact`
(`Correlator.AnalyzeDiffImpact`) take the rule as their first argument, and
`AbandonNode` is the model of the code. `Analyzer.ImpactWithinCorrected`
proves that everything the code as written lists, the corrected analysis
lists too.

The search records a reference name as visited before it looks the name up
(tools/analyzer.py:233-236). So the visited set also gains names that resolve
to no schema. The model follows the code here: only names that resolve to a
non-empty schema are entered, and each is entered at most once
(`Search.Bookkeeping`).

The target name `""` is modelled as written. `_get_schema_ref` returns `""`
for every schema without a local reference, so the empty target matches all
such locations (`Analyzer.EmptyTargetMatchesPlainSchemas`).

## Model

| member | source | states |
|---|---|---|
| Json.IterMeans | tools/differ.py:255-274 | `for x in n` visits the keys of a mapping, the one-character strings of a string, and nothing for a value that is not iterable. |
| Json.ContainsMeans | tools/differ.py:332-340 | `w in s` on strings holds exactly when `w` occurs in `s` at some position. |
| Json.OrEmpty | tools/analyzer.py:21 | `value or {}`: a truthy value is kept, a falsy one (null, empty mapping, list or string, zero, False) becomes `{}`, so the result is truthy or `{}`. |
| Json.OrEmptyIdempotent | tools/differ.py:48-49 | Normalising twice is normalising once. |
| OpenApi.IsValidOpenApi | tools/differ.py:13-31 | True exactly when the value is a mapping with `openapi` and with `paths` or `components`. A valid document is truthy, so `or {}` leaves it unchanged. |
| OpenApi.MethodOf | tools/analyzer.py:42-44 | A path-item key names a method exactly when it is one of the eight lower-case method keys, and the method's key is that key. Every other key names none. |
| OpenApi.KeyRoundTrip | tools/analyzer.py:42-44 | Reading a method's own lower-case key gives that method back. |
| OpenApi.LabelsDistinct | tools/differ.py:255-274 | `method.upper()` never maps two methods to the same label, so upper-cased output keys do not collide. |
| Refs.LastSegment | tools/analyzer.py:187 | `split("/")[-1]` holds no `/` and is no longer than its input. |
| Refs.LastSegmentIsSuffix | tools/analyzer.py:187 | The last segment is a suffix of the string that is either the whole string or preceded by `/`, so it is the longest `/`-free suffix. |
| Refs.SchemaRef | tools/analyzer.py:173-188 | The name holds no `/`. It is `""` without `$ref`. A non-empty name comes from a string `$ref` that starts with `#/components/schemas/`. |
| Refs.RefRoundTrip | tools/analyzer.py:183-187 | A node whose `$ref` is the schema prefix followed by a `/`-free name gives that name back, whatever else the node holds. |
| Refs.NestedRefExample | tools/analyzer.py:186-187 | `#/components/schemas/a/b` gives `b`: only the last segment is kept. |
| Refs.ForeignRefExample | tools/analyzer.py:186-188 | `#/definitions/Pet` gives `""`: other reference forms name nothing. |
| Search.WalkStart | tools/analyzer.py:206-213 | A non-mapping is no use and leaves the visited set as it was. A node whose reference names the target is a use at once, before any visited check. |
| Search.Walk | tools/analyzer.py:189-247 | One call from visited set V. The visited set only grows, by non-empty names other than the target. The schemas entered are the new names that resolve, each once. A yes answer means the node reaches the target. With the corrected revisit rule, a no answer leaves the node and every newly visited schema free of the target. |
| Search.WalkProps | tools/analyzer.py:215-219 | The properties of an object schema, in key order: the same bookkeeping, and a yes means the node reaches the target. Under the corrected revisit rule, a no leaves the remaining properties clear. |
| Search.WalkRef | tools/analyzer.py:226-245 | The node's own reference and then its composites: the same bookkeeping. Under the corrected revisit rule, a no records the reference as visited and leaves the composites clear. |
| Search.FollowRef | tools/analyzer.py:232-238 | A new reference name is marked visited, and its schema is searched when it resolves: the same bookkeeping. |
| Search.WalkGroups | tools/analyzer.py:240-245 | `allOf`, `oneOf`, `anyOf` in that order: the same bookkeeping. Under the corrected revisit rule, a no leaves all of their members clear. |
| Search.WalkMembers | tools/analyzer.py:242-245 | The members of one composite, in order: the same bookkeeping. Under the corrected revisit rule, a no leaves the remaining members clear. |
| Search.UsesSchema | tools/analyzer.py:189-247 | The search from an empty visited set answers yes exactly when some node reachable through properties, items, local references and composites has a reference naming the target. |
| Search.UsesSchemaAsWritten | tools/analyzer.py:226-230 | The code as written: a yes answer is always right. |
| Search.RevisitCounterexample | tools/analyzer.py:226-245 | On a node whose second composite member re-references a visited schema and reaches the target through its own `allOf`, the code as written says no and the corrected search says yes. |
| Search.BareRef | tools/analyzer.py:226-238 | A bare reference node does nothing at an already visited name, and otherwise follows the reference. |
| Search.CycleExample | tools/analyzer.py:226-238 | Two schemas that refer to each other: the search enters each once, in order, and answers no. |
| Differ.OnlyIn | tools/differ.py:208-215 | The entries whose key the other mapping lacks, with their own values. |
| Differ.Changed | tools/differ.py:319-326 | A key is reported exactly when both mappings hold it with different values, as a `{before, after}` pair. |
| Differ.Split | tools/differ.py:307-326 | Added keys are those only in `after`; removed keys are those only in `before`; modified keys are common. The partition is empty exactly when the two mappings are equal. |
| Differ.SplitSwap | tools/differ.py:307-326 | Exchanging the mappings exchanges added and removed and swaps every modified pair. |
| Differ.Operations | tools/differ.py:255-274 | The diffable operations are keyed by upper-case labels of the five methods only. |
| Differ.OperationsMeans | tools/differ.py:255-274 | Each of the five labels is present exactly when the item has that method key, with the item's operation. |
| Differ.OperationsAgreeIff | tools/differ.py:242-276 | Two items have the same diffable operations exactly when their five method keys agree. |
| Differ.DiffKeysMeans | tools/differ.py:256 | The list the loops test keys against holds exactly the keys of the five diffable methods. |
| Differ.MappingItemsComparable | tools/differ.py:242-276 | Two mapping items are always compared without raising. |
| Differ.OperationsNotInMeans | tools/differ.py:255-265 | The first two loops collect a method under its label exactly when the item has the method key and the key is not `in` the other item, with the item's operation. |
| Differ.ChangedOperationsMeans | tools/differ.py:267-274 | The third loop collects a method exactly when both items have it with different operations, as a `{before, after}` pair. |
| Differ.NothingCollectedIff | tools/differ.py:252-276 | The three loops collect nothing exactly when no diffable method differs, so `has_changes` stays false exactly then. |
| Differ.MappingItemsSplit | tools/differ.py:242-276 | For two mappings, the three loops give the key split of their diffable operations, and a method differs exactly when its operation differs. |
| Differ.ComparePathItem | tools/differ.py:242-276 | On items compared without raising: no result exactly when no diffable method differs, and a result holds what the three loops collect, with `in` tested as Python does. For two mappings, no result exactly when the five method keys agree, so changes to other keys are ignored, and a result splits the operations by key. |
| Differ.StringItemExample | tools/differ.py:255-265 | A string item without the substring `get` against `{"get": op}` is compared without raising and reports `GET` removed, and nothing else. |
| Differ.RaisingIsOneSided | tools/differ.py:255-274 | `"forget"` before `{"get": op}` is compared without raising and reports nothing, because `"get" in "forget"`. The exchanged pair raises. |
| Differ.DifferSymmetric | tools/differ.py:242-276 | Whether two items differ does not depend on their order. |
| Differ.ChangedOperationsSwap | tools/differ.py:267-274 | The third loop in the other order collects the same methods with each pair exchanged. |
| Differ.PathItemSwap | tools/differ.py:255-274 | When both orders are compared without raising, exchanging the items keeps whether a result exists and swaps the result. |
| Differ.WithoutMeans | tools/differ.py:332-340 | The `required` filter keeps exactly the names that are not `in` the other value, in order and with the same multiplicity. |
| Differ.WithoutAppend | tools/differ.py:332-340 | Filtering a concatenation filters each part. |
| Differ.StringsRequiredComparable | tools/differ.py:332-340 | Two string `required` values are read without raising. |
| Differ.CompareSchemaDetail | tools/differ.py:278-342 | On schemas compared without raising: no result exactly when the schemas are equal, or agree on `type` and `properties` and every name each `required` value yields is `in` the other. Types are read with `.get("type")`, so an absent type equals `"type": null`. Otherwise `type_changed` holds exactly when the types so read differ, properties are split by key, and each `required` value is filtered against the other. |
| Differ.SchemaSwap | tools/differ.py:299-340 | When both orders are compared without raising, exchanging the schemas swaps properties and required lists and keeps `type_changed`. |
| Differ.NullTypeExample | tools/differ.py:299 | A schema with `"type": null` and one without `type`, otherwise alike, compare unchanged. |
| Differ.RequiredExample | tools/differ.py:328-340 | Replacing required name `a` by `b` reports `b` added, `a` removed, no type or property change. |
| Differ.StringRequiredGrows | tools/differ.py:328-340 | A string `required` that gains a new last character (`"ab"` to `"abc"`) reports that one-character name added and nothing removed. |
| Differ.DiffPaths | tools/differ.py:205-222 | On sections whose common items are compared without raising: added paths are those only in `after`, with after's subtree; removed are those only in `before`, with before's subtree. A common path is modified exactly when one of the five diffable methods differs, and carries the path-item comparison. |
| Differ.DiffSchemas | tools/differ.py:223-240 | On sections whose common schemas are compared without raising: added and removed schemas as for paths. A common schema is modified exactly when the schema comparison reports a change, and carries that comparison. |
| Differ.Compare | tools/differ.py:33-91 | On documents compared without raising, with each section read as a mapping: paths and schemas are each split into added keys with after's subtree and removed keys with before's subtree. A common path is modified exactly when a diffable method differs. A common schema is modified exactly when the schema comparison reports a change. |
| Differ.PathPartition | tools/differ.py:205-222 | The three path key sets are pairwise disjoint. A path is in one of them unless both documents hold it with the same five operations. |
| Differ.SchemaPartition | tools/differ.py:223-240 | The three schema key sets are pairwise disjoint. A schema is in one of them unless both documents hold it unchanged in type, properties and required names. |
| Differ.CompareSelf | tools/differ.py:33-91 | Comparing a document with itself reports nothing. |
| Differ.CompareSwap | tools/differ.py:205-240 | When both orders are compared without raising, exchanging the documents exchanges added and removed everywhere, swaps every modified pair and required list, and keeps `type_changed`. |
| Differ.DiffPathsSwap | tools/differ.py:205-222 | The swap law for the paths section. |
| Differ.DiffSchemasSwap | tools/differ.py:223-240 | The swap law for the schemas section. |
| Differ.CompareBySections | tools/differ.py:53-58 | The early return for two empty documents equals what the section diffs give. |
| Differ.ValidityIsAdvisory | tools/differ.py:60-65 | The result depends only on the `paths` and `components.schemas` sections, so the validity test cannot change it. |
| Differ.InvalidDocumentsAreCompared | tools/differ.py:60-65 | Two documents that both fail the validity test are still compared. |
| Differ.AddedPathExample | tools/differ.py:207-210 | A path added to an empty `paths` section is reported added with its subtree, and nothing else is reported. |
| Analyzer.LabelDetermines | tools/analyzer.py:66-106 | The labels `requestBody`, `response (<code>)` and `parameter (<name>)` determine the location. |
| Analyzer.Matching | tools/analyzer.py:61-66 | A media type is listed exactly when its schema counts. |
| Analyzer.MatchingMedia | tools/analyzer.py:59-66 | For a request body or response, a media type is listed exactly when it is in `content` and its schema counts. |
| Analyzer.MediaCountsMeans | tools/analyzer.py:59-66 | A body or response has a counting media type exactly when some entry of its `content` has a counting schema. |
| Analyzer.CountingParameters | tools/analyzer.py:100-106 | A parameter is kept exactly when its schema counts. |
| Analyzer.CountsMeans | tools/analyzer.py:62-64 | Under the corrected rule a schema counts exactly when its own reference names the target or the target is reachable from it. Whatever the code as written counts, the corrected rule counts too. |
| Analyzer.BodyRecords | tools/analyzer.py:57-74 | Every request-body record is a body use at the operation's path and method, for a media type of the body whose schema counts, with the body's description and the operation's summary and description. |
| Analyzer.BodyCoverage | tools/analyzer.py:61-67 | Every media type of the body whose schema counts has a record. |
| Analyzer.CodeRecords | tools/analyzer.py:80-97 | Every record for status code `c` is a response use at the operation's path and method with that code, for a media type of that response whose schema counts, with the response's description and the operation's summary and description. |
| Analyzer.CodeCoverage | tools/analyzer.py:83-89 | Every media type of the response whose schema counts has a record. |
| Analyzer.ParameterRecords | tools/analyzer.py:99-115 | Every parameter record is a parameter use at the operation's path and method, taken from a parameter whose schema counts, with that parameter's name, `in` and description. |
| Analyzer.ParameterCoverage | tools/analyzer.py:101-110 | Every parameter whose schema counts has a record with its name. |
| Analyzer.BodyLocations | tools/analyzer.py:57-66 | The request body reports only `requestBody`, and reports it exactly when one of its media types counts. |
| Analyzer.CodeLocations | tools/analyzer.py:80-88 | The response for code `c` reports only `c`, and reports it exactly when one of its media types counts. |
| Analyzer.ResponseCodes | tools/analyzer.py:77-88 | The responses report only response locations for their own status codes. |
| Analyzer.ResponseLocations | tools/analyzer.py:77-88 | A listed status code is reported exactly when one of its media types counts. |
| Analyzer.ParameterNamed | tools/analyzer.py:99-106 | The parameter locations are the names of the counting parameters, in order. |
| Analyzer.ParameterKinds | tools/analyzer.py:99-106 | Parameter scanning reports only parameter locations. |
| Analyzer.ParameterLocations | tools/analyzer.py:99-106 | `parameter (<name>)` is reported exactly when a parameter with that name has a counting schema. |
| Analyzer.OperationUses | tools/analyzer.py:56-115 | Every record of an operation carries the operation's path and method. |
| Analyzer.OperationLocations | tools/analyzer.py:56-115 | An operation's locations are exactly: the request body when a body media type counts, each status code one of whose media types counts, and the name of each counting parameter. |
| Analyzer.OperationOrder | tools/analyzer.py:56-115 | An operation lists its locations in scan order: request body, then responses, then parameters. |
| Analyzer.OperationAffected | tools/analyzer.py:46-119 | An operation reports a use exactly when a body media type, a response media type or a parameter schema counts. |
| Analyzer.EmptyTargetMatchesPlainSchemas | tools/analyzer.py:62-66 | For target `""`, a request body with a media type whose schema has no `$ref` always reports `requestBody`. |
| Analyzer.ItemEndpoints | tools/analyzer.py:42-44 | Every listed operation of a path item sits under one of the item's method keys, carries that operation's scan, and has a use. |
| Analyzer.ItemListing | tools/analyzer.py:41-119 | A method key of the item is listed exactly when the scan of its operation finds a use. |
| Analyzer.ItemDistinct | tools/analyzer.py:42-44 | Over keys visited once, no method is listed twice for an item. |
| Analyzer.PathEndpoints | tools/analyzer.py:41-44 | Every listed operation sits at one of the scanned paths and is the scan of that path's item. |
| Analyzer.PathListing | tools/analyzer.py:41-119 | An operation of a scanned path is listed exactly when its scan finds a use. |
| Analyzer.PathDistinct | tools/analyzer.py:41-44 | Over paths visited once, no (path, method) pair is listed twice. |
| Analyzer.OfKind | tools/analyzer.py:67-107 | A bucket holds exactly the records of its own kind. |
| Analyzer.EmptyParametersYieldNothing | tools/analyzer.py:100-101 | A `parameters` value that is an empty mapping or an empty string is looped over zero times and gives no parameter use. |
| Analyzer.AnalyzeSchemaImpact | tools/analyzer.py:9-121 | Under either revisit rule, on documents read without raising (`parameters` may also be an empty mapping or string): the schema name is echoed. A document without `paths` gives no endpoint and empty buckets. Each bucket holds only records of its own kind. |
| Analyzer.KindSplit | tools/analyzer.py:56-115 | As multisets, the three buckets together hold every record once. |
| Analyzer.ReportsAreRecords | tools/analyzer.py:56-119 | Over consistent scans, the endpoints' location entries name exactly the records, in the same order. |
| Analyzer.ImpactRecordPerLocation | tools/analyzer.py:56-119 | As multisets of (path, method, label) triples, the endpoints' `usage_locations` equal the three buckets' records: one record per location entry. |
| Analyzer.ImpactRecordCount | tools/analyzer.py:56-119 | The buckets hold as many records as there are location entries over all affected endpoints. |
| Analyzer.ImpactEndpointsReal | tools/analyzer.py:41-53 | Every affected endpoint sits at a path of the document, under one of its method keys, and has at least one usage location. |
| Analyzer.ImpactEndpointsDistinct | tools/analyzer.py:117-119 | No (path, method) pair is listed twice. |
| Analyzer.ImpactListing | tools/analyzer.py:117-119 | An operation under a method key of a path is listed exactly when scanning it finds a use. |
| Analyzer.ImpactEntry | tools/analyzer.py:46-53 | A listed endpoint carries its operation's `operationId`, `summary` and `description`, and the labels of its records in order. |
| Analyzer.MediaWithinCorrected | tools/analyzer.py:61-66 | A body or response that the code as written finds a counting media type in, the corrected rule finds one in too. |
| Analyzer.OperationWithinCorrected | tools/analyzer.py:56-115 | Every location the code as written reports for an operation, the corrected rule reports too. |
| Analyzer.ImpactWithinCorrected | tools/analyzer.py:117-119 | Every endpoint the code as written lists, the corrected analysis lists too, with every one of its usage locations. |
| Projections.PropertiesWithDescriptions | tools/analyzer.py:270-291 | One summary per property name, and none when the schema has no `properties`. |
| Projections.SchemaDescription | tools/analyzer.py:249-268 | An undefined schema gives the all-default summary. A defined one gives one property summary per property name. |
| Projections.DescribeUnparse | tools/analyzer.py:284-289 | Summarising the schema rebuilt from a summary gives the summary back. |
| Projections.UnparseDescribe | tools/analyzer.py:284-289 | A property schema with exactly the four entries is rebuilt from its summary. |
| Projections.DescribeReadsOnlyFour | tools/analyzer.py:284-289 | Entries other than `type`, `description`, `format` and `example` never change a summary. |
| Projections.DescribeBlank | tools/analyzer.py:284-289 | A property schema with none of the four entries is summarised as four empty strings. |
| Projections.PropertySummary | tools/analyzer.py:282-289 | Each property is summarised from its own schema. |
| Projections.DescriptionIsLocal | tools/analyzer.py:260-268 | The summary of a schema depends on nothing but that schema. |
| Correlator.AnalyzeDiffImpact | tools/analyzer.py:123-171 | Under either revisit rule, on diffs read without raising (a part may also be an empty list or string), the three result key sets equal the diff's modified, added and removed schema names. A missing section counts as empty. |
| Correlator.EntriesCarryAnalysis | tools/analyzer.py:145-159 | A modified entry carries the change record verbatim and the analysis of its name; an added entry carries its subtree and the same analysis. |
| Correlator.RemovedNeverAnalysed | tools/analyzer.py:161-169 | A removed entry carries its subtree and the fixed note. The document is never consulted for it. |
| Correlator.NoSchemaSection | tools/analyzer.py:134-143 | A diff without `components.schemas` gives three empty results. |
| Correlator.EmptySequenceParts | tools/analyzer.py:135-169 | Parts given as an empty list or an empty string are looped over zero times: three empty results, whatever the document. |
| Correlator.RenderedDiff | tools/differ.py:68-91 | The dictionary `compare` returns has the shape `analyze_diff_impact` reads, and its schema parts hold the diff's schema key sets. |
| Correlator.ImpactOfCompare | tools/analyzer.py:123-171 | Fed `compare(before, after)`: added schemas are those only in `after`, removed are those only in `before`, and modified are the common ones the schema comparison reports. No name lands in two parts. |

## Left out

- YAML parsing and its error results are left out (tools/differ.py:47-51, tools/analyzer.py:20-23). The model takes the decoded tree. `yaml.safe_load(x) or {}` becomes `Json.OrEmpty` of the decoded value.
- `analyze_diff_impact` passes the YAML text on and re-parses it for every schema. The model passes the decoded document once.
- The git methods `compare_git_revisions`, `compare_staged_changes` and `get_first_commit_with_file` are left out. They run subprocesses and touch the file system.
- main.py (the server surface) and run_tests.py are not part of this model.
- Dictionary insertion order is replaced by a fixed sorted key order (`KeyOrder.Sorted`). Python visits keys in insertion order. So every result is stated for that fixed order: the order of `affected_endpoints`, of the bucket records and of each `usage_locations` list, and also which endpoints and locations are listed at all. The code as written can answer differently under another order, because an earlier property can mark a name visited and hide a later use of the target. Only the corrected search (`Search.UsesSchema`) answers the same for every order.
- Exceptions are not modelled as results. The inputs a member reads without raising are its precondition.
- `Differ.SectionsComparable`: a non-empty list of integers or booleans as `paths`, `components.schemas` or `properties` is excluded. Python can index such a list by its own elements without raising. An empty string opposite a mapping with the key `""` is excluded too: `"" in ""` holds, so Python skips that key, or raises when the string is the after side.
- `Differ.Comparable`: it excludes what `Differ.SectionsComparable` excludes, and nothing else that Python reads without raising.
- `Differ.CompareSwap`: it no longer concludes that the exchanged documents are comparable. Raising can be one-sided (`Differ.RaisingIsOneSided`), so both orders are a precondition.
- `Correlator.DiffShape`: a non-empty list of integers or booleans as a diff part is excluded. Python can loop over such a list and index it by its own elements without raising.
- Inside the reference search, a `properties` that is not a mapping, or a composite keyword that is not a list, is read as holding nothing. Python finds nothing in a mapping or a string composite, but raises on the other shapes.
- Numbers are integers. Floats are left out, and so is Python's `True == 1` across booleans and numbers in `==`, `!=` and `in`.
- Status codes are map keys read as strings. YAML's integer status codes are rendered as their decimal text.
- A parameter `name` must be a string when present (`Analyzer.ParameterShape`). A `$ref` that is not a string names nothing.
- The removed-schema entry keeps the note as a field. The code nests it as `"impact": {"note": ...}`.
- `Analyzer.ImpactShape` does not constrain `components` or `components.schemas`. A value there that is not a mapping is read as no schemas (`OpenApi.Schemas`). Python raises at tools/analyzer.py:235 once the search follows a reference.
- `Search.UsesSchemaAsWritten`: only soundness (a yes is right) is proved for the code as written. It is not complete, as the finding below shows.

## Findings

| source | as written | input that shows it | evidently intended | confidence | as-written member | corrected member |
|---|---|---|---|---|---|---|
| tools/analyzer.py:229-230 | When the node's reference names a schema already in the visited set, the call returns False for the whole node. That skips the node's `allOf`/`oneOf`/`anyOf` members. | Target `T`, schema `X` = `{"type": "string"}`, start node `{"allOf": [{"$ref": "#/components/schemas/X"}, {"$ref": "#/components/schemas/X", "allOf": [{"$ref": "#/components/schemas/T"}]}]}`. The second member reaches `T`, but `X` is already visited, so the answer is False. | Skip only the repeated expansion of the reference, and go on to the composite members. The search then answers True exactly when the target is reachable. | medium; not executed | Search.UsesSchemaAsWritten, Search.RevisitCounterexample | Search.UsesSchema, Analyzer.ImpactWithinCorrected |

=== FILE: analyzer.dfy ===
/**
 The schema-usage impact analyzer of tools/analyzer.py: for a target schema
 name, every operation of the document is scanned at its request-body media
 types, its response media types per status code and its parameters; a
 location counts when its schema names the target directly or reaches it
 through the reference search. Affected endpoints carry their list of
 location labels, and one detail record per location goes to the matching
 bucket.
 */
module Analyzer {
  import opened Json
  import opened OpenApi
  import opened Refs
  import opened Search

  // ---------------------------------------------------------------------------
  // Result records

  /** Where in an operation a schema is used. */
  datatype Location = RequestBody | Response(statusCode: string) | Parameter(name: string)
  {
    /** The entry written to `usage_locations`. */
    function Label(): string
    {
      match this
      case RequestBody => "requestBody"
      case Response(code) => "response (" + code + ")"
      case Parameter(name) => "parameter (" + name + ")"
    }
  }

  /** The label of a location names it: distinct locations have distinct labels. */
  lemma LabelDetermines(a: Location, b: Location)
    requires a.Label() == b.Label()
    ensures a == b
  {
    var s := a.Label();
    match a
    case RequestBody =>
      assert s[2] == 'q';
      assert b.RequestBody?;
    case Response(c) =>
      assert s[0] == 'r' && s[2] == 's';
      assert s[10..|s| - 1] == c;
      assert b.Response?;
      assert s[10..|s| - 1] == b.statusCode;
    case Parameter(n) =>
      assert s[0] == 'p';
      assert s[11..|s| - 1] == n;
      assert b.Parameter?;
      assert s[11..|s| - 1] == b.name;
  }

  /** The detail record of one use, as written to one of the three buckets. */
  datatype Detail =
    | BodyUse(path: string, verb: Method, mimeType: string,
              description: JNode, summary: JNode, operationDescription: JNode)
    | ResponseUse(path: string, verb: Method, statusCode: string, mimeType: string,
                  description: JNode, summary: JNode, operationDescription: JNode)
    | ParameterUse(path: string, verb: Method, parameterName: string, parameterIn: JNode,
                   description: JNode, summary: JNode, operationDescription: JNode)
  {
    function Location(): Location
    {
      match this
      case BodyUse(_, _, _, _, _, _) => RequestBody
      case ResponseUse(_, _, code, _, _, _, _) => Response(code)
      case ParameterUse(_, _, name, _, _, _, _) => Parameter(name)
    }

    /** The record's `method` entry: the upper-case method name. */
    function HttpMethod(): string
    {
      verb.Label()
    }

    /** The endpoint and the location label the record stands for. */
    function Where(): Use
    {
      Use(path, verb, Location().Label())
    }
  }

  /** One `(path, method, usage location)` triple. */
  datatype Use = Use(path: string, verb: Method, where: string)

  /** An entry of `affected_endpoints`; its `method` entry is `verb.Label()`. */
  datatype Endpoint = Endpoint(path: string, verb: Method, operationId: JNode, summary: JNode,
                               description: JNode, usageLocations: seq<string>)
  {
    /** The record's `method` entry: the upper-case method name. */
    function HttpMethod(): string
    {
      verb.Label()
    }
  }

  /** The three buckets of `usage_details`. */
  datatype UsageDetails = UsageDetails(requestBody: seq<Detail>, response: seq<Detail>, parameters: seq<Detail>)

  /** The result of `analyze_schema_impact`. */
  datatype Impact = Impact(schemaName: string, affectedEndpoints: seq<Endpoint>, usageDetails: UsageDetails)

  /** An affected operation: its endpoint record and its detail records in order. */
  datatype Scanned = Scanned(endpoint: Endpoint, details: seq<Detail>)

  // ---------------------------------------------------------------------------
  // The shapes the analyzer reads without raising

  /** A location schema on which `"$ref" in schema` and the lookup after it do not raise. */
  predicate RefReadable(n: JNode)
  {
    match n
    case JObj(_) => true
    case JArr(xs) => JStr("$ref") !in xs
    case JStr(s) => !Contains(s, "$ref")
    case _ => false
  }

  /** A request body or response: a mapping whose `content`, if present, maps media types to mappings. */
  predicate ContentShape(h: JNode)
  {
    h.JObj?
    && (Has(h, "content") ==>
          h.fields["content"].JObj?
          && forall mt :: mt in h.fields["content"].fields ==>
               h.fields["content"].fields[mt].JObj? && RefReadable(SchemaOf(h.fields["content"].fields[mt])))
  }

  /** A parameter: a mapping with a readable schema whose `name`, if present, is a string. */
  predicate ParameterShape(q: JNode)
  {
    q.JObj? && RefReadable(SchemaOf(q)) && (Has(q, "name") ==> q.fields["name"].JStr?)
  }

  /**
   An operation: a mapping whose request body and responses have readable
   content and whose `parameters`, if present, is a list of parameters, or an
   empty mapping or string, over which the loop runs zero times.
   */
  predicate OperationShape(op: JNode)
  {
    op.JObj?
    && (Has(op, "requestBody") ==> ContentShape(op.fields["requestBody"]))
    && (Has(op, "responses") ==>
          op.fields["responses"].JObj?
          && forall c :: c in op.fields["responses"].fields ==> ContentShape(op.fields["responses"].fields[c]))
    && (Has(op, "parameters") ==>
          var ps := op.fields["parameters"];
          ps == EmptyObj || ps == EmptyStr
          || (ps.JArr? && forall i :: 0 <= i < |ps.elems| ==> ParameterShape(ps.elems[i])))
  }

  /** A path item: a mapping whose method keys hold operations. */
  predicate PathItemShape(item: JNode)
  {
    item.JObj? && forall k :: k in item.fields && MethodOf(k).Some? ==> OperationShape(item.fields[k])
  }

  /**
   What `analyze_schema_impact` needs of the decoded document. The test
   `"paths" not in spec` runs on any value: a list without the element
   `"paths"` or a string without the substring `paths` gives the empty result,
   while a number or `True` raises. A mapping with `paths` is scanned.
   */
  predicate ImpactShape(doc: JNode)
  {
    var spec := OrEmpty(doc);
    match spec
    case JObj(_) =>
      Has(spec, "paths") ==>
        spec.fields["paths"].JObj?
        && forall p :: p in spec.fields["paths"].fields ==> PathItemShape(spec.fields["paths"].fields[p])
    case JArr(xs) => JStr("paths") !in xs
    case JStr(s) => !Contains(s, "paths")
    case _ => false
  }

  // ---------------------------------------------------------------------------
  // Locations

  /** `h.get("schema", {})`. */
  function SchemaOf(h: JNode): JNode
  {
    GetOr(h, "schema", EmptyObj)
  }

  /** `h.get("content", {})`. */
  function Content(h: JNode): map<string, JNode>
  {
    Section(h, "content")
  }

  /** `op["requestBody"]`, or `{}` when the operation has none. */
  function Body(op: JNode): JNode
  {
    GetOr(op, "requestBody", EmptyObj)
  }

  /** `op["responses"]`, or no responses. */
  function Responses(op: JNode): map<string, JNode>
  {
    Section(op, "responses")
  }

  /** `op.get("parameters", [])`. */
  function Parameters(op: JNode): seq<JNode>
  {
    Elems(GetOr(op, "parameters", JArr([])))
  }

  /** `param.get("name", "")`, a string by the shape of parameters. */
  function NameOf(q: JNode): string
  {
    if Has(q, "name") && q.fields["name"].JStr? then q.fields["name"].str else ""
  }

  /**
   The test every location applies: a direct reference to the target, or a
   use found by the reference search. Under `AbandonNode` the search is the
   code as written; under `SkipExpansion` it is the corrected search.
   */
  predicate Counts(mode: Revisit, S: map<string, JNode>, t: string, schema: JNode)
  {
    SchemaRef(schema) == t
    || (if mode == AbandonNode then UsesSchemaAsWritten(S, t, schema) else UsesSchema(S, t, schema))
  }

  /** The location test for target `t` against the schemas `S`, as a value. */
  function Test(mode: Revisit, S: map<string, JNode>, t: string): JNode -> bool
  {
    schema => Counts(mode, S, t, schema)
  }

  /** The media types among `mimes` whose schema counts, in order. */
  function Matching(counts: JNode -> bool, content: map<string, JNode>, mimes: seq<string>): (r: seq<string>)
    requires forall mt :: mt in mimes ==> mt in content
    ensures forall mt :: mt in r <==> mt in mimes && counts(SchemaOf(content[mt]))
    decreases |mimes|
  {
    if mimes == [] then []
    else
      var rest := Matching(counts, content, mimes[1..]);
      if counts(SchemaOf(content[mimes[0]])) then [mimes[0]] + rest else rest
  }

  /** The media types of request body or response `h` whose schema counts. */
  function MatchingMedia(counts: JNode -> bool, h: JNode): (r: seq<string>)
    ensures forall mt :: mt in r <==> mt in Content(h) && counts(SchemaOf(Content(h)[mt]))
  {
    Matching(counts, Content(h), KeyList(Content(h)))
  }

  /** Whether some media type of request body or response `h` has a schema that counts. */
  predicate MediaCounts(counts: JNode -> bool, h: JNode)
  {
    MatchingMedia(counts, h) != []
  }

  lemma MediaCountsMeans(counts: JNode -> bool, h: JNode)
    ensures MediaCounts(counts, h) <==> exists mt :: mt in Content(h) && counts(SchemaOf(Content(h)[mt]))
  {
    var r := MatchingMedia(counts, h);
    if exists mt :: mt in Content(h) && counts(SchemaOf(Content(h)[mt])) {
      var mt :| mt in Content(h) && counts(SchemaOf(Content(h)[mt]));
      assert mt in r;
    }
    if r != [] {
      assert r[0] in r;
    }
  }

  /** The request-body uses of an operation, one per matching media type. */
  function BodyDetails(counts: JNode -> bool, p: string, m: Method, op: JNode): seq<Detail>
  {
    var body := Body(op);
    var mimes := MatchingMedia(counts, body);
    seq(|mimes|, i requires 0 <= i < |mimes| =>
      BodyUse(p, m, mimes[i], GetOr(body, "description", EmptyStr),
              GetOr(op, "summary", EmptyStr), GetOr(op, "description", EmptyStr)))
  }

  /** The uses in the response for status code `c`, one per matching media type. */
  function CodeDetails(counts: JNode -> bool, p: string, m: Method, op: JNode, c: string): seq<Detail>
    requires c in Responses(op)
  {
    var h := Responses(op)[c];
    var mimes := MatchingMedia(counts, h);
    seq(|mimes|, i requires 0 <= i < |mimes| =>
      ResponseUse(p, m, c, mimes[i], GetOr(h, "description", EmptyStr),
                  GetOr(op, "summary", EmptyStr), GetOr(op, "description", EmptyStr)))
  }

  /** The response uses for the status codes `codes`, code by code. */
  function ResponseDetails(counts: JNode -> bool, p: string, m: Method, op: JNode, codes: seq<string>): seq<Detail>
    requires forall c :: c in codes ==> c in Responses(op)
    decreases |codes|
  {
    if codes == [] then []
    else
      assert forall c :: c in codes[1..] ==> c in codes;
      CodeDetails(counts, p, m, op, codes[0]) + ResponseDetails(counts, p, m, op, codes[1..])
  }

  /** The parameters whose schema counts, in order. */
  function CountingParameters(counts: JNode -> bool, params: seq<JNode>): (r: seq<JNode>)
    ensures forall q :: q in r <==> q in params && counts(SchemaOf(q))
    decreases |params|
  {
    if params == [] then []
    else if counts(SchemaOf(params[0])) then [params[0]] + CountingParameters(counts, params[1..])
    else CountingParameters(counts, params[1..])
  }

  /** The parameter uses of an operation: one per parameter whose schema counts, in order. */
  function ParameterDetails(counts: JNode -> bool, p: string, m: Method, op: JNode): seq<Detail>
  {
    var cp := CountingParameters(counts, Parameters(op));
    seq(|cp|, i requires 0 <= i < |cp| =>
      ParameterUse(p, m, NameOf(cp[i]), GetOr(cp[i], "in", EmptyStr), GetOr(cp[i], "description", EmptyStr),
                   GetOr(op, "summary", EmptyStr), GetOr(op, "description", EmptyStr)))
  }

  /** Every use in one operation, in the order the code appends them: body, responses, parameters. */
  function OperationDetails(counts: JNode -> bool, p: string, m: Method, op: JNode): seq<Detail>
  {
    BodyDetails(counts, p, m, op)
    + ResponseDetails(counts, p, m, op, KeyList(Responses(op)))
    + ParameterDetails(counts, p, m, op)
  }

  /** Records made one per entry of `mimes` cover every media type of `c` whose schema counts. */
  lemma Covers(r: seq<Detail>, mimes: seq<string>, c: map<string, JNode>, counts: JNode -> bool)
    requires |r| == |mimes| && forall i :: 0 <= i < |r| ==> (r[i].BodyUse? || r[i].ResponseUse?) && r[i].mimeType == mimes[i]
    requires forall mt :: mt in mimes <==> mt in c && counts(SchemaOf(c[mt]))
    ensures forall mt :: mt in c && counts(SchemaOf(c[mt])) ==>
      exists i :: 0 <= i < |r| && (r[i].BodyUse? || r[i].ResponseUse?) && r[i].mimeType == mt
  {
    forall mt | mt in c && counts(SchemaOf(c[mt]))
      ensures exists i :: 0 <= i < |r| && (r[i].BodyUse? || r[i].ResponseUse?) && r[i].mimeType == mt
    {
      var i :| 0 <= i < |mimes| && mimes[i] == mt;
      assert r[i].mimeType == mt;
    }
  }

  /**
   The request-body records of an operation: one body use at `p` and `m` per
   media type of the body whose schema counts, carrying the body's and the
   operation's descriptive fields.
   */
  lemma BodyRecords(counts: JNode -> bool, p: string, m: Method, op: JNode)
    ensures var r, h := BodyDetails(counts, p, m, op), Body(op);
      forall i :: 0 <= i < |r| ==>
        && r[i].BodyUse? && r[i].path == p && r[i].verb == m
        && r[i].mimeType in Content(h) && counts(SchemaOf(Content(h)[r[i].mimeType]))
        && r[i].description == GetOr(h, "description", EmptyStr)
        && r[i].summary == GetOr(op, "summary", EmptyStr)
        && r[i].operationDescription == GetOr(op, "description", EmptyStr)
  {
    var r, h := BodyDetails(counts, p, m, op), Body(op);
    var mimes := MatchingMedia(counts, h);
    forall i | 0 <= i < |r|
      ensures r[i].mimeType in Content(h) && counts(SchemaOf(Content(h)[r[i].mimeType]))
    {
      assert mimes[i] in mimes;
    }
  }

  /** Every media type of the request body whose schema counts has its record. */
  lemma BodyCoverage(counts: JNode -> bool, p: string, m: Method, op: JNode)
    ensures var r, h := BodyDetails(counts, p, m, op), Body(op);
      forall mt :: mt in Content(h) && counts(SchemaOf(Content(h)[mt])) ==>
        exists i :: 0 <= i < |r| && (r[i].BodyUse? || r[i].ResponseUse?) && r[i].mimeType == mt
  {
    BodyMedia(counts, p, m, op);
    Covers(BodyDetails(counts, p, m, op), MatchingMedia(counts, Body(op)), Content(Body(op)), counts);
  }

  lemma BodyMedia(counts: JNode -> bool, p: string, m: Method, op: JNode)
    ensures var r, mimes := BodyDetails(counts, p, m, op), MatchingMedia(counts, Body(op));
      |r| == |mimes| && forall i :: 0 <= i < |r| ==> (r[i].BodyUse? || r[i].ResponseUse?) && r[i].mimeType == mimes[i]
  {
    var r, mimes := BodyDetails(counts, p, m, op), MatchingMedia(counts, Body(op));
    forall i | 0 <= i < |r|
      ensures r[i].BodyUse? && r[i].mimeType == mimes[i]
    {
    }
  }

  /** The same for the response under status code `c`: one response use per counting media type. */
  lemma CodeRecords(counts: JNode -> bool, p: string, m: Method, op: JNode, c: string)
    requires c in Responses(op)
    ensures var r, h := CodeDetails(counts, p, m, op, c), Responses(op)[c];
      forall i :: 0 <= i < |r| ==>
        && r[i].ResponseUse? && r[i].path == p && r[i].verb == m && r[i].statusCode == c
        && r[i].mimeType in Content(h) && counts(SchemaOf(Content(h)[r[i].mimeType]))
        && r[i].description == GetOr(h, "description", EmptyStr)
        && r[i].summary == GetOr(op, "summary", EmptyStr)
        && r[i].operationDescription == GetOr(op, "description", EmptyStr)
  {
    var r, h := CodeDetails(counts, p, m, op, c), Responses(op)[c];
    var mimes := MatchingMedia(counts, h);
    forall i | 0 <= i < |r|
      ensures r[i].mimeType in Content(h) && counts(SchemaOf(Content(h)[r[i].mimeType]))
    {
      assert mimes[i] in mimes;
    }
  }

  /** Every media type of the response under `c` whose schema counts has its record. */
  lemma CodeCoverage(counts: JNode -> bool, p: string, m: Method, op: JNode, c: string)
    requires c in Responses(op)
    ensures var r, h := CodeDetails(counts, p, m, op, c), Responses(op)[c];
      forall mt :: mt in Content(h) && counts(SchemaOf(Content(h)[mt])) ==>
        exists i :: 0 <= i < |r| && (r[i].BodyUse? || r[i].ResponseUse?) && r[i].mimeType == mt
  {
    Covers(CodeDetails(counts, p, m, op, c), MatchingMedia(counts, Responses(op)[c]), Content(Responses(op)[c]), counts);
  }

  /**
   The parameter records of an operation: one parameter use at `p` and `m`
   per parameter whose schema counts, carrying that parameter's name, `in`
   and description.
   */
  lemma ParameterRecords(counts: JNode -> bool, p: string, m: Method, op: JNode)
    ensures var r := ParameterDetails(counts, p, m, op);
      forall i :: 0 <= i < |r| ==>
        && r[i].ParameterUse? && r[i].path == p && r[i].verb == m
        && exists q :: (q in Parameters(op) && counts(SchemaOf(q)) && r[i].parameterName == NameOf(q)
             && r[i].parameterIn == GetOr(q, "in", EmptyStr) && r[i].description == GetOr(q, "description", EmptyStr))
  {
    var r := ParameterDetails(counts, p, m, op);
    var cp := CountingParameters(counts, Parameters(op));
    forall i | 0 <= i < |r|
      ensures && r[i].ParameterUse? && r[i].path == p && r[i].verb == m
        && exists q :: (q in Parameters(op) && counts(SchemaOf(q)) && r[i].parameterName == NameOf(q)
             && r[i].parameterIn == GetOr(q, "in", EmptyStr) && r[i].description == GetOr(q, "description", EmptyStr))
    {
      var q := cp[i];
      assert q in cp;
      assert r[i] == ParameterUse(p, m, NameOf(q), GetOr(q, "in", EmptyStr), GetOr(q, "description", EmptyStr),
                                  GetOr(op, "summary", EmptyStr), GetOr(op, "description", EmptyStr));
    }
  }

  /** Every parameter whose schema counts has its record. */
  lemma ParameterCoverage(counts: JNode -> bool, p: string, m: Method, op: JNode)
    ensures var r := ParameterDetails(counts, p, m, op);
      forall q :: q in Parameters(op) && counts(SchemaOf(q)) ==>
        exists i :: 0 <= i < |r| && r[i].ParameterUse? && r[i].parameterName == NameOf(q)
  {
    var r := ParameterDetails(counts, p, m, op);
    var cp := CountingParameters(counts, Parameters(op));
    forall q | q in Parameters(op) && counts(SchemaOf(q))
      ensures exists i :: 0 <= i < |r| && r[i].ParameterUse? && r[i].parameterName == NameOf(q)
    {
      assert q in cp;
      var i :| 0 <= i < |cp| && cp[i] == q;
      assert r[i].parameterName == NameOf(q);
    }
  }

  /** A `parameters` value that is an empty mapping or an empty string is looped over zero times: no parameter uses. */
  lemma EmptyParametersYieldNothing(counts: JNode -> bool, p: string, m: Method, op: JNode)
    requires Has(op, "parameters") && (op.fields["parameters"] == EmptyObj || op.fields["parameters"] == EmptyStr)
    ensures Parameters(op) == [] && ParameterDetails(counts, p, m, op) == []
  {
    assert GetOr(op, "parameters", JArr([])) == op.fields["parameters"];
  }

  /** The locations of a run of detail records. */
  function Locations(ds: seq<Detail>): (r: seq<Location>)
    ensures |r| == |ds| && forall i :: 0 <= i < |ds| ==> r[i] == ds[i].Location()
  {
    seq(|ds|, i requires 0 <= i < |ds| => ds[i].Location())
  }

  lemma LocationsAppend(a: seq<Detail>, b: seq<Detail>)
    ensures Locations(a + b) == Locations(a) + Locations(b)
  {
  }

  // ---------------------------------------------------------------------------
  // What an operation reports

  /** Every record of `ds` is a use at path `p` under method `m`. */
  ghost predicate At(ds: seq<Detail>, p: string, m: Method)
  {
    forall d :: d in ds ==> d.path == p && d.verb == m
  }

  lemma AtAppend(a: seq<Detail>, b: seq<Detail>, p: string, m: Method)
    requires At(a, p, m) && At(b, p, m)
    ensures At(a + b, p, m)
  {
  }

  lemma {:induction false} ResponseUses(counts: JNode -> bool, p: string, m: Method, op: JNode, codes: seq<string>)
    requires forall c :: c in codes ==> c in Responses(op)
    ensures At(ResponseDetails(counts, p, m, op, codes), p, m)
    decreases |codes|
  {
    if codes != [] {
      assert forall c :: c in codes[1..] ==> c in codes;
      ResponseUses(counts, p, m, op, codes[1..]);
      var here := CodeDetails(counts, p, m, op, codes[0]);
      assert At(here, p, m);
      AtAppend(here, ResponseDetails(counts, p, m, op, codes[1..]), p, m);
    }
  }

  /** The locations of the response for code `c`: that code alone, present exactly when a media type counts. */
  lemma CodeLocations(counts: JNode -> bool, p: string, m: Method, op: JNode, c: string)
    requires c in Responses(op)
    ensures forall l :: l in Locations(CodeDetails(counts, p, m, op, c)) ==> l == Response(c)
    ensures Response(c) in Locations(CodeDetails(counts, p, m, op, c)) <==> MediaCounts(counts, Responses(op)[c])
  {
    Uniform(CodeDetails(counts, p, m, op, c), Response(c));
  }

  /** The locations of the responses for `codes` name only those codes. */
  lemma {:induction false} ResponseCodes(counts: JNode -> bool, p: string, m: Method, op: JNode, codes: seq<string>)
    requires forall c :: c in codes ==> c in Responses(op)
    ensures forall l :: l in Locations(ResponseDetails(counts, p, m, op, codes)) ==> l.Response? && l.statusCode in codes
    decreases |codes|
  {
    if codes != [] {
      var here := CodeDetails(counts, p, m, op, codes[0]);
      var rest := ResponseDetails(counts, p, m, op, codes[1..]);
      LocationsAppend(here, rest);
      CodeLocations(counts, p, m, op, codes[0]);
      ResponseCodes(counts, p, m, op, codes[1..]);
      assert forall c :: c in codes[1..] ==> c in codes;
    }
  }

  /** Every use of an operation carries the operation's path and method. */
  lemma OperationUses(counts: JNode -> bool, p: string, m: Method, op: JNode)
    ensures At(OperationDetails(counts, p, m, op), p, m)
  {
    var body := BodyDetails(counts, p, m, op);
    var responses := ResponseDetails(counts, p, m, op, KeyList(Responses(op)));
    var params := ParameterDetails(counts, p, m, op);
    assert At(body, p, m);
    ResponseUses(counts, p, m, op, KeyList(Responses(op)));
    assert At(params, p, m);
    AtAppend(body, responses, p, m);
    AtAppend(body + responses, params, p, m);
  }

  lemma {:induction false} ResponseLocations(counts: JNode -> bool, p: string, m: Method, op: JNode, codes: seq<string>, c: string)
    requires forall c :: c in codes ==> c in Responses(op)
    requires c in codes
    ensures Response(c) in Locations(ResponseDetails(counts, p, m, op, codes)) <==> MediaCounts(counts, Responses(op)[c])
    decreases |codes|
  {
    var here := CodeDetails(counts, p, m, op, codes[0]);
    var rest := ResponseDetails(counts, p, m, op, codes[1..]);
    LocationsAppend(here, rest);
    assert Locations(ResponseDetails(counts, p, m, op, codes)) == Locations(here) + Locations(rest);
    CodeLocations(counts, p, m, op, codes[0]);
    if c != codes[0] {
      assert c in codes[1..];
      ResponseLocations(counts, p, m, op, codes[1..], c);
    } else if Response(c) in Locations(rest) {
      ResponseCodes(counts, p, m, op, codes[1..]);
      ResponseLocations(counts, p, m, op, codes[1..], c);
    }
  }

  /** A run of records that all sit at location `l` lists `l` alone, and lists it when non-empty. */
  lemma Uniform(ds: seq<Detail>, l: Location)
    requires forall i :: 0 <= i < |ds| ==> ds[i].Location() == l
    ensures forall x :: x in Locations(ds) ==> x == l
    ensures l in Locations(ds) <==> ds != []
  {
    if ds != [] {
      assert Locations(ds)[0] == l;
    }
  }

  /** The locations of the request body: `requestBody` alone, present exactly when a media type counts. */
  lemma BodyLocations(counts: JNode -> bool, p: string, m: Method, op: JNode)
    ensures forall l :: l in Locations(BodyDetails(counts, p, m, op)) ==> l == RequestBody
    ensures RequestBody in Locations(BodyDetails(counts, p, m, op)) <==> MediaCounts(counts, Body(op))
  {
    Uniform(BodyDetails(counts, p, m, op), RequestBody);
  }

  /** The locations of a run of parameters: their names, in order. */
  function Named(qs: seq<JNode>): (r: seq<Location>)
    ensures |r| == |qs| && forall i :: 0 <= i < |qs| ==> r[i] == Parameter(NameOf(qs[i]))
  {
    seq(|qs|, i requires 0 <= i < |qs| => Parameter(NameOf(qs[i])))
  }

  lemma ParameterNamed(counts: JNode -> bool, p: string, m: Method, op: JNode)
    ensures Locations(ParameterDetails(counts, p, m, op)) == Named(CountingParameters(counts, Parameters(op)))
  {
  }

  /** The locations of the parameters are parameter locations. */
  lemma ParameterKinds(counts: JNode -> bool, p: string, m: Method, op: JNode)
    ensures forall l :: l in Locations(ParameterDetails(counts, p, m, op)) ==> l.Parameter?
  {
    ParameterNamed(counts, p, m, op);
  }

  lemma NamedMeans(qs: seq<JNode>, name: string)
    ensures Parameter(name) in Named(qs) <==> exists q :: q in qs && NameOf(q) == name
  {
    var ls := Named(qs);
    if Parameter(name) in ls {
      var i :| 0 <= i < |ls| && ls[i] == Parameter(name);
      assert qs[i] in qs;
    }
    if exists q :: q in qs && NameOf(q) == name {
      var q :| q in qs && NameOf(q) == name;
      var i :| 0 <= i < |qs| && qs[i] == q;
      assert ls[i] == Parameter(name);
    }
  }

  /** The locations of the parameters name exactly the parameters whose schema counts. */
  lemma ParameterLocations(counts: JNode -> bool, p: string, m: Method, op: JNode, name: string)
    ensures Parameter(name) in Locations(ParameterDetails(counts, p, m, op)) <==>
      exists q :: q in Parameters(op) && counts(SchemaOf(q)) && NameOf(q) == name
  {
    ParameterNamed(counts, p, m, op);
    var cp := CountingParameters(counts, Parameters(op));
    NamedMeans(cp, name);
    if exists q :: q in Parameters(op) && counts(SchemaOf(q)) && NameOf(q) == name {
      var q :| q in Parameters(op) && counts(SchemaOf(q)) && NameOf(q) == name;
      assert q in cp;
    }
  }

  /** The locations of an operation, as the three runs the code appends. */
  lemma OperationSplit(counts: JNode -> bool, p: string, m: Method, op: JNode)
    ensures Locations(OperationDetails(counts, p, m, op))
      == Locations(BodyDetails(counts, p, m, op))
       + Locations(ResponseDetails(counts, p, m, op, KeyList(Responses(op))))
       + Locations(ParameterDetails(counts, p, m, op))
  {
    var body := BodyDetails(counts, p, m, op);
    var responses := ResponseDetails(counts, p, m, op, KeyList(Responses(op)));
    LocationsAppend(body, responses);
    LocationsAppend(body + responses, ParameterDetails(counts, p, m, op));
  }

  lemma OperationBody(counts: JNode -> bool, p: string, m: Method, op: JNode)
    ensures RequestBody in Locations(OperationDetails(counts, p, m, op)) <==> MediaCounts(counts, Body(op))
  {
    OperationSplit(counts, p, m, op);
    BodyLocations(counts, p, m, op);
    ResponseCodes(counts, p, m, op, KeyList(Responses(op)));
    ParameterKinds(counts, p, m, op);
  }

  lemma OperationResponses(counts: JNode -> bool, p: string, m: Method, op: JNode, c: string)
    ensures Response(c) in Locations(OperationDetails(counts, p, m, op))
      <==> c in Responses(op) && MediaCounts(counts, Responses(op)[c])
  {
    OperationSplit(counts, p, m, op);
    BodyLocations(counts, p, m, op);
    ResponseCodes(counts, p, m, op, KeyList(Responses(op)));
    ParameterKinds(counts, p, m, op);
    if c in Responses(op) {
      ResponseLocations(counts, p, m, op, KeyList(Responses(op)), c);
    }
  }

  lemma OperationParameters(counts: JNode -> bool, p: string, m: Method, op: JNode, name: string)
    ensures Parameter(name) in Locations(OperationDetails(counts, p, m, op))
      <==> exists q :: q in Parameters(op) && counts(SchemaOf(q)) && NameOf(q) == name
  {
    OperationSplit(counts, p, m, op);
    BodyLocations(counts, p, m, op);
    ResponseCodes(counts, p, m, op, KeyList(Responses(op)));
    ParameterLocations(counts, p, m, op, name);
  }

  /**
   The locations of an operation are exactly the counting places: the
   request body when one of its media types counts, the status codes one of
   whose media types counts, and the names of the counting parameters.
   */
  lemma OperationLocations(counts: JNode -> bool, p: string, m: Method, op: JNode)
    ensures var ls := Locations(OperationDetails(counts, p, m, op));
      && (RequestBody in ls <==> MediaCounts(counts, Body(op)))
      && (forall c :: Response(c) in ls <==> c in Responses(op) && MediaCounts(counts, Responses(op)[c]))
      && (forall name :: Parameter(name) in ls <==>
            exists q :: q in Parameters(op) && counts(SchemaOf(q)) && NameOf(q) == name)
  {
    OperationBody(counts, p, m, op);
    forall c {
      OperationResponses(counts, p, m, op, c);
    }
    forall name {
      OperationParameters(counts, p, m, op, name);
    }
  }

  /** The order in which an operation's scan visits locations: the body, then the responses, then the parameters. */
  function Stage(l: Location): nat
  {
    match l
    case RequestBody => 0
    case Response(_) => 1
    case Parameter(_) => 2
  }

  /** Three runs of locations, each at one stage and the stages rising, make a run whose stages never fall. */
  lemma StagesRise(a: seq<Location>, b: seq<Location>, c: seq<Location>)
    requires forall x :: x in a ==> Stage(x) == 0
    requires forall x :: x in b ==> Stage(x) == 1
    requires forall x :: x in c ==> Stage(x) == 2
    ensures var ls := a + b + c;
      forall i, j :: 0 <= i <= j < |ls| ==> Stage(ls[i]) <= Stage(ls[j])
  {
    var ls := a + b + c;
    forall i, j | 0 <= i <= j < |ls|
      ensures Stage(ls[i]) <= Stage(ls[j])
    {
      if i < |a| {
        assert ls[i] == a[i];
      } else if i < |a| + |b| {
        assert ls[i] == b[i - |a|];
        if j < |a| + |b| {
          assert ls[j] == b[j - |a|];
        } else {
          assert ls[j] == c[j - |a| - |b|];
        }
      } else {
        assert ls[i] == c[i - |a| - |b|] && ls[j] == c[j - |a| - |b|];
      }
    }
  }

  /**
   An operation lists its locations in scan order: every request-body entry
   before every response entry, and every response entry before every
   parameter entry.
   */
  lemma OperationOrder(counts: JNode -> bool, p: string, m: Method, op: JNode)
    ensures var ls := Locations(OperationDetails(counts, p, m, op));
      forall i, j :: 0 <= i <= j < |ls| ==> Stage(ls[i]) <= Stage(ls[j])
  {
    var body := BodyDetails(counts, p, m, op);
    var responses := ResponseDetails(counts, p, m, op, KeyList(Responses(op)));
    var params := ParameterDetails(counts, p, m, op);
    BodyLocations(counts, p, m, op);
    ResponseCodes(counts, p, m, op, KeyList(Responses(op)));
    ParameterKinds(counts, p, m, op);
    InStages(body, responses, params);
  }

  /** Body records, then response records, then parameter records: their locations rise in stage. */
  lemma InStages(body: seq<Detail>, responses: seq<Detail>, params: seq<Detail>)
    requires forall l :: l in Locations(body) ==> l == RequestBody
    requires forall l :: l in Locations(responses) ==> l.Response?
    requires forall l :: l in Locations(params) ==> l.Parameter?
    ensures var ls := Locations(body + responses + params);
      forall i, j :: 0 <= i <= j < |ls| ==> Stage(ls[i]) <= Stage(ls[j])
  {
    LocationsAppend(body, responses);
    LocationsAppend(body + responses, params);
    StagesRise(Locations(body), Locations(responses), Locations(params));
  }

  /**
   An operation reports a use exactly when one of its places counts: a
   request-body media type, a media type of some response, or a parameter.
   */
  lemma OperationAffected(counts: JNode -> bool, p: string, m: Method, op: JNode)
    ensures OperationDetails(counts, p, m, op) != [] <==>
      || MediaCounts(counts, Body(op))
      || (exists c :: c in Responses(op) && MediaCounts(counts, Responses(op)[c]))
      || (exists q :: q in Parameters(op) && counts(SchemaOf(q)))
  {
    var ds := OperationDetails(counts, p, m, op);
    var ls := Locations(ds);
    OperationBody(counts, p, m, op);
    if ds != [] {
      assert ls[0] in ls;
      match ls[0]
      case RequestBody =>
      case Response(c) =>
        OperationResponses(counts, p, m, op, c);
      case Parameter(name) =>
        OperationParameters(counts, p, m, op, name);
    }
    if exists c :: c in Responses(op) && MediaCounts(counts, Responses(op)[c]) {
      var c :| c in Responses(op) && MediaCounts(counts, Responses(op)[c]);
      OperationResponses(counts, p, m, op, c);
    }
    if exists q :: q in Parameters(op) && counts(SchemaOf(q)) {
      var q :| q in Parameters(op) && counts(SchemaOf(q));
      OperationParameters(counts, p, m, op, NameOf(q));
    }
  }

  /**
   The empty target name matches every location schema without a `$ref`,
   since that is what the reference extraction returns for them: for target
   `""`, an operation whose request body has such a media type always lists
   `requestBody`.
   */
  lemma EmptyTargetMatchesPlainSchemas(mode: Revisit, S: map<string, JNode>, p: string, m: Method, op: JNode, mt: string)
    requires mt in Content(Body(op)) && !Has(SchemaOf(Content(Body(op))[mt]), "$ref")
    ensures RequestBody in Locations(OperationDetails(Test(mode, S, ""), p, m, op))
  {
    MediaCountsMeans(Test(mode, S, ""), Body(op));
    OperationBody(Test(mode, S, ""), p, m, op);
  }

  // ---------------------------------------------------------------------------
  // Endpoints

  /** The labels of a run of detail records: an endpoint's `usage_locations`. */
  function Labels(ds: seq<Detail>): (r: seq<string>)
    ensures |r| == |ds| && forall i :: 0 <= i < |ds| ==> r[i] == ds[i].Location().Label()
  {
    seq(|ds|, i requires 0 <= i < |ds| => ds[i].Location().Label())
  }

  /** The endpoint record of operation `op` at path `p` with uses `ds`. */
  function EndpointOf(p: string, m: Method, op: JNode, ds: seq<Detail>): Endpoint
  {
    Endpoint(p, m, GetOr(op, "operationId", EmptyStr), GetOr(op, "summary", EmptyStr),
             GetOr(op, "description", EmptyStr), Labels(ds))
  }

  /** The scan of one operation from its path, its method and the operation itself. */
  type Scanner = (string, Method, JNode) -> seq<Detail>

  /** `s` is the scan of the operation under its method's key in `item`, and that scan found a use. */
  ghost predicate ScannedFrom(scan: Scanner, p: string, item: JNode, s: Scanned)
    requires item.JObj?
  {
    s.endpoint.verb.Key() in item.fields
    && s.details == scan(p, s.endpoint.verb, item.fields[s.endpoint.verb.Key()])
    && s.details != []
    && s.endpoint == EndpointOf(p, s.endpoint.verb, item.fields[s.endpoint.verb.Key()], s.details)
  }

  /**
   The affected operations of one path item, over its keys `keys`: keys that
   are not one of the eight methods are skipped, and an operation is kept
   when its scan found a use.
   */
  function ItemEndpoints(scan: Scanner, p: string, item: JNode, keys: seq<string>): (r: seq<Scanned>)
    requires item.JObj? && forall k :: k in keys ==> k in item.fields
    ensures forall s :: s in r ==> s.endpoint.verb.Key() in keys && ScannedFrom(scan, p, item, s)
    decreases |keys|
  {
    if keys == [] then []
    else
      var rest := ItemEndpoints(scan, p, item, keys[1..]);
      assert forall k :: k in keys[1..] ==> k in keys;
      match MethodOf(keys[0])
      case None => rest
      case Some(m) =>
        var ds := scan(p, m, item.fields[keys[0]]);
        if ds == [] then rest
        else [Scanned(EndpointOf(p, m, item.fields[keys[0]], ds), ds)] + rest
  }

  /** A method key of the item is listed exactly when the scan of its operation found a use. */
  lemma {:induction false} ItemListing(scan: Scanner, p: string, item: JNode, keys: seq<string>, k: string)
    requires item.JObj? && forall k :: k in keys ==> k in item.fields
    requires k in keys && MethodOf(k).Some?
    ensures (exists s :: s in ItemEndpoints(scan, p, item, keys) && s.endpoint.verb == MethodOf(k).value)
      <==> scan(p, MethodOf(k).value, item.fields[k]) != []
    decreases |keys|
  {
    var r := ItemEndpoints(scan, p, item, keys);
    var m := MethodOf(k).value;
    assert forall k :: k in keys[1..] ==> k in keys;
    if keys[0] == k {
      var ds := scan(p, m, item.fields[k]);
      if ds != [] {
        assert r[0].endpoint.verb == m;
      } else {
        assert r == ItemEndpoints(scan, p, item, keys[1..]);
        assert forall s :: s in r ==> ScannedFrom(scan, p, item, s);
      }
    } else {
      ItemListing(scan, p, item, keys[1..], k);
      var rest := ItemEndpoints(scan, p, item, keys[1..]);
      assert forall s :: s in r ==> s in rest || s.endpoint.verb.Key() == keys[0];
      assert forall s :: s in r && s.endpoint.verb.Key() == keys[0] ==> s.endpoint.verb != m;
    }
  }

  /** No method appears twice in `r`. */
  predicate VerbsOnce(r: seq<Scanned>)
  {
    forall i, j :: 0 <= i < j < |r| ==> r[i].endpoint.verb != r[j].endpoint.verb
  }

  /** No (path, method) pair appears twice in `r`. */
  predicate PairsOnce(r: seq<Scanned>)
  {
    forall i, j :: 0 <= i < j < |r| ==>
      r[i].endpoint.path != r[j].endpoint.path || r[i].endpoint.verb != r[j].endpoint.verb
  }

  lemma PairsOnceAppend(a: seq<Scanned>, b: seq<Scanned>)
    requires PairsOnce(a) && PairsOnce(b)
    requires forall x, y :: x in a && y in b ==> x.endpoint.path != y.endpoint.path || x.endpoint.verb != y.endpoint.verb
    ensures PairsOnce(a + b)
  {
    var r := a + b;
    forall i, j | 0 <= i < j < |r|
      ensures r[i].endpoint.path != r[j].endpoint.path || r[i].endpoint.verb != r[j].endpoint.verb
    {
      if j < |a| {
        assert r[i] == a[i] && r[j] == a[j];
      } else if i >= |a| {
        assert r[i] == b[i - |a|] && r[j] == b[j - |a|];
      } else {
        assert r[i] in a && r[j] in b;
      }
    }
  }

  lemma VerbsOnceCons(x: Scanned, rest: seq<Scanned>)
    requires VerbsOnce(rest) && forall y :: y in rest ==> y.endpoint.verb != x.endpoint.verb
    ensures VerbsOnce([x] + rest)
  {
    var r := [x] + rest;
    forall i, j | 0 <= i < j < |r| ensures r[i].endpoint.verb != r[j].endpoint.verb
    {
      assert r[j] == rest[j - 1];
      if i > 0 {
        assert r[i] == rest[i - 1];
      }
    }
  }

  /** Over keys listed once, no method appears twice in the item's list. */
  lemma {:induction false} ItemDistinct(scan: Scanner, p: string, item: JNode, keys: seq<string>)
    requires item.JObj? && forall k :: k in keys ==> k in item.fields
    requires Distinct(keys)
    ensures VerbsOnce(ItemEndpoints(scan, p, item, keys))
    decreases |keys|
  {
    if keys != [] {
      assert forall k :: k in keys[1..] ==> k in keys;
      assert Distinct(keys[1..]);
      ItemDistinct(scan, p, item, keys[1..]);
      var rest := ItemEndpoints(scan, p, item, keys[1..]);
      var r := ItemEndpoints(scan, p, item, keys);
      if r != rest {
        assert keys[0] !in keys[1..];
        assert r == [r[0]] + rest && r[0].endpoint.verb.Key() == keys[0];
        VerbsOnceCons(r[0], rest);
      }
    }
  }

  /** The affected operations of the paths `pkeys`, path by path. */
  function PathEndpoints(scan: Scanner, paths: map<string, JNode>, pkeys: seq<string>): (r: seq<Scanned>)
    requires forall p :: p in paths ==> paths[p].JObj?
    requires forall p :: p in pkeys ==> p in paths
    ensures forall s :: s in r ==> s.endpoint.path in pkeys && ScannedFrom(scan, s.endpoint.path, paths[s.endpoint.path], s)
    decreases |pkeys|
  {
    if pkeys == [] then []
    else
      var p := pkeys[0];
      var here := ItemEndpoints(scan, p, paths[p], KeyList(paths[p].fields));
      var rest := PathEndpoints(scan, paths, pkeys[1..]);
      assert forall s :: s in here ==> s.endpoint.path == p;
      assert forall q :: q in pkeys[1..] ==> q in pkeys;
      here + rest
  }

  /** A method key of a listed path is listed exactly when the scan of its operation found a use. */
  lemma {:induction false} PathListing(scan: Scanner, paths: map<string, JNode>, pkeys: seq<string>, p: string, k: string)
    requires forall p :: p in paths ==> paths[p].JObj?
    requires forall p :: p in pkeys ==> p in paths
    requires p in pkeys && k in paths[p].fields && MethodOf(k).Some?
    ensures (exists s :: s in PathEndpoints(scan, paths, pkeys) && s.endpoint.path == p && s.endpoint.verb == MethodOf(k).value)
      <==> scan(p, MethodOf(k).value, paths[p].fields[k]) != []
    decreases |pkeys|
  {
    var r := PathEndpoints(scan, paths, pkeys);
    var m := MethodOf(k).value;
    var q := pkeys[0];
    var here := ItemEndpoints(scan, q, paths[q], KeyList(paths[q].fields));
    var rest := PathEndpoints(scan, paths, pkeys[1..]);
    assert r == here + rest;
    assert forall q :: q in pkeys[1..] ==> q in pkeys;
    if q == p {
      ItemListing(scan, p, paths[p], KeyList(paths[p].fields), k);
      if p in pkeys[1..] {
        PathListing(scan, paths, pkeys[1..], p, k);
      }
    } else {
      PathListing(scan, paths, pkeys[1..], p, k);
      assert forall s :: s in here ==> s.endpoint.path != p;
    }
  }

  /** Over paths listed once, no (path, method) pair appears twice. */
  lemma {:induction false} PathDistinct(scan: Scanner, paths: map<string, JNode>, pkeys: seq<string>)
    requires forall p :: p in paths ==> paths[p].JObj?
    requires forall p :: p in pkeys ==> p in paths
    requires Distinct(pkeys)
    ensures PairsOnce(PathEndpoints(scan, paths, pkeys))
    decreases |pkeys|
  {
    if pkeys != [] {
      var p := pkeys[0];
      var here := ItemEndpoints(scan, p, paths[p], KeyList(paths[p].fields));
      var rest := PathEndpoints(scan, paths, pkeys[1..]);
      assert forall q :: q in pkeys[1..] ==> q in pkeys;
      assert Distinct(pkeys[1..]);
      PathDistinct(scan, paths, pkeys[1..]);
      ItemDistinct(scan, p, paths[p], KeyList(paths[p].fields));
      assert p !in pkeys[1..];
      PairsOnceAppend(here, rest);
    }
  }

  // ---------------------------------------------------------------------------
  // The analysis

  /** The three buckets of `usage_details`. */
  datatype Bucket = BodyBucket | ResponseBucket | ParameterBucket

  /** The bucket the records of a location go to. */
  function BucketOf(l: Location): Bucket
  {
    match l
    case RequestBody => BodyBucket
    case Response(_) => ResponseBucket
    case Parameter(_) => ParameterBucket
  }

  /** The records of one bucket, in order. */
  function OfKind(ds: seq<Detail>, b: Bucket): (r: seq<Detail>)
    ensures forall d :: d in r <==> d in ds && BucketOf(d.Location()) == b
    decreases |ds|
  {
    if ds == [] then []
    else (if BucketOf(ds[0].Location()) == b then [ds[0]] else []) + OfKind(ds[1..], b)
  }

  /** Every record of every scanned operation, in order. */
  function AllDetails(scans: seq<Scanned>): seq<Detail>
    decreases |scans|
  {
    if scans == [] then [] else scans[0].details + AllDetails(scans[1..])
  }

  function Endpoints(scans: seq<Scanned>): (r: seq<Endpoint>)
    ensures |r| == |scans| && forall i :: 0 <= i < |scans| ==> r[i] == scans[i].endpoint
  {
    seq(|scans|, i requires 0 <= i < |scans| => scans[i].endpoint)
  }

  const NoUsage: UsageDetails := UsageDetails([], [], [])

  /** The operation scan of the analysis of target `t` against the schemas `S`. */
  function ScanFor(mode: Revisit, S: map<string, JNode>, t: string): Scanner
  {
    (p, m, op) => OperationDetails(Test(mode, S, t), p, m, op)
  }

  /** The affected operations of a document that has `paths`. */
  function Scans(mode: Revisit, spec: JNode, t: string): seq<Scanned>
    requires spec.JObj? && Has(spec, "paths") && spec.fields["paths"].JObj?
    requires forall p :: p in spec.fields["paths"].fields ==> spec.fields["paths"].fields[p].JObj?
  {
    var paths := spec.fields["paths"].fields;
    PathEndpoints(ScanFor(mode, Schemas(spec), t), paths, KeyList(paths))
  }

  /** The result record built from the affected operations. */
  function Assemble(t: string, scans: seq<Scanned>): Impact
  {
    var all := AllDetails(scans);
    Impact(t, Endpoints(scans), UsageDetails(OfKind(all, BodyBucket), OfKind(all, ResponseBucket), OfKind(all, ParameterBucket)))
  }

  /**
   `analyze_schema_impact` on a decoded document: the echoed name, the
   affected endpoints and the three buckets, each holding records of its own
   kind only. A document without `paths` has no affected endpoint. With
   `AbandonNode` this is the code as written; with `SkipExpansion` it is the
   same analysis over the corrected reference search.
   */
  function AnalyzeSchemaImpact(mode: Revisit, doc: JNode, t: string): (r: Impact)
    requires ImpactShape(doc)
    ensures r.schemaName == t
    ensures !Has(OrEmpty(doc), "paths") ==> r.affectedEndpoints == [] && r.usageDetails == NoUsage
    ensures forall d :: d in r.usageDetails.requestBody ==> d.BodyUse?
    ensures forall d :: d in r.usageDetails.response ==> d.ResponseUse?
    ensures forall d :: d in r.usageDetails.parameters ==> d.ParameterUse?
  {
    var spec := OrEmpty(doc);
    if !Has(spec, "paths") then Impact(t, [], NoUsage)
    else Assemble(t, Scans(mode, spec, t))
  }

  // ---------------------------------------------------------------------------
  // What the analysis promises

  /** The triples of a run of records. */
  function DetailUses(ds: seq<Detail>): seq<Use>
    decreases |ds|
  {
    if ds == [] then [] else [ds[0].Where()] + DetailUses(ds[1..])
  }

  lemma {:induction false} DetailUsesAt(ds: seq<Detail>)
    ensures |DetailUses(ds)| == |ds| && forall i :: 0 <= i < |ds| ==> DetailUses(ds)[i] == ds[i].Where()
    decreases |ds|
  {
    if ds != [] {
      DetailUsesAt(ds[1..]);
    }
  }

  /** The triples an endpoint record reports, one per entry of its `usage_locations`. */
  function Reported(e: Endpoint): (r: seq<Use>)
    ensures |r| == |e.usageLocations| && forall i :: 0 <= i < |r| ==> r[i] == Use(e.path, e.verb, e.usageLocations[i])
  {
    seq(|e.usageLocations|, i requires 0 <= i < |e.usageLocations| => Use(e.path, e.verb, e.usageLocations[i]))
  }

  /** The triples a run of endpoint records reports, endpoint by endpoint. */
  function EndpointUses(es: seq<Endpoint>): seq<Use>
    decreases |es|
  {
    if es == [] then [] else Reported(es[0]) + EndpointUses(es[1..])
  }

  /** The number of location entries over a run of endpoint records. */
  function LocationCount(es: seq<Endpoint>): nat
    decreases |es|
  {
    if es == [] then 0 else |es[0].usageLocations| + LocationCount(es[1..])
  }

  lemma {:induction false} LocationCountIsUses(es: seq<Endpoint>)
    ensures |EndpointUses(es)| == LocationCount(es)
    decreases |es|
  {
    if es != [] {
      LocationCountIsUses(es[1..]);
    }
  }

  lemma {:induction false} DetailUsesAppend(a: seq<Detail>, b: seq<Detail>)
    ensures DetailUses(a + b) == DetailUses(a) + DetailUses(b)
    decreases |a|
  {
    if a == [] {
      assert a + b == b;
    } else {
      assert (a + b)[1..] == a[1..] + b;
      DetailUsesAppend(a[1..], b);
    }
  }

  /** A scanned operation whose records sit at its endpoint and whose labels are its records' labels. */
  ghost predicate Consistent(s: Scanned)
  {
    At(s.details, s.endpoint.path, s.endpoint.verb) && s.endpoint.usageLocations == Labels(s.details)
  }

  lemma ConsistentReports(s: Scanned)
    requires Consistent(s)
    ensures Reported(s.endpoint) == DetailUses(s.details)
  {
    var a, b := Reported(s.endpoint), DetailUses(s.details);
    DetailUsesAt(s.details);
    forall i | 0 <= i < |a|
      ensures a[i] == b[i]
    {
      assert s.details[i] in s.details;
    }
  }

  /** Over consistent scans, the endpoints report exactly the records, in the same order. */
  lemma {:induction false} ReportsAreRecords(scans: seq<Scanned>)
    requires forall s :: s in scans ==> Consistent(s)
    ensures EndpointUses(Endpoints(scans)) == DetailUses(AllDetails(scans))
    decreases |scans|
  {
    if scans != [] {
      assert forall s :: s in scans[1..] ==> s in scans;
      ReportsAreRecords(scans[1..]);
      assert Endpoints(scans)[1..] == Endpoints(scans[1..]);
      ConsistentReports(scans[0]);
      DetailUsesAppend(scans[0].details, AllDetails(scans[1..]));
    }
  }

  lemma OfKindCons(ds: seq<Detail>, b: Bucket)
    requires ds != []
    ensures DetailUses(OfKind(ds, b))
      == (if BucketOf(ds[0].Location()) == b then [ds[0].Where()] else []) + DetailUses(OfKind(ds[1..], b))
  {
    var rest := OfKind(ds[1..], b);
    if BucketOf(ds[0].Location()) == b {
      assert OfKind(ds, b) == [ds[0]] + rest;
      assert ([ds[0]] + rest)[1..] == rest;
    } else {
      assert OfKind(ds, b) == rest;
    }
  }

  /**
   Putting `w` in front of one of three parts whose concatenation is a
   permutation of `u` keeps the concatenation a permutation of `[w] + u`.
   */
  lemma FrontOfThree(w: Use, u: seq<Use>, a: seq<Use>, b: seq<Use>, c: seq<Use>, a': seq<Use>, b': seq<Use>, c': seq<Use>)
    requires multiset(u) == multiset(a + b + c)
    requires || (a' == [w] + a && b' == b && c' == c)
             || (a' == a && b' == [w] + b && c' == c)
             || (a' == a && b' == b && c' == [w] + c)
    ensures multiset([w] + u) == multiset(a' + b' + c')
  {
  }

  /** The three buckets hold every record once: the buckets together are a permutation of all records. */
  lemma {:induction false} KindSplit(ds: seq<Detail>)
    ensures multiset(DetailUses(ds))
      == multiset(DetailUses(OfKind(ds, BodyBucket)) + DetailUses(OfKind(ds, ResponseBucket)) + DetailUses(OfKind(ds, ParameterBucket)))
    decreases |ds|
  {
    if ds != [] {
      KindSplit(ds[1..]);
      OfKindCons(ds, BodyBucket);
      OfKindCons(ds, ResponseBucket);
      OfKindCons(ds, ParameterBucket);
      FrontOfThree(ds[0].Where(), DetailUses(ds[1..]),
                   DetailUses(OfKind(ds[1..], BodyBucket)), DetailUses(OfKind(ds[1..], ResponseBucket)), DetailUses(OfKind(ds[1..], ParameterBucket)),
                   DetailUses(OfKind(ds, BodyBucket)), DetailUses(OfKind(ds, ResponseBucket)), DetailUses(OfKind(ds, ParameterBucket)));
    }
  }

  /** Every scan of the analysis is consistent and found a use. */
  lemma ScansConsistent(mode: Revisit, spec: JNode, t: string)
    requires spec.JObj? && Has(spec, "paths") && spec.fields["paths"].JObj?
    requires forall p :: p in spec.fields["paths"].fields ==> spec.fields["paths"].fields[p].JObj?
    ensures forall s :: s in Scans(mode, spec, t) ==> Consistent(s) && s.details != []
  {
    var paths := spec.fields["paths"].fields;
    var scan := ScanFor(mode, Schemas(spec), t);
    forall s | s in Scans(mode, spec, t)
      ensures Consistent(s) && s.details != []
    {
      var p, m := s.endpoint.path, s.endpoint.verb;
      assert ScannedFrom(scan, p, paths[p], s);
      OperationUses(Test(mode, Schemas(spec), t), p, m, paths[p].fields[m.Key()]);
    }
  }

  /**
   Every entry of an endpoint's `usage_locations` is paired with exactly one
   detail record for that endpoint and label: as multisets of (path, method,
   label) triples, the endpoints report what the three buckets hold.
   */
  lemma ImpactRecordPerLocation(mode: Revisit, doc: JNode, t: string)
    requires ImpactShape(doc)
    ensures var r := AnalyzeSchemaImpact(mode, doc, t);
      var u := r.usageDetails;
      multiset(EndpointUses(r.affectedEndpoints))
        == multiset(DetailUses(u.requestBody) + DetailUses(u.response) + DetailUses(u.parameters))
  {
    var spec := OrEmpty(doc);
    if Has(spec, "paths") {
      var scans := Scans(mode, spec, t);
      assert AnalyzeSchemaImpact(mode, doc, t) == Assemble(t, scans);
      ScansConsistent(mode, spec, t);
      ReportsAreRecords(scans);
      KindSplit(AllDetails(scans));
    }
  }

  /** Hence the buckets hold as many records as there are location entries over all endpoints. */
  lemma ImpactRecordCount(mode: Revisit, doc: JNode, t: string)
    requires ImpactShape(doc)
    ensures var r := AnalyzeSchemaImpact(mode, doc, t);
      var u := r.usageDetails;
      |u.requestBody| + |u.response| + |u.parameters| == LocationCount(r.affectedEndpoints)
  {
    var r := AnalyzeSchemaImpact(mode, doc, t);
    var u := r.usageDetails;
    ImpactRecordPerLocation(mode, doc, t);
    LocationCountIsUses(r.affectedEndpoints);
    DetailUsesAt(u.requestBody);
    DetailUsesAt(u.response);
    DetailUsesAt(u.parameters);
    var all := DetailUses(u.requestBody) + DetailUses(u.response) + DetailUses(u.parameters);
    assert |multiset(all)| == |all|;
    assert |multiset(EndpointUses(r.affectedEndpoints))| == |EndpointUses(r.affectedEndpoints)|;
  }

  /**
   Every affected endpoint sits at a path of the document under one of its
   method keys, and has at least one usage location.
   */
  lemma ImpactEndpointsReal(mode: Revisit, doc: JNode, t: string)
    requires ImpactShape(doc)
    ensures forall e :: e in AnalyzeSchemaImpact(mode, doc, t).affectedEndpoints ==>
      && e.path in Paths(OrEmpty(doc))
      && e.verb.Key() in Fields(Paths(OrEmpty(doc))[e.path])
      && e.usageLocations != []
  {
    var spec := OrEmpty(doc);
    if Has(spec, "paths") {
      var scans := Scans(mode, spec, t);
      ScansConsistent(mode, spec, t);
      var paths := spec.fields["paths"].fields;
      forall e | e in AnalyzeSchemaImpact(mode, doc, t).affectedEndpoints
        ensures e.path in paths && e.verb.Key() in paths[e.path].fields && e.usageLocations != []
      {
        var i :| 0 <= i < |Endpoints(scans)| && Endpoints(scans)[i] == e;
        var s := scans[i];
        assert s in scans;
        assert ScannedFrom(ScanFor(mode, Schemas(spec), t), e.path, paths[e.path], s);
      }
    }
  }

  /** No (path, method) pair is listed twice among the affected endpoints. */
  lemma ImpactEndpointsDistinct(mode: Revisit, doc: JNode, t: string)
    requires ImpactShape(doc)
    ensures var es := AnalyzeSchemaImpact(mode, doc, t).affectedEndpoints;
      forall i, j :: 0 <= i < j < |es| ==> es[i].path != es[j].path || es[i].verb != es[j].verb
  {
    var spec := OrEmpty(doc);
    if Has(spec, "paths") {
      var paths := spec.fields["paths"].fields;
      PathDistinct(ScanFor(mode, Schemas(spec), t), paths, KeyList(paths));
    }
  }

  lemma InEndpoints(scans: seq<Scanned>, e: Endpoint)
    ensures e in Endpoints(scans) <==> exists s :: s in scans && s.endpoint == e
  {
    if e in Endpoints(scans) {
      var i :| 0 <= i < |scans| && Endpoints(scans)[i] == e;
      assert scans[i] in scans;
    }
    if exists s :: s in scans && s.endpoint == e {
      var s :| s in scans && s.endpoint == e;
      var i :| 0 <= i < |scans| && scans[i] == s;
      assert Endpoints(scans)[i] == e;
    }
  }

  /** An operation under a method key of a path is listed exactly when its scan finds a use. */
  lemma ImpactListing(mode: Revisit, doc: JNode, t: string, p: string, k: string)
    requires ImpactShape(doc)
    requires p in Paths(OrEmpty(doc)) && k in Fields(Paths(OrEmpty(doc))[p]) && MethodOf(k).Some?
    ensures var es := AnalyzeSchemaImpact(mode, doc, t).affectedEndpoints;
      var m, op := MethodOf(k).value, Paths(OrEmpty(doc))[p].fields[k];
      (exists e :: e in es && e.path == p && e.verb == m)
        <==> OperationDetails(Test(mode, Schemas(OrEmpty(doc)), t), p, m, op) != []
  {
    var spec := OrEmpty(doc);
    var paths := spec.fields["paths"].fields;
    var scans := Scans(mode, spec, t);
    var m := MethodOf(k).value;
    PathListing(ScanFor(mode, Schemas(spec), t), paths, KeyList(paths), p, k);
    if exists s :: s in scans && s.endpoint.path == p && s.endpoint.verb == m {
      var s :| s in scans && s.endpoint.path == p && s.endpoint.verb == m;
      InEndpoints(scans, s.endpoint);
    }
    if exists e :: e in Endpoints(scans) && e.path == p && e.verb == m {
      var e :| e in Endpoints(scans) && e.path == p && e.verb == m;
      InEndpoints(scans, e);
    }
  }

  /**
   A listed operation carries its `operationId`, `summary` and `description`
   and the labels of its records, in order, as `usage_locations`.
   */
  lemma ImpactEntry(mode: Revisit, doc: JNode, t: string, e: Endpoint)
    requires ImpactShape(doc)
    requires e in AnalyzeSchemaImpact(mode, doc, t).affectedEndpoints
    ensures e.path in Paths(OrEmpty(doc)) && e.verb.Key() in Fields(Paths(OrEmpty(doc))[e.path])
    ensures var op := Paths(OrEmpty(doc))[e.path].fields[e.verb.Key()];
      e == EndpointOf(e.path, e.verb, op, OperationDetails(Test(mode, Schemas(OrEmpty(doc)), t), e.path, e.verb, op))
  {
    var spec := OrEmpty(doc);
    var paths := spec.fields["paths"].fields;
    var scans := Scans(mode, spec, t);
    InEndpoints(scans, e);
    var s :| s in scans && s.endpoint == e;
    assert ScannedFrom(ScanFor(mode, Schemas(spec), t), e.path, paths[e.path], s);
  }

  // ---------------------------------------------------------------------------
  // The code as written against the corrected search

  /**
   The corrected location test is "a direct reference or reachable", and
   every location the code as written counts, it counts too.
   */
  lemma CountsMeans(S: map<string, JNode>, t: string, schema: JNode)
    ensures Counts(SkipExpansion, S, t, schema) <==> SchemaRef(schema) == t || Uses(S, t, schema)
    ensures Counts(AbandonNode, S, t, schema) ==> Counts(SkipExpansion, S, t, schema)
  {
  }

  lemma MediaWithinCorrected(S: map<string, JNode>, t: string, h: JNode)
    ensures MediaCounts(Test(AbandonNode, S, t), h) ==> MediaCounts(Test(SkipExpansion, S, t), h)
  {
    MediaCountsMeans(Test(AbandonNode, S, t), h);
    MediaCountsMeans(Test(SkipExpansion, S, t), h);
    if MediaCounts(Test(AbandonNode, S, t), h) {
      var mt :| mt in Content(h) && Test(AbandonNode, S, t)(SchemaOf(Content(h)[mt]));
      CountsMeans(S, t, SchemaOf(Content(h)[mt]));
    }
  }

  /** Every location the code as written reports for an operation, the corrected analysis reports too. */
  lemma OperationWithinCorrected(S: map<string, JNode>, t: string, p: string, m: Method, op: JNode)
    ensures forall l :: (l in Locations(OperationDetails(Test(AbandonNode, S, t), p, m, op))
      ==> l in Locations(OperationDetails(Test(SkipExpansion, S, t), p, m, op)))
  {
    var a, c := Test(AbandonNode, S, t), Test(SkipExpansion, S, t);
    OperationLocations(a, p, m, op);
    OperationLocations(c, p, m, op);
    forall l | l in Locations(OperationDetails(a, p, m, op))
      ensures l in Locations(OperationDetails(c, p, m, op))
    {
      match l
      case RequestBody =>
        MediaWithinCorrected(S, t, Body(op));
      case Response(code) =>
        MediaWithinCorrected(S, t, Responses(op)[code]);
      case Parameter(name) =>
        var q :| q in Parameters(op) && a(SchemaOf(q)) && NameOf(q) == name;
        CountsMeans(S, t, SchemaOf(q));
    }
  }

  /** Uses found at a subset of the locations are labelled by a subset of the labels. */
  lemma LabelsWithin(da: seq<Detail>, dc: seq<Detail>)
    requires forall l :: l in Locations(da) ==> l in Locations(dc)
    ensures forall x :: x in Labels(da) ==> x in Labels(dc)
  {
    forall x | x in Labels(da)
      ensures x in Labels(dc)
    {
      var i :| 0 <= i < |da| && x == Labels(da)[i];
      assert Locations(da)[i] in Locations(dc);
      var j :| 0 <= j < |dc| && Locations(dc)[j] == Locations(da)[i];
      assert Labels(dc)[j] == x;
    }
  }

  /**
   Every endpoint the code as written lists, the corrected analysis lists
   too, with at least the same usage locations: the revisit rule of the code
   as written only ever loses uses.
   */
  lemma ImpactWithinCorrected(doc: JNode, t: string, e: Endpoint)
    requires ImpactShape(doc)
    requires e in AnalyzeSchemaImpact(AbandonNode, doc, t).affectedEndpoints
    ensures exists f :: (f in AnalyzeSchemaImpact(SkipExpansion, doc, t).affectedEndpoints
      && f.path == e.path && f.verb == e.verb
      && forall x :: x in e.usageLocations ==> x in f.usageLocations)
  {
    ImpactEntry(AbandonNode, doc, t, e);
    ImpactEndpointsReal(AbandonNode, doc, t);
    var S, p, m := Schemas(OrEmpty(doc)), e.path, e.verb;
    var op := Paths(OrEmpty(doc))[p].fields[m.Key()];
    var da, dc := OperationDetails(Test(AbandonNode, S, t), p, m, op), OperationDetails(Test(SkipExpansion, S, t), p, m, op);
    assert e.usageLocations == Labels(da) != [];
    OperationWithinCorrected(S, t, p, m, op);
    assert Locations(da)[0] in Locations(dc);
    KeyRoundTrip(m);
    ImpactListing(SkipExpansion, doc, t, p, m.Key());
    var f :| f in AnalyzeSchemaImpact(SkipExpansion, doc, t).affectedEndpoints && f.path == p && f.verb == m;
    ImpactEntry(SkipExpansion, doc, t, f);
    assert f.usageLocations == Labels(dc);
    LabelsWithin(da, dc);
  }
}

=== FILE: correlator.dfy ===
/**
 `analyze_diff_impact` of tools/analyzer.py: for every schema name the diff
 reports as modified or added, the impact analysis of that name against the
 current document; for every removed name, the removed subtree and a fixed
 note instead of an analysis. The diff is read in the dictionary form
 `compare` returns (`Differ.DiffJson`).
 */
module Correlator {
  import opened Json
  import opened Analyzer
  import opened Search
  import Differ

  /** The note written for every removed schema ("removed schema, so its relation to the current API cannot be analysed directly"). */
  const RemovedNote: string := "削除されたスキーマのため、現在のAPIとの関連を直接分析できません。"

  datatype ModifiedImpact = ModifiedImpact(changes: JNode, impact: Impact)

  datatype AddedImpact = AddedImpact(schema: JNode, impact: Impact)

  datatype RemovedImpact = RemovedImpact(schema: JNode, note: string)

  /** The result of `analyze_diff_impact`. */
  datatype DiffImpact = DiffImpact(modifiedSchemas: map<string, ModifiedImpact>,
                                   addedSchemas: map<string, AddedImpact>,
                                   removedSchemas: map<string, RemovedImpact>)

  // ---------------------------------------------------------------------------
  // Reading the diff

  /** `diff.get("components", {}).get("schemas", {})`. */
  function SchemaSection(diff: JNode): JNode
  {
    GetOr(GetOr(diff, "components", EmptyObj), "schemas", EmptyObj)
  }

  /** `diff.get("components", {}).get("schemas", {}).get(part, {})`, read as a mapping. */
  function Part(diff: JNode, part: string): map<string, JNode>
  {
    Section(SchemaSection(diff), part)
  }

  /**
   A diff the code reads without raising: the diff, its `components` and
   their `schemas` are mappings where present (the code calls `.get` on
   them), and each of the three parts is a mapping, or an empty list or
   string, over which its loop runs zero times.
   */
  predicate DiffShape(diff: JNode)
  {
    diff.JObj?
    && (Has(diff, "components") ==>
          diff.fields["components"].JObj?
          && (Has(diff.fields["components"], "schemas") ==>
                var s := diff.fields["components"].fields["schemas"];
                s.JObj?
                && (Has(s, "modified") ==> MappingLike(s.fields["modified"]))
                && (Has(s, "added") ==> MappingLike(s.fields["added"]))
                && (Has(s, "removed") ==> MappingLike(s.fields["removed"]))))
  }

  /**
   `analyze_diff_impact` on a decoded document and a diff. The document must
   have the shape the impact analysis reads only when some analysis runs,
   that is when a schema is modified or added. The mode chooses the
   reference search, as in `Analyzer.AnalyzeSchemaImpact`: `AbandonNode` is
   the code as written.
   */
  function AnalyzeDiffImpact(mode: Revisit, doc: JNode, diff: JNode): (r: DiffImpact)
    requires DiffShape(diff)
    requires Part(diff, "modified") != map[] || Part(diff, "added") != map[] ==> ImpactShape(doc)
    ensures r.modifiedSchemas.Keys == Part(diff, "modified").Keys
    ensures r.addedSchemas.Keys == Part(diff, "added").Keys
    ensures r.removedSchemas.Keys == Part(diff, "removed").Keys
  {
    var modified, added, removed := Part(diff, "modified"), Part(diff, "added"), Part(diff, "removed");
    DiffImpact(map k | k in modified :: ModifiedImpact(modified[k], AnalyzeSchemaImpact(mode, doc, k)),
               map k | k in added :: AddedImpact(added[k], AnalyzeSchemaImpact(mode, doc, k)),
               map k | k in removed :: RemovedImpact(removed[k], RemovedNote))
  }

  /**
   A modified schema carries its change record verbatim and the impact
   analysis of its name; an added one carries its subtree and the same.
   */
  lemma EntriesCarryAnalysis(mode: Revisit, doc: JNode, diff: JNode, k: string)
    requires DiffShape(diff)
    requires Part(diff, "modified") != map[] || Part(diff, "added") != map[] ==> ImpactShape(doc)
    ensures var r := AnalyzeDiffImpact(mode, doc, diff);
      && (k in r.modifiedSchemas ==>
            r.modifiedSchemas[k].changes == Part(diff, "modified")[k]
            && r.modifiedSchemas[k].impact == AnalyzeSchemaImpact(mode, doc, k)
            && r.modifiedSchemas[k].impact.schemaName == k)
      && (k in r.addedSchemas ==>
            r.addedSchemas[k].schema == Part(diff, "added")[k]
            && r.addedSchemas[k].impact == AnalyzeSchemaImpact(mode, doc, k)
            && r.addedSchemas[k].impact.schemaName == k)
  {
  }

  /**
   A removed schema carries its subtree and the fixed note, and the document
   is never consulted for it: two documents give the same removed entries.
   */
  lemma RemovedNeverAnalysed(mode: Revisit, doc1: JNode, doc2: JNode, diff: JNode)
    requires DiffShape(diff)
    requires Part(diff, "modified") != map[] || Part(diff, "added") != map[] ==> ImpactShape(doc1) && ImpactShape(doc2)
    ensures var r1, r2 := AnalyzeDiffImpact(mode, doc1, diff), AnalyzeDiffImpact(mode, doc2, diff);
      && r1.removedSchemas == r2.removedSchemas
      && forall k :: k in r1.removedSchemas ==>
           r1.removedSchemas[k] == RemovedImpact(Part(diff, "removed")[k], RemovedNote)
  {
  }

  /** A diff without a `components.schemas` section gives three empty results, whatever the document. */
  lemma NoSchemaSection(mode: Revisit, doc: JNode, diff: JNode)
    requires DiffShape(diff) && !Has(GetOr(diff, "components", EmptyObj), "schemas")
    ensures AnalyzeDiffImpact(mode, doc, diff) == DiffImpact(map[], map[], map[])
  {
    assert Part(diff, "modified") == map[] && Part(diff, "added") == map[] && Part(diff, "removed") == map[];
  }

  /**
   Parts given as an empty list or an empty string are looped over zero
   times: the diff is read without raising and gives three empty results,
   whatever the document.
   */
  lemma EmptySequenceParts(mode: Revisit, doc: JNode)
    ensures var diff := JObj(map["components" := JObj(map["schemas" :=
      JObj(map["modified" := JArr([]), "added" := EmptyStr, "removed" := JArr([])])])]);
      DiffShape(diff) && AnalyzeDiffImpact(mode, doc, diff) == DiffImpact(map[], map[], map[])
  {
    var parts := JObj(map["modified" := JArr([]), "added" := EmptyStr, "removed" := JArr([])]);
    var diff := JObj(map["components" := JObj(map["schemas" := parts])]);
    assert Has(diff, "components") && Has(diff.fields["components"], "schemas");
    assert diff.fields["components"].fields["schemas"] == parts;
    assert Part(diff, "modified") == map[] && Part(diff, "added") == map[] && Part(diff, "removed") == map[];
  }

  // ---------------------------------------------------------------------------
  // Fed by `compare`

  /** The rendered diff is well shaped, and its schema parts have the diff's key sets. */
  lemma RenderedDiff(d: Differ.Diff)
    ensures DiffShape(Differ.DiffJson(d))
    ensures Part(Differ.DiffJson(d), "modified").Keys == d.schemas.modified.Keys
    ensures Part(Differ.DiffJson(d), "added") == d.schemas.added
    ensures Part(Differ.DiffJson(d), "removed") == d.schemas.removed
  {
    var j := Differ.DiffJson(d);
    assert SchemaSection(j) == Differ.PartitionJson(d.schemas, Differ.SchemaDiffJson);
  }

  /**
   Fed the output of `compare(before, after)`, the analysis reports the
   schemas added in `after` and the schemas changed between the two
   documents, each once and in one part only, and the schemas dropped from
   `before` with the note.
   */
  lemma ImpactOfCompare(mode: Revisit, before: JNode, after: JNode, doc: JNode)
    requires Differ.Comparable(before, after) && ImpactShape(doc)
    ensures var j := Differ.DiffJson(Differ.Compare(before, after));
      DiffShape(j) &&
      var r := AnalyzeDiffImpact(mode, doc, j);
      var sb, sa := OpenApi.Schemas(OrEmpty(before)), OpenApi.Schemas(OrEmpty(after));
      && (forall k :: k in r.addedSchemas <==> k in sa && k !in sb)
      && (forall k :: k in r.removedSchemas <==> k in sb && k !in sa)
      && (forall k :: k in r.modifiedSchemas <==> k in sb && k in sa && Differ.SchemaChanged(sb[k], sa[k]))
      && r.addedSchemas.Keys !! r.removedSchemas.Keys
      && r.addedSchemas.Keys !! r.modifiedSchemas.Keys
      && r.removedSchemas.Keys !! r.modifiedSchemas.Keys
  {
    var d := Differ.Compare(before, after);
    Differ.SchemaPartition(before, after);
    RenderedDiff(d);
  }
}

=== FILE: differ.dfy ===
/**
 The structural diff engine of tools/differ.py: `OpenAPIDiffer.compare` and
 its helpers. It splits the `paths` keys and the `components.schemas` keys of
 two documents into added, removed and modified, partitions the five diffable
 operations of a common path item the same way, and reports field-level
 changes of a common schema (type, properties one level deep, required names).
 */
module Differ {
  import opened Json
  import opened OpenApi

  /** A `{before, after}` pair of snapshots that are not deeply equal. */
  datatype Change = Change(before: JNode, after: JNode)
  {
    function Swapped(): Change
    {
      Change(after, before)
    }
  }

  /** The `{added, removed, modified}` triple the engine emits for every key set it compares. */
  datatype Partition<V> = Partition(added: map<string, JNode>, removed: map<string, JNode>, modified: map<string, V>)
  {
    predicate IsEmpty()
    {
      added == map[] && removed == map[] && modified == map[]
    }

    /** The partition seen from the other side: added and removed exchange places. */
    function Swapped(swap: V -> V): Partition<V>
    {
      Partition(removed, added, map k | k in modified :: swap(modified[k]))
    }
  }

  /** The change record of a common path item. */
  datatype PathItemDiff = PathItemDiff(operations: Partition<Change>)
  {
    function Swapped(): PathItemDiff
    {
      PathItemDiff(operations.Swapped(SwapChange))
    }
  }

  /** The field-level change record of a common schema. */
  datatype SchemaDiff = SchemaDiff(properties: Partition<Change>, requiredAdded: seq<JNode>, requiredRemoved: seq<JNode>, typeChanged: bool)
  {
    function Swapped(): SchemaDiff
    {
      SchemaDiff(properties.Swapped(SwapChange), requiredRemoved, requiredAdded, typeChanged)
    }
  }

  /** The result of `compare`: `paths` and `components.schemas` partitions. */
  datatype Diff = Diff(paths: Partition<PathItemDiff>, schemas: Partition<SchemaDiff>)
  {
    function Swapped(): Diff
    {
      Diff(paths.Swapped(SwapPathItem), schemas.Swapped(SwapSchema))
    }
  }

  function SwapChange(c: Change): Change { c.Swapped() }

  function SwapPathItem(p: PathItemDiff): PathItemDiff { p.Swapped() }

  function SwapSchema(s: SchemaDiff): SchemaDiff { s.Swapped() }

  const NoPartition: Partition<PathItemDiff> := Partition(map[], map[], map[])

  const NoSchemaPartition: Partition<SchemaDiff> := Partition(map[], map[], map[])

  /** The all-empty result. */
  const NoChanges: Diff := Diff(NoPartition, NoSchemaPartition)

  // ---------------------------------------------------------------------------
  // Key-membership partition, shared by operations and properties

  /** The entries of `m` whose key `other` lacks. */
  function OnlyIn(m: map<string, JNode>, other: map<string, JNode>): (r: map<string, JNode>)
    ensures r.Keys == m.Keys - other.Keys
    ensures forall k :: k in r ==> r[k] == m[k]
  {
    map k | k in m && k !in other :: m[k]
  }

  /** The common keys whose values differ, with both values. */
  function Changed(before: map<string, JNode>, after: map<string, JNode>): (r: map<string, Change>)
    ensures forall k :: k in r <==> k in before && k in after && before[k] != after[k]
    ensures forall k :: k in r ==> r[k] == Change(before[k], after[k])
  {
    map k | k in before && k in after && before[k] != after[k] :: Change(before[k], after[k])
  }

  /**
   The partition of two mappings by key membership: keys only in `after` are
   added, keys only in `before` removed, common keys with different values
   modified. It is empty exactly when the mappings are equal.
   */
  function Split(before: map<string, JNode>, after: map<string, JNode>): (p: Partition<Change>)
    ensures p.added.Keys == after.Keys - before.Keys
    ensures p.removed.Keys == before.Keys - after.Keys
    ensures p.modified.Keys <= before.Keys * after.Keys
    ensures p.IsEmpty() <==> before == after
  {
    var p := Partition(OnlyIn(after, before), OnlyIn(before, after), Changed(before, after));
    if p.IsEmpty() then EqualWhenNothingSplits(before, after); p else p
  }

  lemma EqualWhenNothingSplits(before: map<string, JNode>, after: map<string, JNode>)
    requires OnlyIn(after, before) == map[] && OnlyIn(before, after) == map[] && Changed(before, after) == map[]
    ensures before == after
  {
    assert before.Keys == after.Keys by {
      assert OnlyIn(after, before).Keys == {} && OnlyIn(before, after).Keys == {};
    }
    forall k | k in before
      ensures before[k] == after[k]
    {
      assert k !in Changed(before, after);
    }
  }

  lemma SplitSwap(before: map<string, JNode>, after: map<string, JNode>)
    ensures Split(after, before) == Split(before, after).Swapped(SwapChange)
  {
    var p := Split(before, after);
    var q := Split(after, before);
    assert q.modified == p.Swapped(SwapChange).modified;
  }

  lemma SplitSelf(m: map<string, JNode>)
    ensures Split(m, m).IsEmpty()
  {
  }

  // ---------------------------------------------------------------------------
  // Path items

  /** The operation under method `m` of a path item, keyed by the method's label, if the item has one. */
  function Entry(item: JNode, m: Method): map<string, JNode>
  {
    match Lookup(item, m.Key())
    case Some(op) => map[m.Label() := op]
    case None => map[]
  }

  /**
   The diffable operations of a path item, keyed by upper-case method label.
   Other keys (`parameters`, `options`, `summary`, ...) are not looked at.
   */
  function Operations(item: JNode): (ops: map<string, JNode>)
    ensures ops.Keys <= DiffLabels
  {
    Entry(item, Get) + Entry(item, Post) + Entry(item, Put) + Entry(item, Delete) + Entry(item, Patch)
  }

  /** Each of the five methods appears, under its label, exactly when the item has it, with the item's operation. */
  lemma OperationsMeans(item: JNode, m: Method)
    requires m in DiffMethods
    ensures m.Label() in Operations(item) <==> Has(item, m.Key())
    ensures Has(item, m.Key()) ==> Operations(item)[m.Label()] == item.fields[m.Key()]
  {
    LabelsDistinct();
    forall x: Method | x != m
      ensures m.Label() !in Entry(item, x)
    {
    }
  }

  /** The labels of the five diffable methods. */
  const DiffLabels: set<string> := {"GET", "POST", "PUT", "DELETE", "PATCH"}

  /** The list `['get', 'post', 'put', 'delete', 'patch']` the path-item loops test keys against. */
  const DiffKeys: seq<JNode> := [JStr("get"), JStr("post"), JStr("put"), JStr("delete"), JStr("patch")]

  /** The list holds exactly the keys of the five diffable methods. */
  lemma DiffKeysMeans(x: JNode)
    ensures x in DiffKeys <==> exists m :: m in DiffMethods && x == JStr(m.Key())
  {
    assert Get in DiffMethods && Post in DiffMethods && Put in DiffMethods && Delete in DiffMethods && Patch in DiffMethods;
    assert DiffKeys == [JStr(Get.Key()), JStr(Post.Key()), JStr(Put.Key()), JStr(Delete.Key()), JStr(Patch.Key())];
  }

  /** Two maps keyed by method labels are equal when they agree at each of the five labels. */
  lemma AgreeOnLabels<V>(m1: map<string, V>, m2: map<string, V>)
    requires m1.Keys <= DiffLabels && m2.Keys <= DiffLabels
    requires forall m :: m in DiffMethods ==> (m.Label() in m1 <==> m.Label() in m2)
    requires forall m :: m in DiffMethods && m.Label() in m1 ==> m1[m.Label()] == m2[m.Label()]
    ensures m1 == m2
  {
    assert Get in DiffMethods && Post in DiffMethods && Put in DiffMethods && Delete in DiffMethods && Patch in DiffMethods;
    assert Get.Label() == "GET" && Post.Label() == "POST" && Put.Label() == "PUT";
    assert Delete.Label() == "DELETE" && Patch.Label() == "PATCH";
  }

  /**
   The pairs of path items `_compare_path_item` compares without raising.
   Its loops run `for method in item` over both items (so each is a mapping,
   a list or a string), test `method in other` for every value visited, and
   index by a diffable key: the first two loops index the item they iterate
   when the key is not in the other item, the third indexes both items when
   it is. Only a mapping can be indexed by a string. A string item yields
   one-character strings, which are never diffable keys.
   */
  predicate PathItemsComparable(before: JNode, after: JNode)
  {
    Iterable(before) && Iterable(after)
    && (forall x :: x in Iter(after) ==>
          InTestable(x, before) && (x in DiffKeys && !IsIn(x, before) ==> after.JObj?))
    && (forall x :: x in Iter(before) ==>
          InTestable(x, after) && (x in DiffKeys && !IsIn(x, after) ==> before.JObj?))
    && (forall x :: x in Iter(before) && x in DiffKeys && IsIn(x, after) ==> before.JObj? && after.JObj?)
  }

  /** Two mappings are always comparable as path items. */
  lemma MappingItemsComparable(before: JNode, after: JNode)
    requires before.JObj? && after.JObj?
    ensures PathItemsComparable(before, after)
  {
    forall x | x in Iter(after)
      ensures x.JStr?
    {
      IterMeans(after, x);
    }
    forall x | x in Iter(before)
      ensures x.JStr?
    {
      IterMeans(before, x);
    }
  }

  /** The operation under method `m` of `item`, keyed by label, unless the method's key is `in` `other`. */
  function EntryUnlessIn(item: JNode, other: JNode, m: Method): map<string, JNode>
  {
    if IsIn(JStr(m.Key()), other) then map[] else Entry(item, m)
  }

  /**
   What the first loop collects (with `item` the after side) and what the
   second collects (with `item` the before side): the diffable operations of
   `item` whose key is not `in` `other`.
   */
  function OperationsNotIn(item: JNode, other: JNode): (ops: map<string, JNode>)
    ensures ops.Keys <= DiffLabels
  {
    EntryUnlessIn(item, other, Get) + EntryUnlessIn(item, other, Post) + EntryUnlessIn(item, other, Put)
    + EntryUnlessIn(item, other, Delete) + EntryUnlessIn(item, other, Patch)
  }

  /** Both operations under method `m`, keyed by label, when both items have it and they differ. */
  function ChangedEntry(before: JNode, after: JNode, m: Method): map<string, Change>
  {
    if Has(before, m.Key()) && Has(after, m.Key()) && before.fields[m.Key()] != after.fields[m.Key()]
    then map[m.Label() := Change(before.fields[m.Key()], after.fields[m.Key()])]
    else map[]
  }

  /** What the third loop collects. */
  function ChangedOperations(before: JNode, after: JNode): (ops: map<string, Change>)
    ensures ops.Keys <= DiffLabels
  {
    ChangedEntry(before, after, Get) + ChangedEntry(before, after, Post) + ChangedEntry(before, after, Put)
    + ChangedEntry(before, after, Delete) + ChangedEntry(before, after, Patch)
  }

  /** A method is collected by the first or second loop, under its label, exactly when the item has it and its key is not in the other item. */
  lemma OperationsNotInMeans(item: JNode, other: JNode, m: Method)
    requires m in DiffMethods
    ensures m.Label() in OperationsNotIn(item, other) <==> Has(item, m.Key()) && !IsIn(JStr(m.Key()), other)
    ensures m.Label() in OperationsNotIn(item, other) ==> OperationsNotIn(item, other)[m.Label()] == item.fields[m.Key()]
  {
    var g, o, u, d, a :=
      EntryUnlessIn(item, other, Get), EntryUnlessIn(item, other, Post), EntryUnlessIn(item, other, Put),
      EntryUnlessIn(item, other, Delete), EntryUnlessIn(item, other, Patch);
    EntryUnlessInKeys(item, other, Get);
    EntryUnlessInKeys(item, other, Post);
    EntryUnlessInKeys(item, other, Put);
    EntryUnlessInKeys(item, other, Delete);
    EntryUnlessInKeys(item, other, Patch);
    UnionAt(g, o, u, d, a, m);
    assert Pick(m, g, o, u, d, a) == EntryUnlessIn(item, other, m);
    EntryUnlessInMeans(item, other, m);
  }

  lemma EntryUnlessInKeys(item: JNode, other: JNode, m: Method)
    ensures EntryUnlessIn(item, other, m).Keys <= {m.Label()}
  {
  }

  lemma EntryUnlessInMeans(item: JNode, other: JNode, m: Method)
    ensures m.Label() in EntryUnlessIn(item, other, m) <==> Has(item, m.Key()) && !IsIn(JStr(m.Key()), other)
    ensures m.Label() in EntryUnlessIn(item, other, m) ==> EntryUnlessIn(item, other, m)[m.Label()] == item.fields[m.Key()]
  {
  }

  /** The one of five per-method values that belongs to diffable method `m`. */
  function Pick<V>(m: Method, g: V, o: V, u: V, d: V, a: V): V
  {
    match m
    case Get => g
    case Post => o
    case Put => u
    case Delete => d
    case _ => a
  }

  /**
   When each of five entries holds at most its own method's label, the
   union of the five holds a method's label, with its value, exactly when
   that method's entry does.
   */
  lemma UnionAt<V>(g: map<string, V>, o: map<string, V>, u: map<string, V>, d: map<string, V>, a: map<string, V>, m: Method)
    requires m in DiffMethods
    requires g.Keys <= {Get.Label()} && o.Keys <= {Post.Label()} && u.Keys <= {Put.Label()}
    requires d.Keys <= {Delete.Label()} && a.Keys <= {Patch.Label()}
    ensures m.Label() in g + o + u + d + a <==> m.Label() in Pick(m, g, o, u, d, a)
    ensures m.Label() in Pick(m, g, o, u, d, a) ==> (g + o + u + d + a)[m.Label()] == Pick(m, g, o, u, d, a)[m.Label()]
  {
  }

  /** A method is collected by the third loop, with both operations, exactly when both items have it and the operations differ. */
  lemma ChangedOperationsMeans(before: JNode, after: JNode, m: Method)
    requires m in DiffMethods
    ensures m.Label() in ChangedOperations(before, after)
      <==> Has(before, m.Key()) && Has(after, m.Key()) && before.fields[m.Key()] != after.fields[m.Key()]
    ensures m.Label() in ChangedOperations(before, after) ==>
      ChangedOperations(before, after)[m.Label()] == Change(before.fields[m.Key()], after.fields[m.Key()])
  {
    var g, o, u, d, a :=
      ChangedEntry(before, after, Get), ChangedEntry(before, after, Post), ChangedEntry(before, after, Put),
      ChangedEntry(before, after, Delete), ChangedEntry(before, after, Patch);
    ChangedEntryKeys(before, after, Get);
    ChangedEntryKeys(before, after, Post);
    ChangedEntryKeys(before, after, Put);
    ChangedEntryKeys(before, after, Delete);
    ChangedEntryKeys(before, after, Patch);
    UnionAt(g, o, u, d, a, m);
    assert Pick(m, g, o, u, d, a) == ChangedEntry(before, after, m);
  }

  lemma ChangedEntryKeys(before: JNode, after: JNode, m: Method)
    ensures ChangedEntry(before, after, m).Keys <= {m.Label()}
  {
  }

  /** Whether one of the three loops of `_compare_path_item` collects method `m`. */
  predicate MethodDiffers(before: JNode, after: JNode, m: Method)
  {
    var k := m.Key();
    (Has(after, k) && !IsIn(JStr(k), before))
    || (Has(before, k) && !IsIn(JStr(k), after))
    || (Has(before, k) && Has(after, k) && before.fields[k] != after.fields[k])
  }

  /** Whether two path items differ in one of the five diffable methods. */
  predicate OperationsDiffer(before: JNode, after: JNode)
  {
    exists m :: m in DiffMethods && MethodDiffers(before, after, m)
  }

  /** For two mappings, a method differs exactly when the items' lookups of its key differ. */
  lemma MethodDiffersOnMappings(before: JNode, after: JNode, m: Method)
    requires before.JObj? && after.JObj?
    ensures MethodDiffers(before, after, m) <==> Lookup(before, m.Key()) != Lookup(after, m.Key())
  {
  }

  /** `_compare_path_item`. */
  function ComparePathItem(before: JNode, after: JNode): (r: Option<PathItemDiff>)
    requires PathItemsComparable(before, after)
    ensures r.None? <==> !OperationsDiffer(before, after)
    ensures r.Some? ==>
      (r.value.operations
       == Partition(OperationsNotIn(after, before), OperationsNotIn(before, after), ChangedOperations(before, after)))
    ensures before.JObj? && after.JObj? ==>
      (r.None? <==> forall m :: m in DiffMethods ==> Lookup(before, m.Key()) == Lookup(after, m.Key()))
    ensures before.JObj? && after.JObj? && r.Some? ==>
      r.value.operations == Split(Operations(before), Operations(after))
  {
    var ops := Partition(OperationsNotIn(after, before), OperationsNotIn(before, after), ChangedOperations(before, after));
    NothingCollectedIff(before, after);
    MappingItemsSplit(before, after);
    if ops.IsEmpty() then None else Some(PathItemDiff(ops))
  }

  /** The three loops collect nothing exactly when no diffable method differs. */
  lemma NothingCollectedIff(before: JNode, after: JNode)
    ensures OperationsNotIn(after, before) == map[] && OperationsNotIn(before, after) == map[]
      && ChangedOperations(before, after) == map[]
      <==> !OperationsDiffer(before, after)
  {
    if OperationsDiffer(before, after) {
      var m :| m in DiffMethods && MethodDiffers(before, after, m);
      OperationsNotInMeans(after, before, m);
      OperationsNotInMeans(before, after, m);
      ChangedOperationsMeans(before, after, m);
    } else {
      forall m | m in DiffMethods
        ensures m.Label() !in OperationsNotIn(after, before) && m.Label() !in OperationsNotIn(before, after)
        ensures m.Label() !in ChangedOperations(before, after)
      {
        assert !MethodDiffers(before, after, m);
        OperationsNotInMeans(after, before, m);
        OperationsNotInMeans(before, after, m);
        ChangedOperationsMeans(before, after, m);
      }
      AgreeOnLabels(OperationsNotIn(after, before), map[]);
      AgreeOnLabels(OperationsNotIn(before, after), map[]);
      AgreeOnLabels(ChangedOperations(before, after), map[]);
    }
  }

  /** For two mappings, the three loops collect the partition of their operations by key. */
  lemma MappingItemsSplit(before: JNode, after: JNode)
    ensures before.JObj? && after.JObj? ==>
      Partition(OperationsNotIn(after, before), OperationsNotIn(before, after), ChangedOperations(before, after))
      == Split(Operations(before), Operations(after))
    ensures before.JObj? && after.JObj? ==>
      (OperationsDiffer(before, after) <==> exists m :: m in DiffMethods && Lookup(before, m.Key()) != Lookup(after, m.Key()))
  {
    if before.JObj? && after.JObj? {
      var sp := Split(Operations(before), Operations(after));
      forall m | m in DiffMethods
        ensures m.Label() in OperationsNotIn(after, before) <==> m.Label() in sp.added
        ensures m.Label() in OperationsNotIn(before, after) <==> m.Label() in sp.removed
        ensures m.Label() in ChangedOperations(before, after) <==> m.Label() in sp.modified
        ensures m.Label() in sp.added ==> OperationsNotIn(after, before)[m.Label()] == sp.added[m.Label()]
        ensures m.Label() in sp.removed ==> OperationsNotIn(before, after)[m.Label()] == sp.removed[m.Label()]
        ensures m.Label() in sp.modified ==> ChangedOperations(before, after)[m.Label()] == sp.modified[m.Label()]
        ensures MethodDiffers(before, after, m) <==> Lookup(before, m.Key()) != Lookup(after, m.Key())
      {
        OperationsMeans(before, m);
        OperationsMeans(after, m);
        OperationsNotInMeans(after, before, m);
        OperationsNotInMeans(before, after, m);
        ChangedOperationsMeans(before, after, m);
        MethodDiffersOnMappings(before, after, m);
      }
      AgreeOnLabels(OperationsNotIn(after, before), sp.added);
      AgreeOnLabels(OperationsNotIn(before, after), sp.removed);
      AgreeOnLabels(ChangedOperations(before, after), sp.modified);
    }
  }

  /** Two path items have the same diffable operations exactly when the five method keys agree. */
  lemma OperationsAgreeIff(before: JNode, after: JNode)
    ensures Operations(before) == Operations(after)
      <==> forall m :: m in DiffMethods ==> Lookup(before, m.Key()) == Lookup(after, m.Key())
  {
    if Operations(before) == Operations(after) {
      forall m | m in DiffMethods
        ensures Lookup(before, m.Key()) == Lookup(after, m.Key())
      {
        OperationsMeans(before, m);
        OperationsMeans(after, m);
      }
    }
    if forall m :: m in DiffMethods ==> Lookup(before, m.Key()) == Lookup(after, m.Key()) {
      assert Get in DiffMethods && Post in DiffMethods && Put in DiffMethods && Delete in DiffMethods && Patch in DiffMethods;
      assert Entry(before, Get) == Entry(after, Get);
      assert Entry(before, Post) == Entry(after, Post);
      assert Entry(before, Put) == Entry(after, Put);
      assert Entry(before, Delete) == Entry(after, Delete);
      assert Entry(before, Patch) == Entry(after, Patch);
    }
  }

  // ---------------------------------------------------------------------------
  // Schemas

  /** `schema.get("properties", {})`, as it is. */
  function PropertiesValue(s: JNode): JNode
  {
    GetOr(s, "properties", EmptyObj)
  }

  /** `schema.get("properties", {})`, read as a mapping. */
  function Properties(s: JNode): map<string, JNode>
  {
    Fields(PropertiesValue(s))
  }

  /** `schema.get("required", [])`, as it is. */
  function RequiredValue(s: JNode): JNode
  {
    GetOr(s, "required", JArr([]))
  }

  /** The names the two `required` loops visit. */
  function Required(s: JNode): seq<JNode>
  {
    Iter(RequiredValue(s))
  }

  /**
   Two sections that the three key loops of `_detect_path_changes`,
   `_detect_schema_changes` and the property comparison read as two
   mappings: each a mapping, or an empty list or string, read as a mapping
   with no keys; and no empty string opposite a mapping with the key `""`,
   since `"" in ""` holds. After such a mapping the third loop would look
   `""` up in the string and raise; before it, the first loop would skip
   the key instead of reporting it added.
   */
  predicate SectionsComparable(before: JNode, after: JNode)
  {
    MappingLike(before) && MappingLike(after)
    && (after == EmptyStr ==> "" !in Fields(before))
    && (before == EmptyStr ==> "" !in Fields(after))
  }

  /**
   Two `required` values the two loops read without raising: both iterable,
   and every value one of them yields can be tested with `in` against the
   other.
   */
  predicate RequiredComparable(before: JNode, after: JNode)
  {
    Iterable(before) && Iterable(after)
    && (forall x :: x in Iter(after) ==> InTestable(x, before))
    && (forall x :: x in Iter(before) ==> InTestable(x, after))
  }

  /** Two strings are comparable `required` values: each yields strings, which `in` tests as substrings. */
  lemma StringsRequiredComparable(before: string, after: string)
    ensures RequiredComparable(JStr(before), JStr(after))
  {
    forall x | x in Iter(JStr(after))
      ensures x.JStr?
    {
      IterMeans(JStr(after), x);
    }
    forall x | x in Iter(JStr(before))
      ensures x.JStr?
    {
      IterMeans(JStr(before), x);
    }
  }

  /**
   The pairs of schemas `_compare_schema_detail` compares without raising:
   equal ones, on which it returns at once, and otherwise two mappings (it
   calls `.get` on both) with comparable `properties` and `required`.
   */
  predicate SchemasComparable(before: JNode, after: JNode)
  {
    before == after
    || (before.JObj? && after.JObj?
        && SectionsComparable(PropertiesValue(before), PropertiesValue(after))
        && RequiredComparable(RequiredValue(before), RequiredValue(after)))
  }

  /**
   The elements of `xs` that are not `in` the container `c`, in the order of
   `xs` and with repetitions kept.
   */
  function Without(xs: seq<JNode>, c: JNode): (r: seq<JNode>)
    ensures |r| <= |xs|
    decreases |xs|
  {
    if xs == [] then []
    else
      var rest := Without(xs[1..], c);
      if IsIn(xs[0], c) then rest else [xs[0]] + rest
  }

  /** The filter keeps exactly the elements not in `c`, each as often as in `xs`. */
  lemma {:induction false} WithoutMeans(xs: seq<JNode>, c: JNode)
    ensures forall x :: x in Without(xs, c) <==> x in xs && !IsIn(x, c)
    ensures forall x :: multiset(Without(xs, c))[x] == if IsIn(x, c) then 0 else multiset(xs)[x]
    decreases |xs|
  {
    if xs != [] {
      WithoutMeans(xs[1..], c);
      assert xs == [xs[0]] + xs[1..];
    }
  }

  lemma {:induction false} WithoutAppend(xs1: seq<JNode>, xs2: seq<JNode>, c: JNode)
    ensures Without(xs1 + xs2, c) == Without(xs1, c) + Without(xs2, c)
    decreases |xs1|
  {
    if xs1 == [] {
      assert xs1 + xs2 == xs2;
    } else {
      var x, rest := xs1[0], xs1[1..];
      assert xs1 == [x] + rest;
      assert xs1 + xs2 == [x] + (rest + xs2);
      WithoutCons(x, rest + xs2, c);
      WithoutCons(x, rest, c);
      WithoutAppend(rest, xs2, c);
    }
  }

  /** The filter keeps or drops the first element and filters the rest. */
  lemma WithoutCons(x: JNode, xs: seq<JNode>, c: JNode)
    ensures Without([x] + xs, c) == (if IsIn(x, c) then [] else [x]) + Without(xs, c)
  {
    assert ([x] + xs)[0] == x && ([x] + xs)[1..] == xs;
  }

  /** `schema.get("type")`: an absent type reads as `null`, the same as an explicit `"type": null`. */
  function TypeOf(schema: JNode): JNode
  {
    GetOr(schema, "type", JNull)
  }

  /** Whether `_compare_schema_detail` reports a change for two schemas. */
  predicate SchemaChanged(before: JNode, after: JNode)
  {
    before != after
    && (TypeOf(before) != TypeOf(after)
        || Properties(before) != Properties(after)
        || (exists x :: x in Required(after) && !IsIn(x, RequiredValue(before)))
        || (exists x :: x in Required(before) && !IsIn(x, RequiredValue(after))))
  }

  /** `_compare_schema_detail`. */
  function CompareSchemaDetail(before: JNode, after: JNode): (r: Option<SchemaDiff>)
    requires SchemasComparable(before, after)
    ensures r.None? <==> !SchemaChanged(before, after)
    ensures r.Some? ==> (r.value.typeChanged <==> TypeOf(before) != TypeOf(after))
    ensures r.Some? ==> r.value.properties == Split(Properties(before), Properties(after))
    ensures r.Some? ==> r.value.requiredAdded == Without(Required(after), RequiredValue(before))
    ensures r.Some? ==> r.value.requiredRemoved == Without(Required(before), RequiredValue(after))
  {
    if before == after then None
    else
      var typeChanged := TypeOf(before) != TypeOf(after);
      var props := Split(Properties(before), Properties(after));
      var added := Without(Required(after), RequiredValue(before));
      var removed := Without(Required(before), RequiredValue(after));
      WithoutMeans(Required(after), RequiredValue(before));
      WithoutMeans(Required(before), RequiredValue(after));
      if !typeChanged && props.IsEmpty() && added == [] && removed == [] then
        assert forall x :: x in Required(after) ==> IsIn(x, RequiredValue(before)) by {
          forall x | x in Required(after)
            ensures IsIn(x, RequiredValue(before))
          {
            assert x !in added;
          }
        }
        assert forall x :: x in Required(before) ==> IsIn(x, RequiredValue(after)) by {
          forall x | x in Required(before)
            ensures IsIn(x, RequiredValue(after))
          {
            assert x !in removed;
          }
        }
        None
      else
        assert SchemaChanged(before, after) by {
          if added != [] {
            assert added[0] in Required(after) && !IsIn(added[0], RequiredValue(before));
          } else if removed != [] {
            assert removed[0] in Required(before) && !IsIn(removed[0], RequiredValue(after));
          }
        }
        Some(SchemaDiff(props, added, removed, typeChanged))
  }

  // ---------------------------------------------------------------------------
  // Whole documents

  /** The shape `compare` reads without raising, for one (already `or {}`-normalised) document: a mapping whose `components`, if present, is a mapping. */
  predicate DocShape(d: JNode)
  {
    d.JObj? && (Has(d, "components") ==> d.fields["components"].JObj?)
  }

  /**
   The inputs on which `compare` does not raise and reads each section as a
   mapping: two documents of that shape whose `paths` and
   `components.schemas` sections are comparable, whose common path items are
   comparable and whose common schemas are comparable.
   */
  predicate Comparable(before: JNode, after: JNode)
  {
    var b, a := OrEmpty(before), OrEmpty(after);
    DocShape(b) && DocShape(a)
    && SectionsComparable(PathsValue(b), PathsValue(a))
    && SectionsComparable(SchemasValue(b), SchemasValue(a))
    && (forall k :: k in Paths(b) && k in Paths(a) ==> PathItemsComparable(Paths(b)[k], Paths(a)[k]))
    && (forall k :: k in Schemas(b) && k in Schemas(a) ==> SchemasComparable(Schemas(b)[k], Schemas(a)[k]))
  }

  /** `_detect_path_changes`. */
  function DiffPaths(before: map<string, JNode>, after: map<string, JNode>): (p: Partition<PathItemDiff>)
    requires forall k :: k in before && k in after ==> PathItemsComparable(before[k], after[k])
    ensures forall k :: k in p.added <==> k in after && k !in before
    ensures forall k :: k in p.added ==> p.added[k] == after[k]
    ensures forall k :: k in p.removed <==> k in before && k !in after
    ensures forall k :: k in p.removed ==> p.removed[k] == before[k]
    ensures forall k :: k in p.modified <==> k in before && k in after && OperationsDiffer(before[k], after[k])
    ensures forall k :: k in p.modified ==> ComparePathItem(before[k], after[k]) == Some(p.modified[k])
  {
    Partition(OnlyIn(after, before), OnlyIn(before, after),
              map k | k in before && k in after && ComparePathItem(before[k], after[k]).Some?
                :: ComparePathItem(before[k], after[k]).value)
  }

  /** `_detect_schema_changes`. */
  function DiffSchemas(before: map<string, JNode>, after: map<string, JNode>): (p: Partition<SchemaDiff>)
    requires forall k :: k in before && k in after ==> SchemasComparable(before[k], after[k])
    ensures forall k :: k in p.added <==> k in after && k !in before
    ensures forall k :: k in p.added ==> p.added[k] == after[k]
    ensures forall k :: k in p.removed <==> k in before && k !in after
    ensures forall k :: k in p.removed ==> p.removed[k] == before[k]
    ensures forall k :: k in p.modified <==> k in before && k in after && SchemaChanged(before[k], after[k])
    ensures forall k :: k in p.modified ==> CompareSchemaDetail(before[k], after[k]) == Some(p.modified[k])
  {
    Partition(OnlyIn(after, before), OnlyIn(before, after),
              map k | k in before && k in after && CompareSchemaDetail(before[k], after[k]).Some?
                :: CompareSchemaDetail(before[k], after[k]).value)
  }

  /**
   `compare` on two decoded documents (the parsed YAML, before `or {}`).
   Missing sections are empty mappings; the validity test is not consulted.
   */
  function Compare(before: JNode, after: JNode): (d: Diff)
    requires Comparable(before, after)
    ensures var pb, pa := Paths(OrEmpty(before)), Paths(OrEmpty(after));
      && (forall k :: k in d.paths.added <==> k in pa && k !in pb)
      && (forall k :: k in d.paths.added ==> d.paths.added[k] == pa[k])
      && (forall k :: k in d.paths.removed <==> k in pb && k !in pa)
      && (forall k :: k in d.paths.removed ==> d.paths.removed[k] == pb[k])
      && (forall k :: k in d.paths.modified <==> k in pb && k in pa && OperationsDiffer(pb[k], pa[k]))
      && (forall k :: k in d.paths.modified ==> ComparePathItem(pb[k], pa[k]) == Some(d.paths.modified[k]))
    ensures var sb, sa := Schemas(OrEmpty(before)), Schemas(OrEmpty(after));
      && (forall k :: k in d.schemas.added <==> k in sa && k !in sb)
      && (forall k :: k in d.schemas.added ==> d.schemas.added[k] == sa[k])
      && (forall k :: k in d.schemas.removed <==> k in sb && k !in sa)
      && (forall k :: k in d.schemas.removed ==> d.schemas.removed[k] == sb[k])
      && (forall k :: k in d.schemas.modified <==> k in sb && k in sa && SchemaChanged(sb[k], sa[k]))
      && (forall k :: k in d.schemas.modified ==> CompareSchemaDetail(sb[k], sa[k]) == Some(d.schemas.modified[k]))
  {
    var b, a := OrEmpty(before), OrEmpty(after);
    if b == EmptyObj && a == EmptyObj then
      NoChanges
    else
      Diff(DiffPaths(Paths(b), Paths(a)), DiffSchemas(Schemas(b), Schemas(a)))
  }

  /**
   The three partitions of the paths section are pairwise disjoint, and a
   path lands in one of them unless it is common to both documents with the
   same five operations.
   */
  lemma PathPartition(before: JNode, after: JNode)
    requires Comparable(before, after)
    ensures var d := Compare(before, after);
      && d.paths.added.Keys !! d.paths.removed.Keys
      && d.paths.added.Keys !! d.paths.modified.Keys
      && d.paths.removed.Keys !! d.paths.modified.Keys
    ensures var d, pb, pa := Compare(before, after), Paths(OrEmpty(before)), Paths(OrEmpty(after));
      forall k :: (k in d.paths.added || k in d.paths.removed || k in d.paths.modified)
        <==> (k in pb || k in pa) && !(k in pb && k in pa && !OperationsDiffer(pb[k], pa[k]))
  {
  }

  /**
   The same for the schemas section: a schema lands in one of the three
   partitions unless it is common to both documents and unchanged in type,
   properties and required names.
   */
  lemma SchemaPartition(before: JNode, after: JNode)
    requires Comparable(before, after)
    ensures var d := Compare(before, after);
      && d.schemas.added.Keys !! d.schemas.removed.Keys
      && d.schemas.added.Keys !! d.schemas.modified.Keys
      && d.schemas.removed.Keys !! d.schemas.modified.Keys
    ensures var d, sb, sa := Compare(before, after), Schemas(OrEmpty(before)), Schemas(OrEmpty(after));
      forall k :: (k in d.schemas.added || k in d.schemas.removed || k in d.schemas.modified)
        <==> (k in sb || k in sa) && !(k in sb && k in sa && !SchemaChanged(sb[k], sa[k]))
  {
  }

  /** `compare(X, X)` reports nothing. */
  lemma CompareSelf(doc: JNode)
    requires Comparable(doc, doc)
    ensures Compare(doc, doc) == NoChanges
  {
    var d := Compare(doc, doc);
    assert d.paths.modified == map[] by {
      forall k | k in d.paths.modified
        ensures false
      {
      }
    }
    assert d.schemas.modified == map[] by {
      forall k | k in d.schemas.modified
        ensures false
      {
      }
    }
  }

  /**
   Exchanging the documents exchanges added and removed everywhere, exchanges
   `before` and `after` in every modified pair and every required list, and
   keeps `type_changed`. Both orders must be comparable: `compare` can raise
   on one order of two documents and not on the other (`RaisingIsOneSided`).
   */
  lemma CompareSwap(before: JNode, after: JNode)
    requires Comparable(before, after) && Comparable(after, before)
    ensures Compare(after, before) == Compare(before, after).Swapped()
  {
    var b, a := OrEmpty(before), OrEmpty(after);
    if b == EmptyObj && a == EmptyObj {
      assert NoChanges.Swapped() == NoChanges;
    } else {
      DiffPathsSwap(Paths(b), Paths(a));
      DiffSchemasSwap(Schemas(b), Schemas(a));
    }
  }

  /** Two maps with the same keys and the same value at every key are equal. */
  lemma MapsAgree<V>(m1: map<string, V>, m2: map<string, V>)
    requires forall k :: k in m1 <==> k in m2
    requires forall k :: k in m1 ==> m1[k] == m2[k]
    ensures m1 == m2
  {
  }

  lemma DiffPathsSwap(before: map<string, JNode>, after: map<string, JNode>)
    requires forall k :: k in before && k in after ==>
      PathItemsComparable(before[k], after[k]) && PathItemsComparable(after[k], before[k])
    ensures DiffPaths(after, before) == DiffPaths(before, after).Swapped(SwapPathItem)
  {
    var d, e := DiffPaths(before, after), DiffPaths(after, before);
    var m1, m2 := e.modified, d.Swapped(SwapPathItem).modified;
    forall k | k in before && k in after
      ensures k in m1 <==> k in m2
      ensures k in m1 ==> m1[k] == m2[k]
    {
      PathItemSwap(before[k], after[k]);
    }
    MapsAgree(m1, m2);
  }

  lemma DiffSchemasSwap(before: map<string, JNode>, after: map<string, JNode>)
    requires forall k :: k in before && k in after ==>
      SchemasComparable(before[k], after[k]) && SchemasComparable(after[k], before[k])
    ensures DiffSchemas(after, before) == DiffSchemas(before, after).Swapped(SwapSchema)
  {
    var d, e := DiffSchemas(before, after), DiffSchemas(after, before);
    var m1, m2 := e.modified, d.Swapped(SwapSchema).modified;
    forall k | k in before && k in after
      ensures k in m1 <==> k in m2
      ensures k in m1 ==> m1[k] == m2[k]
    {
      SchemaSwap(before[k], after[k]);
    }
    MapsAgree(m1, m2);
  }

  lemma PathItemSwap(before: JNode, after: JNode)
    requires PathItemsComparable(before, after) && PathItemsComparable(after, before)
    ensures ComparePathItem(after, before).Some? == ComparePathItem(before, after).Some?
    ensures ComparePathItem(before, after).Some? ==>
      ComparePathItem(after, before).value == ComparePathItem(before, after).value.Swapped()
  {
    DifferSymmetric(before, after);
    ChangedOperationsSwap(before, after);
  }

  /** Whether two path items differ does not depend on their order. */
  lemma DifferSymmetric(before: JNode, after: JNode)
    ensures OperationsDiffer(before, after) == OperationsDiffer(after, before)
  {
    if OperationsDiffer(before, after) {
      var m :| m in DiffMethods && MethodDiffers(before, after, m);
      assert MethodDiffers(after, before, m);
    }
    if OperationsDiffer(after, before) {
      var m :| m in DiffMethods && MethodDiffers(after, before, m);
      assert MethodDiffers(before, after, m);
    }
  }

  /** The third loop in the other order collects the same methods with the pairs exchanged. */
  lemma ChangedOperationsSwap(before: JNode, after: JNode)
    ensures forall p: Partition<Change> :: p.modified == ChangedOperations(before, after) ==>
      p.Swapped(SwapChange).modified == ChangedOperations(after, before)
  {
    var c, d := ChangedOperations(before, after), ChangedOperations(after, before);
    var e := Partition(map[], map[], c).Swapped(SwapChange).modified;
    forall m | m in DiffMethods
      ensures m.Label() in d <==> m.Label() in e
      ensures m.Label() in d ==> d[m.Label()] == e[m.Label()]
    {
      ChangedOperationsMeans(before, after, m);
      ChangedOperationsMeans(after, before, m);
    }
    AgreeOnLabels(d, e);
  }

  lemma SchemaSwap(before: JNode, after: JNode)
    requires SchemasComparable(before, after) && SchemasComparable(after, before)
    ensures CompareSchemaDetail(after, before).Some? == CompareSchemaDetail(before, after).Some?
    ensures CompareSchemaDetail(before, after).Some? ==>
      CompareSchemaDetail(after, before).value == CompareSchemaDetail(before, after).value.Swapped()
  {
    SplitSwap(Properties(before), Properties(after));
  }

  /**
   The result depends on nothing but the `paths` and `components.schemas`
   sections, so the advisory validity test (and any other top-level field)
   cannot change it.
   */
  lemma ValidityIsAdvisory(before1: JNode, after1: JNode, before2: JNode, after2: JNode)
    requires Comparable(before1, after1) && Comparable(before2, after2)
    requires Paths(OrEmpty(before1)) == Paths(OrEmpty(before2)) && Schemas(OrEmpty(before1)) == Schemas(OrEmpty(before2))
    requires Paths(OrEmpty(after1)) == Paths(OrEmpty(after2)) && Schemas(OrEmpty(after1)) == Schemas(OrEmpty(after2))
    ensures Compare(before1, after1) == Compare(before2, after2)
  {
    CompareBySections(before1, after1);
    CompareBySections(before2, after2);
  }

  /** The early return for two empty documents gives what the section diffs would give. */
  lemma CompareBySections(before: JNode, after: JNode)
    requires Comparable(before, after)
    ensures var b, a := OrEmpty(before), OrEmpty(after);
      Compare(before, after) == Diff(DiffPaths(Paths(b), Paths(a)), DiffSchemas(Schemas(b), Schemas(a)))
  {
    var b, a := OrEmpty(before), OrEmpty(after);
    if b == EmptyObj && a == EmptyObj {
      assert Paths(b) == map[] && Schemas(b) == map[];
      assert Paths(a) == map[] && Schemas(a) == map[];
    }
  }

  /** Two documents that fail the validity test are still compared. */
  lemma InvalidDocumentsAreCompared()
    ensures var after := JObj(map["paths" := JObj(map["/a" := EmptyObj])]);
      && !IsValidOpenApi(EmptyObj) && !IsValidOpenApi(after)
      && Compare(EmptyObj, after).paths.added == map["/a" := EmptyObj]
  {
    var after := JObj(map["paths" := JObj(map["/a" := EmptyObj])]);
    assert Has(after, "paths");
    assert Compare(EmptyObj, after).paths.added.Keys == {"/a"};
  }

  /** A path added to an empty `paths` section lands in `added` with its whole subtree. */
  lemma AddedPathExample(version: JNode, p: string, item: JNode)
    ensures var before := JObj(map["openapi" := version, "paths" := EmptyObj]);
      var after := JObj(map["openapi" := version, "paths" := JObj(map[p := item])]);
      var d := Compare(before, after);
      d.paths.added == map[p := item] && d.paths.removed == map[] && d.paths.modified == map[]
  {
    var before := JObj(map["openapi" := version, "paths" := EmptyObj]);
    var after := JObj(map["openapi" := version, "paths" := JObj(map[p := item])]);
    assert "paths" in before.fields && "paths" in after.fields;
    assert Paths(after) == map[p := item];
    assert Paths(before) == map[];
    var d := Compare(before, after);
    assert d.paths.added.Keys == {p};
  }

  /** A string item yields one-character strings: never a mapping or a list, never a diffable key. */
  lemma StringItemYieldsNoKey(t: string)
    ensures forall x :: x in Iter(JStr(t)) ==> x.JStr? && x !in DiffKeys
  {
    forall x | x in Iter(JStr(t))
      ensures x.JStr? && x !in DiffKeys
    {
      IterMeans(JStr(t), x);
    }
  }

  /** The only value `{"get": op}` yields is the key `"get"`. */
  lemma GetItemYields(op: JNode)
    ensures forall x :: x in Iter(JObj(map["get" := op])) ==> x == JStr("get")
    ensures JStr("get") in Iter(JObj(map["get" := op])) && JStr("get") in DiffKeys
  {
    forall x | x in Iter(JObj(map["get" := op]))
      ensures x == JStr("get")
    {
      IterMeans(JObj(map["get" := op]), x);
    }
    IterMeans(JObj(map["get" := op]), JStr("get"));
  }

  /**
   A path item that is a string is compared without raising: against
   `{"get": op}`, a string without the substring `get` reports `GET`
   removed, and nothing else.
   */
  lemma StringItemExample(op: JNode, t: string)
    requires !Contains(t, "get")
    ensures var item := JObj(map["get" := op]);
      PathItemsComparable(item, JStr(t))
      && ComparePathItem(item, JStr(t)) == Some(PathItemDiff(Partition(map[], map["GET" := op], map[])))
  {
    var item := JObj(map["get" := op]);
    GetItemAgainstString(op, t);
    StringItemHasNoOperations(t, item);
    OnlyGetRemoved(op, t);
    assert MethodDiffers(item, JStr(t), Get);
  }

  /** A string item has no operations: nothing is collected from it, and nothing compares as changed against it. */
  lemma StringItemHasNoOperations(t: string, other: JNode)
    ensures OperationsNotIn(JStr(t), other) == map[]
    ensures ChangedOperations(other, JStr(t)) == map[]
  {
  }

  /** The pair of `StringItemExample` does not raise. */
  lemma GetItemAgainstString(op: JNode, t: string)
    requires !Contains(t, "get")
    ensures PathItemsComparable(JObj(map["get" := op]), JStr(t))
  {
    GetItemYields(op);
    assert !IsIn(JStr("get"), JStr(t));
    MappingAgainstString(JObj(map["get" := op]), t);
  }

  /** A mapping item whose keys are all absent from a string item compares with it without raising. */
  lemma MappingAgainstString(item: JNode, t: string)
    requires item.JObj?
    requires forall x :: x in Iter(item) ==> !IsIn(x, JStr(t))
    ensures PathItemsComparable(item, JStr(t))
  {
    StringItemYieldsNoKey(t);
    forall x | x in Iter(item)
      ensures x.JStr?
    {
      IterMeans(item, x);
    }
  }

  /** The second loop of `StringItemExample` collects exactly the `get` operation. */
  lemma OnlyGetRemoved(op: JNode, t: string)
    requires !Contains(t, "get")
    ensures OperationsNotIn(JObj(map["get" := op]), JStr(t)) == map["GET" := op]
  {
    var item := JObj(map["get" := op]);
    var removed := OperationsNotIn(item, JStr(t));
    forall m | m in DiffMethods
      ensures m.Label() in removed <==> m.Label() in map["GET" := op]
      ensures m.Label() in removed ==> removed[m.Label()] == op
    {
      OperationsNotInMeans(item, JStr(t), m);
      if m == Get {
        assert !IsIn(JStr(m.Key()), JStr(t));
      } else {
        assert m.Label() != "GET" && !Has(item, m.Key());
      }
    }
    AgreeOnLabels(removed, map["GET" := op]);
  }

  /**
   `_compare_path_item` can raise on one order of two items and not on the
   other: `"get" in "forget"` holds, so the third loop indexes the string
   `"forget"` by `"get"` when it is the after side; when it is the before
   side, that loop visits only its characters, none a diffable key.
   */
  lemma RaisingIsOneSided(op: JNode)
    ensures var item, s := JObj(map["get" := op]), JStr("forget");
      PathItemsComparable(s, item) && ComparePathItem(s, item).None? && !PathItemsComparable(item, s)
  {
    var item, s := JObj(map["get" := op]), JStr("forget");
    StringItemYieldsNoKey("forget");
    GetItemYields(op);
    assert IsIn(JStr("get"), s) by {
      assert "forget"[3..6] == "get";
      assert IsAt("forget", "get", 3);
      ContainsMeans("forget", "get");
    }
    assert PathItemsComparable(s, item);
    assert !OperationsDiffer(s, item);
  }

  /** An explicit `"type": null` reads like an absent type, so two such schemas compare unchanged. */
  lemma NullTypeExample()
    ensures var before := JObj(map["type" := JNull, "required" := JArr([])]);
      var after := JObj(map["required" := JArr([])]);
      before != after && CompareSchemaDetail(before, after).None?
  {
    var before := JObj(map["type" := JNull, "required" := JArr([])]);
    var after := JObj(map["required" := JArr([])]);
    assert "type" in before.fields && "type" !in after.fields;
    assert TypeOf(before) == JNull && TypeOf(after) == JNull;
    assert RequiredValue(before) == JArr([]) && RequiredValue(after) == JArr([]);
    assert !SchemaChanged(before, after);
  }

  /** Replacing required name `a` by `b` reports `b` added and `a` removed. */
  lemma RequiredExample()
    ensures var before := JObj(map["required" := JArr([JStr("a")])]);
      var after := JObj(map["required" := JArr([JStr("b")])]);
      var r := CompareSchemaDetail(before, after);
      r.Some? && r.value.requiredAdded == [JStr("b")] && r.value.requiredRemoved == [JStr("a")]
      && !r.value.typeChanged && r.value.properties.IsEmpty()
  {
    var before := JObj(map["required" := JArr([JStr("a")])]);
    var after := JObj(map["required" := JArr([JStr("b")])]);
    assert "type" !in before.fields && "type" !in after.fields;
    assert TypeOf(before) == JNull && TypeOf(after) == JNull;
    assert Properties(before) == Properties(after);
    assert before.fields["required"] != after.fields["required"];
    assert Required(before) == [JStr("a")] && Required(after) == [JStr("b")];
    assert JStr("a") != JStr("b") by {
      assert "a"[0] != "b"[0];
    }
    assert Without([JStr("b")], JArr([JStr("a")])) == [JStr("b")];
    assert Without([JStr("a")], JArr([JStr("b")])) == [JStr("a")];
  }

  /**
   A string `required` is iterated character by character and tested by
   substring: appending a new character `c` to it (`"ab"` to `"abc"`, say)
   reports the one-character name `c` added and nothing removed.
   */
  lemma StringRequiredGrows(s: string, c: char)
    requires c !in s
    ensures var before := JObj(map["required" := JStr(s)]);
      var after := JObj(map["required" := JStr(s + [c])]);
      var r := CompareSchemaDetail(before, after);
      r.Some? && r.value.requiredAdded == [JStr([c])] && r.value.requiredRemoved == []
      && !r.value.typeChanged && r.value.properties.IsEmpty()
  {
    var before := JObj(map["required" := JStr(s)]);
    var after := JObj(map["required" := JStr(s + [c])]);
    assert "type" !in before.fields && "type" !in after.fields;
    assert "properties" !in before.fields && "properties" !in after.fields;
    assert RequiredValue(before) == JStr(s) && RequiredValue(after) == JStr(s + [c]);
    StringsRequiredComparable(s, s + [c]);
    StringFilters(s, c);
    assert before != after by {
      assert |before.fields["required"].str| != |after.fields["required"].str|;
    }
    assert SchemasComparable(before, after);
    assert SchemaChanged(before, after) by {
      assert JStr([c]) in Required(after) && !IsIn(JStr([c]), RequiredValue(before));
    }
  }

  /** The two `required` filters of `StringRequiredGrows`. */
  lemma StringFilters(s: string, c: char)
    requires c !in s
    ensures Without(Iter(JStr(s + [c])), JStr(s)) == [JStr([c])]
    ensures Without(Iter(JStr(s)), JStr(s + [c])) == []
    ensures JStr([c]) in Iter(JStr(s + [c])) && !IsIn(JStr([c]), JStr(s))
  {
    IterSnoc(s, c);
    CharsOfPrefixIn(s, s + [c]);
    CharsOfPrefixIn(s, s);
    NewCharNotIn(s, c);
    assert Without([JStr([c])], JStr(s)) == [JStr([c])];
    WithoutAppend(Iter(JStr(s)), [JStr([c])], JStr(s));
  }

  /** A character that does not occur in `s` is not a substring of it. */
  lemma NewCharNotIn(s: string, c: char)
    requires c !in s
    ensures !IsIn(JStr([c]), JStr(s))
  {
    forall i | 0 <= i <= |s| - 1
      ensures !IsAt(s, [c], i)
    {
      assert s[i..i + 1][0] == s[i];
    }
    ContainsMeans(s, [c]);
  }

  /** Iterating a string with one more character yields one more one-character string. */
  lemma IterSnoc(s: string, c: char)
    ensures Iter(JStr(s + [c])) == Iter(JStr(s)) + [JStr([c])]
  {
    assert |Iter(JStr(s + [c]))| == |Iter(JStr(s)) + [JStr([c])]|;
    forall i | 0 <= i < |s| + 1
      ensures Iter(JStr(s + [c]))[i] == (Iter(JStr(s)) + [JStr([c])])[i]
    {
      if i < |s| {
        assert (s + [c])[i] == s[i];
      }
    }
  }

  /** Every character of a prefix of `t` is a substring of `t`, so none survives the filter against `t`. */
  lemma CharsOfPrefixIn(s: string, t: string)
    requires s <= t
    ensures Without(Iter(JStr(s)), JStr(t)) == []
  {
    var xs := Iter(JStr(s));
    forall i | 0 <= i < |xs|
      ensures IsIn(xs[i], JStr(t))
    {
      assert xs[i] == JStr([s[i]]);
      assert IsAt(t, [s[i]], i) by {
        assert t[i..i + 1] == [t[i]];
      }
      ContainsMeans(t, [s[i]]);
    }
    var r := Without(xs, JStr(t));
    WithoutMeans(xs, JStr(t));
    assert forall x :: x !in r;
  }

  // ---------------------------------------------------------------------------
  // The result as the nested dictionary `compare` returns

  /** A modified pair: `{"before": ..., "after": ...}`. */
  function ChangeJson(c: Change): JNode
  {
    JObj(map["before" := c.before, "after" := c.after])
  }

  /** `{"added": ..., "removed": ..., "modified": ...}`, each modified entry rendered by `encode`. */
  function PartitionJson<V>(p: Partition<V>, encode: V -> JNode): JNode
  {
    JObj(map["added" := JObj(p.added), "removed" := JObj(p.removed),
             "modified" := JObj(map k | k in p.modified :: encode(p.modified[k]))])
  }

  /** `{"operations": ...}`. */
  function PathItemJson(p: PathItemDiff): JNode
  {
    JObj(map["operations" := PartitionJson(p.operations, ChangeJson)])
  }

  /** `{"properties": ..., "required": {"added": [...], "removed": [...]}, "type_changed": ...}`. */
  function SchemaDiffJson(s: SchemaDiff): JNode
  {
    JObj(map["properties" := PartitionJson(s.properties, ChangeJson),
             "required" := JObj(map["added" := JArr(s.requiredAdded), "removed" := JArr(s.requiredRemoved)]),
             "type_changed" := JBool(s.typeChanged)])
  }

  /** `{"paths": ..., "components": {"schemas": ...}}`, the dictionary `compare` returns. */
  function DiffJson(d: Diff): JNode
  {
    JObj(map["paths" := PartitionJson(d.paths, PathItemJson),
             "components" := JObj(map["schemas" := PartitionJson(d.schemas, SchemaDiffJson)])])
  }
}

=== FILE: json.dfy ===
/**
 The decoded form of a YAML or JSON document: mappings with string keys,
 sequences and scalars, together with the small accessors the Python code
 performs on them (`in`, `.get(key, default)`, truthiness).
 */
module Json {
  import KeyOrder

  datatype Option<+T> = None | Some(value: T)

  datatype JNode =
    | JObj(fields: map<string, JNode>)
    | JArr(elems: seq<JNode>)
    | JStr(str: string)
    | JNum(num: int)
    | JBool(flag: bool)
    | JNull

  /** The empty mapping `{}`, the default of most lookups. */
  const EmptyObj: JNode := JObj(map[])

  /** The empty string `""`, the default of the analyzer's descriptive lookups. */
  const EmptyStr: JNode := JStr("")

  /** Python truthiness of a decoded value. */
  predicate Truthy(n: JNode)
  {
    match n
    case JObj(m) => m != map[]
    case JArr(s) => s != []
    case JStr(s) => s != ""
    case JNum(x) => x != 0
    case JBool(b) => b
    case JNull => false
  }

  /** `value or {}`: a falsy document (empty file, null, empty mapping) becomes `{}`. */
  function OrEmpty(n: JNode): (r: JNode)
    ensures Truthy(n) ==> r == n
    ensures !Truthy(n) ==> r == EmptyObj
    ensures Truthy(r) || r == EmptyObj
  {
    if Truthy(n) then n else EmptyObj
  }

  /** Normalising twice is normalising once. */
  lemma OrEmptyIdempotent(n: JNode)
    ensures OrEmpty(OrEmpty(n)) == OrEmpty(n)
  {
  }

  /** `key in n` for a mapping. */
  predicate Has(n: JNode, key: string)
  {
    n.JObj? && key in n.fields
  }

  /** `n.get(key)`, with `None` for an absent key. */
  function Lookup(n: JNode, key: string): Option<JNode>
  {
    if Has(n, key) then Some(n.fields[key]) else None
  }

  /** `n.get(key, default)`. */
  function GetOr(n: JNode, key: string, default: JNode): JNode
  {
    if Has(n, key) then n.fields[key] else default
  }

  function Fields(n: JNode): map<string, JNode>
  {
    if n.JObj? then n.fields else map[]
  }

  function Elems(n: JNode): seq<JNode>
  {
    if n.JArr? then n.elems else []
  }

  /** `n.get(key, {})`, read as a mapping. */
  function Section(n: JNode, key: string): map<string, JNode>
  {
    Fields(GetOr(n, key, EmptyObj))
  }

  /** `n.get("type") == name`. */
  predicate IsType(n: JNode, name: string)
  {
    Lookup(n, "type") == Some(JStr(name))
  }

  /** A value that `for k in n: ... n[k]` reads as a mapping: a mapping, or an empty list or string, which hold no keys. */
  predicate MappingLike(n: JNode)
  {
    n.JObj? || n == JArr([]) || n == EmptyStr
  }

  /**
   Whether `w` occurs in `s` (Python's `w in s` on strings): `w` starts `s`
   or occurs in its tail. The empty string occurs in every string.
   */
  predicate Contains(s: string, w: string)
    decreases |s|
  {
    w <= s || (|s| > 0 && Contains(s[1..], w))
  }

  /** Whether `w` occurs in `s` at position `i`. */
  predicate IsAt(s: string, w: string, i: int)
  {
    0 <= i && i + |w| <= |s| && s[i..i + |w|] == w
  }

  /** Occurring in a string is occurring at some position of it. */
  lemma {:induction false} ContainsMeans(s: string, w: string)
    ensures Contains(s, w) <==> exists i :: IsAt(s, w, i)
    decreases |s|
  {
    if w <= s {
      assert IsAt(s, w, 0);
    }
    if exists i :: IsAt(s, w, i) {
      var i :| IsAt(s, w, i);
      if i > 0 {
        assert IsAt(s[1..], w, i - 1);
        ContainsMeans(s[1..], w);
      } else {
        assert w <= s;
      }
    }
    if |s| > 0 && Contains(s[1..], w) {
      ContainsMeans(s[1..], w);
      var i :| IsAt(s[1..], w, i);
      assert IsAt(s, w, i + 1);
    }
  }

  /** Whether `for x in n` runs: on mappings, lists and strings; it raises on numbers, booleans and `None`. */
  predicate Iterable(n: JNode)
  {
    n.JObj? || n.JArr? || n.JStr?
  }

  /**
   What `for x in n` visits: the elements of a list, the one-character strings
   of a string, the keys of a mapping (in key order); nothing where the loop
   raises.
   */
  function Iter(n: JNode): seq<JNode>
  {
    match n
    case JArr(xs) => xs
    case JStr(s) => seq(|s|, i requires 0 <= i < |s| => JStr([s[i]]))
    case JObj(m) =>
      var keys := KeyList(m);
      seq(|keys|, i requires 0 <= i < |keys| => JStr(keys[i]))
    case _ => []
  }

  /** A mapping is iterated over its keys, a string over its characters; both yield strings only. */
  lemma IterMeans(n: JNode, x: JNode)
    ensures n.JObj? ==> (x in Iter(n) <==> x.JStr? && x.str in n.fields)
    ensures n.JStr? ==> (x in Iter(n) <==> x.JStr? && |x.str| == 1 && x.str[0] in n.str)
    ensures !Iterable(n) ==> Iter(n) == []
  {
    if n.JObj? {
      var keys := KeyList(n.fields);
      if x.JStr? && x.str in n.fields {
        var i :| 0 <= i < |keys| && keys[i] == x.str;
        assert Iter(n)[i] == x;
      }
    }
    if n.JStr? && x.JStr? && |x.str| == 1 && x.str[0] in n.str {
      var i :| 0 <= i < |n.str| && n.str[i] == x.str[0];
      assert Iter(n)[i] == x;
    }
  }

  /**
   Whether `x in c` runs: on a list for any `x`, on a string for a string
   `x`, on a mapping for a hashable `x` (not a mapping or a list).
   */
  predicate InTestable(x: JNode, c: JNode)
  {
    match c
    case JArr(_) => true
    case JStr(_) => x.JStr?
    case JObj(_) => !x.JObj? && !x.JArr?
    case _ => false
  }

  /** Python's `x in c` where it runs: list membership, substring, mapping key. */
  predicate IsIn(x: JNode, c: JNode)
  {
    match c
    case JArr(xs) => x in xs
    case JStr(s) => x.JStr? && Contains(s, x.str)
    case JObj(m) => x.JStr? && x.str in m
    case _ => false
  }

  /** The keys of a mapping, each once, in the order every loop of the model visits them. */
  function KeyList(m: map<string, JNode>): (keys: seq<string>)
    ensures forall k :: k in keys <==> k in m
    ensures forall i, j :: 0 <= i < j < |keys| ==> keys[i] != keys[j]
  {
    KeyOrder.Sorted(m.Keys)
  }
}

=== FILE: keyorder.dfy ===
/**
 A fixed, total order on mapping keys, and the enumeration of a finite set of
 keys that follows it. The decoded documents are mappings without an
 iteration order of their own; every loop over a mapping in the model visits
 its keys in this order.
 */
module KeyOrder {

  /** Lexicographic order on strings, by character code. */
  predicate Below(a: string, b: string)
    decreases |a|
  {
    |a| == 0 || (|b| > 0 && (a[0] < b[0] || (a[0] == b[0] && Below(a[1..], b[1..]))))
  }

  lemma {:induction false} BelowAntisymmetric(a: string, b: string)
    requires Below(a, b) && Below(b, a)
    ensures a == b
    decreases |a|
  {
    if |a| > 0 {
      BelowAntisymmetric(a[1..], b[1..]);
    }
  }

  lemma {:induction false} BelowTotal(a: string, b: string)
    ensures Below(a, b) || Below(b, a)
    decreases |a|
  {
    if |a| > 0 && |b| > 0 && a[0] == b[0] {
      BelowTotal(a[1..], b[1..]);
    }
  }

  lemma {:induction false} BelowTransitive(a: string, b: string, c: string)
    requires Below(a, b) && Below(b, c)
    ensures Below(a, c)
    decreases |a|
  {
    if |a| > 0 && a[0] == b[0] && b[0] == c[0] {
      BelowTransitive(a[1..], b[1..], c[1..]);
    }
  }

  predicate IsLeast(k: string, s: set<string>)
  {
    k in s && forall j :: j in s ==> Below(k, j)
  }

  lemma {:induction false} LeastExists(s: set<string>)
    requires s != {}
    ensures exists k :: IsLeast(k, s)
    decreases |s|
  {
    var x :| x in s;
    if s == {x} {
      BelowTotal(x, x);
      assert IsLeast(x, s);
    } else {
      LeastExists(s - {x});
      var k :| IsLeast(k, s - {x});
      BelowTotal(k, x);
      if Below(k, x) {
        assert IsLeast(k, s);
      } else {
        forall j | j in s
          ensures Below(x, j)
        {
          if j == x {
            BelowTotal(x, x);
          } else {
            BelowTransitive(x, k, j);
          }
        }
        assert IsLeast(x, s);
      }
    }
  }

  lemma LeastUnique(s: set<string>)
    ensures forall a, b :: IsLeast(a, s) && IsLeast(b, s) ==> a == b
  {
    forall a, b | IsLeast(a, s) && IsLeast(b, s)
      ensures a == b
    {
      BelowAntisymmetric(a, b);
    }
  }

  /** The elements of `s`, each once, least first. */
  function Sorted(s: set<string>): (r: seq<string>)
    ensures |r| == |s|
    ensures forall k :: k in r <==> k in s
    ensures forall i, j :: 0 <= i < j < |r| ==> r[i] != r[j]
    ensures forall i, j :: 0 <= i < j < |r| ==> Below(r[i], r[j])
    decreases |s|
  {
    if s == {} then []
    else
      LeastExists(s);
      LeastUnique(s);
      var k :| IsLeast(k, s);
      [k] + Sorted(s - {k})
  }
}

=== FILE: openapi.dfy ===
/**
 The parts of an OpenAPI 3.x document both algorithms read: the HTTP method
 keys of a path item, the `paths` mapping and the `components.schemas`
 mapping, and the minimal "is this an OpenAPI document" test.
 */
module OpenApi {
  import opened Json

  datatype Method = Get | Post | Put | Delete | Patch | Options | Head | Trace
  {
    /** The lower-case key under which the operation sits in a path item. */
    function Key(): string
    {
      match this
      case Get => "get"
      case Post => "post"
      case Put => "put"
      case Delete => "delete"
      case Patch => "patch"
      case Options => "options"
      case Head => "head"
      case Trace => "trace"
    }

    /** `method.upper()`, the form used in every result. */
    function Label(): string
    {
      match this
      case Get => "GET"
      case Post => "POST"
      case Put => "PUT"
      case Delete => "DELETE"
      case Patch => "PATCH"
      case Options => "OPTIONS"
      case Head => "HEAD"
      case Trace => "TRACE"
    }
  }

  /** Distinct methods have distinct labels, so a label names one method. */
  lemma LabelsDistinct()
    ensures forall a: Method, b: Method :: a.Label() == b.Label() ==> a == b
  {
    forall a: Method, b: Method | a != b
      ensures a.Label() != b.Label()
    {
      assert a.Label()[0] != b.Label()[0] || |a.Label()| != |b.Label()|;
    }
  }

  /** The methods whose operations the diff engine partitions. */
  const DiffMethods: set<Method> := {Get, Post, Put, Delete, Patch}

  /** The methods the impact analyzer inspects; every other path-item key is skipped. */
  const ImpactMethods: set<Method> := {Get, Post, Put, Delete, Patch, Options, Head, Trace}

  /** The method a path-item key names, if it names one. */
  function MethodOf(key: string): (m: Option<Method>)
    ensures m.Some? ==> m.value.Key() == key && m.value in ImpactMethods
    ensures m.None? ==> forall x: Method :: x.Key() != key
  {
    match key
    case "get" => Some(Get)
    case "post" => Some(Post)
    case "put" => Some(Put)
    case "delete" => Some(Delete)
    case "patch" => Some(Patch)
    case "options" => Some(Options)
    case "head" => Some(Head)
    case "trace" => Some(Trace)
    case _ => None
  }

  /** Reading a method's own key gives the method back. */
  lemma KeyRoundTrip(m: Method)
    ensures MethodOf(m.Key()) == Some(m)
  {
    match m
    case Get =>
    case Post =>
    case Put =>
    case Delete =>
    case Patch =>
    case Options =>
    case Head =>
    case Trace =>
  }

  /** `doc.get("paths", {})`, as it is. */
  function PathsValue(doc: JNode): JNode
  {
    GetOr(doc, "paths", EmptyObj)
  }

  /** `doc.get("components", {}).get("schemas", {})`, as it is. */
  function SchemasValue(doc: JNode): JNode
  {
    GetOr(GetOr(doc, "components", EmptyObj), "schemas", EmptyObj)
  }

  /** `doc.get("paths", {})`, read as a mapping. */
  function Paths(doc: JNode): map<string, JNode>
  {
    Fields(PathsValue(doc))
  }

  /** `doc.get("components", {}).get("schemas", {})`, read as a mapping. */
  function Schemas(doc: JNode): map<string, JNode>
  {
    Fields(SchemasValue(doc))
  }

  /**
   The advisory validity test: a mapping with an `openapi` field and at least
   one of `paths` or `components`.
   */
  function IsValidOpenApi(data: JNode): (valid: bool)
    ensures valid ==> Truthy(data) && OrEmpty(data) == data
    ensures valid <==> Has(data, "openapi") && (Has(data, "paths") || Has(data, "components"))
  {
    data.JObj? && "openapi" in data.fields && ("paths" in data.fields || "components" in data.fields)
  }
}

=== FILE: projections.dfy ===
/**
 The two descriptive projections of tools/analyzer.py: the summary of a
 named schema (`_get_schema_description`) and the per-property summary of a
 schema (`_get_properties_with_descriptions`). Every field they copy
 defaults to `""` (or `[]` for `required`) when the schema lacks it.
 */
module Projections {
  import opened Json
  import opened OpenApi

  /** The summary of one property: its `type`, `description`, `format` and `example` entries. */
  datatype PropertyInfo = PropertyInfo(schemaType: JNode, description: JNode, format: JNode, example: JNode)

  /** The summary of one schema. */
  datatype SchemaInfo = SchemaInfo(title: JNode, description: JNode, schemaType: JNode,
                                   properties: map<string, PropertyInfo>, required: JNode)

  /** The summary of a property schema that has none of the four entries. */
  const Blank: PropertyInfo := PropertyInfo(EmptyStr, EmptyStr, EmptyStr, EmptyStr)

  /** The summary of a schema the document does not define. */
  const Undefined: SchemaInfo := SchemaInfo(EmptyStr, EmptyStr, EmptyStr, map[], JArr([]))

  /** A schema the property projection reads without raising: a mapping whose `properties`, if present, maps names to mappings. */
  predicate PropertiesShape(schema: JNode)
  {
    schema.JObj?
    && (Has(schema, "properties") ==>
          schema.fields["properties"].JObj?
          && forall k :: k in schema.fields["properties"].fields ==> schema.fields["properties"].fields[k].JObj?)
  }

  /**
   A document the schema projection reads without raising for name `name`:
   a mapping whose `components` and `components.schemas`, if present, are
   mappings, and whose schema `name`, if defined, has the property shape.
   */
  predicate DescriptionShape(spec: JNode, name: string)
  {
    spec.JObj?
    && (Has(spec, "components") ==>
          spec.fields["components"].JObj?
          && (Has(spec.fields["components"], "schemas") ==> spec.fields["components"].fields["schemas"].JObj?))
    && (name in Schemas(spec) ==> PropertiesShape(Schemas(spec)[name]))
  }

  /** The four entries of one property schema, each defaulting to `""`. */
  function Describe(prop: JNode): PropertyInfo
  {
    PropertyInfo(GetOr(prop, "type", EmptyStr), GetOr(prop, "description", EmptyStr),
                 GetOr(prop, "format", EmptyStr), GetOr(prop, "example", EmptyStr))
  }

  /** The property schema holding exactly the four entries of a summary. */
  function Unparse(info: PropertyInfo): JNode
  {
    JObj(map["type" := info.schemaType, "description" := info.description,
             "format" := info.format, "example" := info.example])
  }

  /** `_get_properties_with_descriptions`: one summary per property name, and none without `properties`. */
  function PropertiesWithDescriptions(schema: JNode): (r: map<string, PropertyInfo>)
    requires PropertiesShape(schema)
    ensures r.Keys == Section(schema, "properties").Keys
    ensures !Has(schema, "properties") ==> r == map[]
  {
    if Has(schema, "properties") then
      var props := schema.fields["properties"].fields;
      map k | k in props :: Describe(props[k])
    else map[]
  }

  /** `_get_schema_description`: the summary of schema `name`, or the all-default summary when it is undefined. */
  function SchemaDescription(spec: JNode, name: string): (r: SchemaInfo)
    requires DescriptionShape(spec, name)
    ensures name !in Schemas(spec) ==> r == Undefined
    ensures name in Schemas(spec) ==> r.properties.Keys == Section(Schemas(spec)[name], "properties").Keys
  {
    var schema := if name in Schemas(spec) then Schemas(spec)[name] else EmptyObj;
    SchemaInfo(GetOr(schema, "title", EmptyStr), GetOr(schema, "description", EmptyStr),
               GetOr(schema, "type", EmptyStr), PropertiesWithDescriptions(schema),
               GetOr(schema, "required", JArr([])))
  }

  /** Summarising the schema rebuilt from a summary gives the summary back. */
  lemma DescribeUnparse(info: PropertyInfo)
    ensures Describe(Unparse(info)) == info
  {
    var s := Unparse(info);
    assert Has(s, "type") && Has(s, "description") && Has(s, "format") && Has(s, "example");
  }

  /**
   A property schema holding exactly the four entries is rebuilt from its
   summary, so the projection loses nothing on such schemas.
   */
  lemma UnparseDescribe(prop: JNode)
    requires prop.JObj? && prop.fields.Keys == {"type", "description", "format", "example"}
    ensures Unparse(Describe(prop)) == prop
  {
    var r := Unparse(Describe(prop));
    assert r.fields.Keys == prop.fields.Keys;
    forall k | k in prop.fields
      ensures r.fields[k] == prop.fields[k]
    {
    }
  }

  /** Entries other than the four never change a property's summary. */
  lemma DescribeReadsOnlyFour(a: JNode, b: JNode)
    requires forall k :: k in {"type", "description", "format", "example"} ==> Lookup(a, k) == Lookup(b, k)
    ensures Describe(a) == Describe(b)
  {
    assert Lookup(a, "type") == Lookup(b, "type");
    assert Lookup(a, "description") == Lookup(b, "description");
    assert Lookup(a, "format") == Lookup(b, "format");
    assert Lookup(a, "example") == Lookup(b, "example");
  }

  /** A property schema with none of the four entries is summarised as four empty strings. */
  lemma DescribeBlank(prop: JNode)
    requires forall k :: k in {"type", "description", "format", "example"} ==> !Has(prop, k)
    ensures Describe(prop) == Blank
  {
    assert !Has(prop, "type") && !Has(prop, "description") && !Has(prop, "format") && !Has(prop, "example");
  }

  /** Each property is summarised from its own schema. */
  lemma PropertySummary(schema: JNode, k: string)
    requires PropertiesShape(schema) && k in Section(schema, "properties")
    ensures PropertiesWithDescriptions(schema)[k] == Describe(Section(schema, "properties")[k])
  {
  }

  /** The summary of a schema depends on nothing but that schema. */
  lemma DescriptionIsLocal(spec1: JNode, spec2: JNode, name: string)
    requires DescriptionShape(spec1, name) && DescriptionShape(spec2, name)
    requires (name in Schemas(spec1)) == (name in Schemas(spec2))
    requires name in Schemas(spec1) ==> Schemas(spec1)[name] == Schemas(spec2)[name]
    ensures SchemaDescription(spec1, name) == SchemaDescription(spec2, name)
  {
  }
}

=== FILE: refs.dfy ===
/**
 Local schema references: `{"$ref": "#/components/schemas/Name"}` and the
 name the analyzer extracts from one (`_get_schema_ref`).
 */
module Refs {
  import opened Json

  /** The only reference form the analyzer resolves. */
  const SchemaPrefix: string := "#/components/schemas/"

  /** `s.split("/")[-1]`: the longest suffix of `s` that holds no `/`. */
  function LastSegment(s: string): (r: string)
    ensures '/' !in r && |r| <= |s|
    decreases |s|
  {
    if s == [] then []
    else if s[|s| - 1] == '/' then []
    else LastSegment(s[..|s| - 1]) + [s[|s| - 1]]
  }

  /** The segment is a suffix of `s`, and it is all of `s` or follows a `/`: no longer suffix is free of `/`. */
  lemma {:induction false} LastSegmentIsSuffix(s: string)
    ensures var r := LastSegment(s);
      && r == s[|s| - |r|..]
      && (|r| < |s| ==> s[|s| - |r| - 1] == '/')
    decreases |s|
  {
    if s != [] && s[|s| - 1] != '/' {
      var init := s[..|s| - 1];
      LastSegmentIsSuffix(init);
      var r := LastSegment(init);
      assert init[|init| - |r|..] + [s[|s| - 1]] == s[|s| - |r| - 1..];
    }
  }

  lemma {:induction false} LastSegmentAfterSlash(p: string, name: string)
    requires |p| > 0 && p[|p| - 1] == '/' && '/' !in name
    ensures LastSegment(p + name) == name
    decreases |name|
  {
    var s := p + name;
    if name != [] {
      assert s[..|s| - 1] == p + name[..|name| - 1];
      LastSegmentAfterSlash(p, name[..|name| - 1]);
      assert name == name[..|name| - 1] + [name[|name| - 1]];
    }
  }

  /**
   `_get_schema_ref`: the last path segment of a string `$ref` that starts
   with the schema prefix, and `""` for every other node.
   */
  function SchemaRef(n: JNode): (name: string)
    ensures '/' !in name
    ensures !Has(n, "$ref") ==> name == ""
    ensures name != "" ==> n.fields["$ref"].JStr? && SchemaPrefix <= n.fields["$ref"].str
  {
    match Lookup(n, "$ref")
    case Some(JStr(s)) => if SchemaPrefix <= s then LastSegment(s) else ""
    case _ => ""
  }

  /** A reference built from a name without `/` gives that name back, whatever else the node holds. */
  lemma RefRoundTrip(n: JNode, name: string)
    requires '/' !in name
    requires Has(n, "$ref") && n.fields["$ref"] == JStr(SchemaPrefix + name)
    ensures SchemaRef(n) == name
  {
    var s := SchemaPrefix + name;
    assert SchemaPrefix <= s;
    LastSegmentAfterSlash(SchemaPrefix, name);
  }

  /** A reference into a nested path keeps only its last segment. */
  lemma NestedRefExample()
    ensures SchemaRef(JObj(map["$ref" := JStr("#/components/schemas/a/b")])) == "b"
  {
    var s := "#/components/schemas/a/b";
    assert SchemaPrefix <= s;
    assert s[..|s| - 1] == "#/components/schemas/a/";
  }

  /** References outside `components.schemas` name nothing. */
  lemma ForeignRefExample()
    ensures SchemaRef(JObj(map["$ref" := JStr("#/definitions/Pet")])) == ""
  {
    assert "#/definitions/Pet"[2] != SchemaPrefix[2];
  }
}

=== FILE: search.dfy ===
/**
 The recursive reference search of `_is_schema_used_in_object`: does the
 schema `n` mention the target schema name, directly, through its object
 properties, its array items, its `allOf`/`oneOf`/`anyOf` members, or
 through the schemas its local references resolve to? A set of visited
 reference names, threaded through the whole search, cuts cycles.

 `S` is always the document's `components.schemas` mapping and `t` the
 target name.
 */
module Search {
  import opened Json
  import opened Refs

  /**
   What the search does at a reference it has already followed. The code as
   written abandons the whole node (`AbandonNode`); the corrected search
   only skips following the reference again and still looks at the node's
   composite members (`SkipExpansion`).
   */
  datatype Revisit = AbandonNode | SkipExpansion

  /**
   The verdict, the visited reference names after the search, and the names
   whose schemas the search entered, in the order it entered them.
   */
  datatype Outcome = Outcome(found: bool, visited: set<string>, expanded: seq<string>)

  /** No progress: not found, nothing visited or entered. */
  function Idle(V: set<string>): Outcome
  {
    Outcome(false, V, [])
  }

  /** Stage `a` followed by stage `b`, which started from `a`'s visited set. */
  function Then(a: Outcome, b: Outcome): Outcome
  {
    Outcome(b.found, b.visited, a.expanded + b.expanded)
  }

  /** The composite keywords, in the order the search tries them. */
  const Composites: seq<string> := ["allOf", "oneOf", "anyOf"]

  /** A reference name the search resolves: defined, and not falsy. */
  predicate Expandable(S: map<string, JNode>, x: string)
  {
    x in S && Truthy(S[x])
  }

  // ---------------------------------------------------------------------------
  // Where the search looks: the structural children of a schema node

  /** An object schema whose `properties` the search enters. */
  predicate HasProps(n: JNode)
  {
    IsType(n, "object") && Has(n, "properties") && n.fields["properties"].JObj?
  }

  /** An array schema whose `items` the search enters. */
  predicate HasItems(n: JNode)
  {
    IsType(n, "array") && Has(n, "items")
  }

  /** A node whose composite keyword `g` holds a list of sub-schemas. */
  predicate HasGroup(n: JNode, g: string)
  {
    Has(n, g) && n.fields[g].JArr?
  }

  /** What the search looks for at a single node. */
  datatype Probe =
    | TargetOf(t: string)          // a node whose reference names `t`
    | RefersTo(x: string, t: string) // a node the search would follow to schema `x`

  predicate Matches(n: JNode, p: Probe)
  {
    n.JObj? &&
    match p
    case TargetOf(t) => SchemaRef(n) == t
    case RefersTo(x, t) => SchemaRef(n) == x && x != "" && x != t
  }

  /** Some node within `n`, reached without following a reference, matches `p`. */
  ghost predicate Somewhere(n: JNode, p: Probe)
    decreases n
  {
    Matches(n, p)
    || (HasProps(n) && exists k :: k in n.fields["properties"].fields && Somewhere(n.fields["properties"].fields[k], p))
    || (HasItems(n) && Somewhere(n.fields["items"], p))
    || (exists g, i :: g in Composites && HasGroup(n, g) && 0 <= i < |n.fields[g].elems| && Somewhere(n.fields[g].elems[i], p))
  }

  /** `n` reaches the target following at most `h` references. */
  ghost predicate UsesWithin(S: map<string, JNode>, t: string, n: JNode, h: nat)
    decreases h
  {
    Somewhere(n, TargetOf(t))
    || (h > 0 && exists x :: Somewhere(n, RefersTo(x, t)) && Expandable(S, x) && UsesWithin(S, t, S[x], h - 1))
  }

  /** `n` reaches the target schema: the property the search decides. */
  ghost predicate Uses(S: map<string, JNode>, t: string, n: JNode)
  {
    exists h :: UsesWithin(S, t, n, h)
  }

  // ---------------------------------------------------------------------------
  // Bookkeeping of the negative answer

  /** Nothing within `n` is the target, and every reference `n` would follow is in `W`. */
  ghost predicate Clear(t: string, n: JNode, W: set<string>)
  {
    !Somewhere(n, TargetOf(t)) && forall x :: Somewhere(n, RefersTo(x, t)) ==> x in W
  }

  /** `W` extends `V`, and every schema named in `W` but not in `V` is clear relative to `W`. */
  ghost predicate Fresh(S: map<string, JNode>, t: string, V: set<string>, W: set<string>)
  {
    V <= W && forall x :: x in W && x !in V && Expandable(S, x) ==> Clear(t, S[x], W)
  }

  predicate Distinct(xs: seq<string>)
  {
    forall i, j :: 0 <= i < j < |xs| ==> xs[i] != xs[j]
  }

  /**
   The visited set only grows, only by non-empty names other than the
   target, and the schemas entered are exactly the new visited names that
   resolve, each entered once.
   */
  ghost predicate Bookkeeping(S: map<string, JNode>, t: string, V: set<string>, r: Outcome)
  {
    && V <= r.visited
    && (forall x :: x in r.visited && x !in V ==> x != "" && x != t)
    && (forall x :: x in r.expanded <==> x in r.visited && x !in V && Expandable(S, x))
    && Distinct(r.expanded)
  }

  lemma Chain(S: map<string, JNode>, t: string, V: set<string>, a: Outcome, b: Outcome)
    requires Bookkeeping(S, t, V, a) && Bookkeeping(S, t, a.visited, b)
    ensures Bookkeeping(S, t, V, Then(a, b))
  {
    var e := a.expanded + b.expanded;
    forall i, j | 0 <= i < j < |e|
      ensures e[i] != e[j]
    {
      if i < |a.expanded| && j >= |a.expanded| {
        assert e[i] in a.expanded && e[j] in b.expanded;
      }
    }
  }

  /** Entering the schema of `x`, which was not visited before. */
  lemma Enter(S: map<string, JNode>, t: string, V: set<string>, x: string, w: Outcome)
    requires x != "" && x != t && x !in V && Expandable(S, x)
    requires Bookkeeping(S, t, V + {x}, w)
    ensures Bookkeeping(S, t, V, Outcome(w.found, w.visited, [x] + w.expanded))
  {
    var e := [x] + w.expanded;
    forall i, j | 0 <= i < j < |e|
      ensures e[i] != e[j]
    {
      if i == 0 {
        assert e[j] in w.expanded;
      }
    }
  }

  lemma FreshTrans(S: map<string, JNode>, t: string, U: set<string>, V: set<string>, W: set<string>)
    requires Fresh(S, t, U, V) && Fresh(S, t, V, W)
    ensures Fresh(S, t, U, W)
  {
    forall x | x in W && x !in U && Expandable(S, x)
      ensures Clear(t, S[x], W)
    {
      if x in V {
        ClearGrows(t, S[x], V, W);
      }
    }
  }

  lemma ClearGrows(t: string, n: JNode, V: set<string>, W: set<string>)
    requires Clear(t, n, V) && V <= W
    ensures Clear(t, n, W)
  {
  }

  /** Everything found within a child is found within its parent. */
  lemma Lift(S: map<string, JNode>, t: string, c: JNode, n: JNode)
    requires forall p :: Somewhere(c, p) ==> Somewhere(n, p)
    requires Uses(S, t, c)
    ensures Uses(S, t, n)
  {
    var h: nat :| UsesWithin(S, t, c, h);
    if !Somewhere(c, TargetOf(t)) {
      var x :| Somewhere(c, RefersTo(x, t)) && Expandable(S, x) && UsesWithin(S, t, S[x], h - 1);
      assert Somewhere(n, RefersTo(x, t));
    }
    assert UsesWithin(S, t, n, h);
  }

  /** Following the node's own reference to a schema that uses the target. */
  lemma UsesViaRef(S: map<string, JNode>, t: string, n: JNode)
    requires n.JObj? && SchemaRef(n) != "" && SchemaRef(n) != t && Expandable(S, SchemaRef(n))
    requires Uses(S, t, S[SchemaRef(n)])
    ensures Uses(S, t, n)
  {
    var x := SchemaRef(n);
    var h: nat :| UsesWithin(S, t, S[x], h);
    assert Somewhere(n, RefersTo(x, t));
    assert UsesWithin(S, t, n, h + 1);
  }

  /** The properties of `n` from `keys[i..]` on are clear relative to `W`. */
  ghost predicate PropsClear(t: string, n: JNode, keys: seq<string>, i: nat, W: set<string>)
    requires HasProps(n) && forall k :: k in keys ==> k in n.fields["properties"].fields
  {
    forall j :: i <= j < |keys| ==> Clear(t, n.fields["properties"].fields[keys[j]], W)
  }

  /** The members of composite `g` of `n` from index `i` on are clear relative to `W`. */
  ghost predicate MembersClear(t: string, n: JNode, g: string, i: nat, W: set<string>)
    requires HasGroup(n, g)
  {
    forall j :: i <= j < |n.fields[g].elems| ==> Clear(t, n.fields[g].elems[j], W)
  }

  /** The members of the composites `Composites[j..]` of `n` are clear relative to `W`. */
  ghost predicate GroupsClear(t: string, n: JNode, j: nat, W: set<string>)
    requires j <= |Composites|
  {
    forall g :: g in Composites[j..] && HasGroup(n, g) ==> MembersClear(t, n, g, 0, W)
  }

  /** A node none of whose parts hits the target, and whose references are all in `W`, is clear. */
  lemma ClearNode(t: string, n: JNode, W: set<string>)
    requires n.JObj? && SchemaRef(n) != t && (SchemaRef(n) != "" ==> SchemaRef(n) in W)
    requires HasProps(n) ==> PropsClear(t, n, KeyList(n.fields["properties"].fields), 0, W)
    requires HasItems(n) ==> Clear(t, n.fields["items"], W)
    requires GroupsClear(t, n, 0, W)
    ensures Clear(t, n, W)
  {
    if HasProps(n) {
      var props := n.fields["properties"].fields;
      var keys := KeyList(props);
      forall k | k in props
        ensures Clear(t, props[k], W)
      {
        var j :| 0 <= j < |keys| && keys[j] == k;
      }
    }
    forall g, i | g in Composites && HasGroup(n, g) && 0 <= i < |n.fields[g].elems|
      ensures Clear(t, n.fields[g].elems[i], W)
    {
      assert g in Composites[0..];
    }
  }

  // ---------------------------------------------------------------------------
  // The search

  /**
   One call of `_is_schema_used_in_object` on node `n` with visited set `V`:
   a non-mapping is not a use; a node whose own reference names the target
   is; otherwise the properties of an object schema, the items of an array
   schema, the node's own reference and then its composite members are
   searched, in that order, stopping at the first hit.
   */
  function Walk(mode: Revisit, S: map<string, JNode>, t: string, n: JNode, V: set<string>): (r: Outcome)
    ensures Bookkeeping(S, t, V, r)
    ensures r.found ==> Uses(S, t, n)
    ensures mode == SkipExpansion && !r.found ==> Clear(t, n, r.visited) && Fresh(S, t, V, r.visited)
    decreases S.Keys - V, n, 4, 0
  {
    if !n.JObj? then Idle(V)
    else if SchemaRef(n) == t then
      assert UsesWithin(S, t, n, 0);
      Outcome(true, V, [])
    else
      var a := if HasProps(n) then WalkProps(mode, S, t, n, KeyList(n.fields["properties"].fields), 0, V) else Idle(V);
      if a.found then a
      else
        var b := if HasItems(n) then Walk(mode, S, t, n.fields["items"], a.visited) else Idle(a.visited);
        Chain(S, t, V, a, b);
        if b.found then
          assert forall p :: Somewhere(n.fields["items"], p) ==> Somewhere(n, p);
          Lift(S, t, n.fields["items"], n);
          Then(a, b)
        else
          var c := WalkRef(mode, S, t, n, b.visited);
          Chain(S, t, V, Then(a, b), c);
          if mode == SkipExpansion && !c.found then
            ClosedWalk(S, t, n, V, a.visited, b.visited, c.visited);
            Then(Then(a, b), c)
          else Then(Then(a, b), c)
  }

  /**
   The first two checks of a call: a non-mapping is no use and marks nothing
   visited; a node whose own reference names the target is a use at once,
   whether or not that name was visited before.
   */
  lemma WalkStart(mode: Revisit, S: map<string, JNode>, t: string, n: JNode, V: set<string>)
    ensures !n.JObj? ==> Walk(mode, S, t, n, V) == Idle(V)
    ensures n.JObj? && SchemaRef(n) == t ==> Walk(mode, S, t, n, V) == Outcome(true, V, [])
  {
  }

  /** The negative case of `Walk`, assembled from its three stages. */
  lemma ClosedWalk(S: map<string, JNode>, t: string, n: JNode, V: set<string>, A: set<string>, B: set<string>, C: set<string>)
    requires n.JObj? && SchemaRef(n) != t
    requires HasProps(n) ==> PropsClear(t, n, KeyList(n.fields["properties"].fields), 0, A)
    requires HasItems(n) ==> Clear(t, n.fields["items"], B)
    requires (SchemaRef(n) != "" ==> SchemaRef(n) in C) && GroupsClear(t, n, 0, C)
    requires Fresh(S, t, V, A) && Fresh(S, t, A, B) && Fresh(S, t, B, C)
    ensures Clear(t, n, C) && Fresh(S, t, V, C)
  {
    FreshTrans(S, t, V, A, B);
    FreshTrans(S, t, V, B, C);
    if HasProps(n) {
      var props := n.fields["properties"].fields;
      forall j | 0 <= j < |KeyList(props)|
        ensures Clear(t, props[KeyList(props)[j]], C)
      {
        ClearGrows(t, props[KeyList(props)[j]], A, C);
      }
    }
    if HasItems(n) {
      ClearGrows(t, n.fields["items"], B, C);
    }
    ClearNode(t, n, C);
  }

  /** The properties `keys[i..]` of an object schema, in order, stopping at the first hit. */
  function WalkProps(mode: Revisit, S: map<string, JNode>, t: string, n: JNode, keys: seq<string>, i: nat, V: set<string>): (r: Outcome)
    requires HasProps(n) && i <= |keys| && forall k :: k in keys ==> k in n.fields["properties"].fields
    ensures Bookkeeping(S, t, V, r)
    ensures r.found ==> Uses(S, t, n)
    ensures mode == SkipExpansion && !r.found ==> PropsClear(t, n, keys, i, r.visited) && Fresh(S, t, V, r.visited)
    decreases S.Keys - V, n, 1, |keys| - i
  {
    if i == |keys| then Idle(V)
    else
      var child := n.fields["properties"].fields[keys[i]];
      var a := Walk(mode, S, t, child, V);
      if a.found then
        assert forall p :: Somewhere(child, p) ==> Somewhere(n, p);
        Lift(S, t, child, n);
        a
      else
        var b := WalkProps(mode, S, t, n, keys, i + 1, a.visited);
        Chain(S, t, V, a, b);
        if mode == SkipExpansion && !b.found then
          FreshTrans(S, t, V, a.visited, b.visited);
          ClearGrows(t, child, a.visited, b.visited);
          Then(a, b)
        else Then(a, b)
  }

  /**
   The node's own reference `x` (not the target): at a name already visited
   the code as written gives up on the node, the corrected search moves on;
   a new name is marked visited and, when it names a non-empty schema, that
   schema is searched; then the composite members follow.
   */
  function WalkRef(mode: Revisit, S: map<string, JNode>, t: string, n: JNode, V: set<string>): (r: Outcome)
    requires n.JObj? && SchemaRef(n) != t
    ensures Bookkeeping(S, t, V, r)
    ensures r.found ==> Uses(S, t, n)
    ensures mode == SkipExpansion && !r.found ==>
      (SchemaRef(n) != "" ==> SchemaRef(n) in r.visited) && GroupsClear(t, n, 0, r.visited) && Fresh(S, t, V, r.visited)
    decreases S.Keys - V, n, 3, 0
  {
    var x := SchemaRef(n);
    if x != "" && x in V && mode == AbandonNode then Idle(V)
    else
      var c := if x != "" && x !in V then FollowRef(mode, S, t, n, V) else Idle(V);
      if c.found then c
      else
        var d := WalkGroups(mode, S, t, n, 0, c.visited);
        Chain(S, t, V, c, d);
        if mode == SkipExpansion && !d.found then
          FreshTrans(S, t, V, c.visited, d.visited);
          Then(c, d)
        else Then(c, d)
  }

  /** Marking the node's new reference name visited and, when it names a non-empty schema, searching that schema. */
  function FollowRef(mode: Revisit, S: map<string, JNode>, t: string, n: JNode, V: set<string>): (r: Outcome)
    requires n.JObj? && SchemaRef(n) != "" && SchemaRef(n) != t && SchemaRef(n) !in V
    ensures Bookkeeping(S, t, V, r) && SchemaRef(n) in r.visited
    ensures r.found ==> Uses(S, t, n)
    ensures mode == SkipExpansion && !r.found ==> Fresh(S, t, V, r.visited)
    decreases S.Keys - V, n, 2, 0
  {
    var x := SchemaRef(n);
    if Expandable(S, x) then
      var w := Walk(mode, S, t, S[x], V + {x});
      Enter(S, t, V, x, w);
      if w.found then
        UsesViaRef(S, t, n);
        Outcome(w.found, w.visited, [x] + w.expanded)
      else Outcome(w.found, w.visited, [x] + w.expanded)
    else Idle(V + {x})
  }

  /** The composites `Composites[j..]` of `n`, in order, stopping at the first hit. */
  function WalkGroups(mode: Revisit, S: map<string, JNode>, t: string, n: JNode, j: nat, V: set<string>): (r: Outcome)
    requires n.JObj? && j <= |Composites|
    ensures Bookkeeping(S, t, V, r)
    ensures r.found ==> Uses(S, t, n)
    ensures mode == SkipExpansion && !r.found ==> GroupsClear(t, n, j, r.visited) && Fresh(S, t, V, r.visited)
    decreases S.Keys - V, n, 2, |Composites| - j
  {
    if j == |Composites| then Idle(V)
    else
      var g := Composites[j];
      var a := if HasGroup(n, g) then WalkMembers(mode, S, t, n, g, 0, V) else Idle(V);
      if a.found then a
      else
        var b := WalkGroups(mode, S, t, n, j + 1, a.visited);
        Chain(S, t, V, a, b);
        if mode == SkipExpansion && !b.found then
          FreshTrans(S, t, V, a.visited, b.visited);
          assert Composites[j..] == [g] + Composites[j + 1..];
          if HasGroup(n, g) then
            MembersGrow(t, n, g, a.visited, b.visited);
            Then(a, b)
          else Then(a, b)
        else Then(a, b)
  }

  lemma MembersGrow(t: string, n: JNode, g: string, V: set<string>, W: set<string>)
    requires HasGroup(n, g) && MembersClear(t, n, g, 0, V) && V <= W
    ensures MembersClear(t, n, g, 0, W)
  {
    forall j | 0 <= j < |n.fields[g].elems|
      ensures Clear(t, n.fields[g].elems[j], W)
    {
      ClearGrows(t, n.fields[g].elems[j], V, W);
    }
  }

  /** The members `i..` of composite `g` of `n`, in order, stopping at the first hit. */
  function WalkMembers(mode: Revisit, S: map<string, JNode>, t: string, n: JNode, g: string, i: nat, V: set<string>): (r: Outcome)
    requires g in Composites && HasGroup(n, g) && i <= |n.fields[g].elems|
    ensures Bookkeeping(S, t, V, r)
    ensures r.found ==> Uses(S, t, n)
    ensures mode == SkipExpansion && !r.found ==> MembersClear(t, n, g, i, r.visited) && Fresh(S, t, V, r.visited)
    decreases S.Keys - V, n, 0, |n.fields[g].elems| - i
  {
    if i == |n.fields[g].elems| then Idle(V)
    else
      var child := n.fields[g].elems[i];
      var a := Walk(mode, S, t, child, V);
      if a.found then
        assert forall p :: Somewhere(child, p) ==> Somewhere(n, p);
        Lift(S, t, child, n);
        a
      else
        var b := WalkMembers(mode, S, t, n, g, i + 1, a.visited);
        Chain(S, t, V, a, b);
        if mode == SkipExpansion && !b.found then
          FreshTrans(S, t, V, a.visited, b.visited);
          ClearGrows(t, child, a.visited, b.visited);
          MembersStep(t, n, g, i, b.visited);
          Then(a, b)
        else Then(a, b)
  }

  /** A clear member followed by clear members: the members from `i` on are clear. */
  lemma MembersStep(t: string, n: JNode, g: string, i: nat, W: set<string>)
    requires HasGroup(n, g) && i < |n.fields[g].elems|
    requires Clear(t, n.fields[g].elems[i], W) && MembersClear(t, n, g, i + 1, W)
    ensures MembersClear(t, n, g, i, W)
  {
  }

  // ---------------------------------------------------------------------------
  // The search from a fresh visited set

  /** A visited set none of whose schemas reaches the target leaves clear nodes unable to reach it. */
  lemma {:induction false} ClearMeansUnused(S: map<string, JNode>, t: string, n: JNode, W: set<string>, h: nat)
    requires Clear(t, n, W) && Fresh(S, t, {}, W)
    ensures !UsesWithin(S, t, n, h)
    decreases h
  {
    if h > 0 {
      forall x | Somewhere(n, RefersTo(x, t)) && Expandable(S, x)
        ensures !UsesWithin(S, t, S[x], h - 1)
      {
        ClearMeansUnused(S, t, S[x], W, h - 1);
      }
    }
  }

  /**
   `_is_schema_used_in_object(n, t, spec, set())` with the corrected handling
   of revisited references: true exactly when `n` reaches `t`.
   */
  function UsesSchema(S: map<string, JNode>, t: string, n: JNode): (used: bool)
    ensures used <==> Uses(S, t, n)
  {
    var r := Walk(SkipExpansion, S, t, n, {});
    if r.found then true
    else
      forall h: nat ensures !UsesWithin(S, t, n, h) {
        ClearMeansUnused(S, t, n, r.visited, h);
      }
      false
  }

  /**
   `_is_schema_used_in_object(n, t, spec, set())` as written: a true answer
   is always right, but a revisited reference hides the node's composite
   members.
   */
  function UsesSchemaAsWritten(S: map<string, JNode>, t: string, n: JNode): (used: bool)
    ensures used ==> Uses(S, t, n)
  {
    Walk(AbandonNode, S, t, n, {}).found
  }

  /** The reference node `{"$ref": "#/components/schemas/<name>"}`. */
  function RefTo(name: string): (n: JNode)
    ensures '/' !in name ==> SchemaRef(n) == name
  {
    var n := JObj(map["$ref" := JStr(SchemaPrefix + name)]);
    if '/' !in name then
      RefRoundTrip(n, name);
      n
    else n
  }

  /** A node without composite members ends its search at the reference stage. */
  lemma {:induction false} NoGroupsFrom(mode: Revisit, S: map<string, JNode>, t: string, n: JNode, j: nat, V: set<string>)
    requires n.JObj? && j <= |Composites| && forall k :: j <= k < |Composites| ==> !HasGroup(n, Composites[k])
    ensures WalkGroups(mode, S, t, n, j, V) == Idle(V)
    decreases |Composites| - j
  {
    if j < |Composites| {
      NoGroupsFrom(mode, S, t, n, j + 1, V);
    }
  }

  /** A bare reference node: the search is the reference stage alone. */
  lemma BareRef(mode: Revisit, S: map<string, JNode>, t: string, name: string, V: set<string>)
    requires '/' !in name && name != t && name != ""
    ensures var n := RefTo(name);
      Walk(mode, S, t, n, V) == if name in V then Idle(V) else FollowRef(mode, S, t, n, V)
  {
    var n := RefTo(name);
    RefRoundTrip(n, name);
    assert !HasProps(n) && !HasItems(n);
    assert forall g :: !HasGroup(n, g);
    var c := if name !in V then FollowRef(mode, S, t, n, V) else Idle(V);
    if !c.found {
      NoGroupsFrom(mode, S, t, n, 0, c.visited);
    }
  }

  /** `{"$ref": x, "allOf": [{"$ref": t}]}`: a reference to `x` that also reaches `t` through a composite. */
  function RevisitSecond(x: string, t: string): JNode
  {
    JObj(map["$ref" := JStr(SchemaPrefix + x), "allOf" := JArr([RefTo(t)])])
  }

  /** `{"allOf": [{"$ref": x}, RevisitSecond(x, t)]}`. */
  function RevisitNode(x: string, t: string): JNode
  {
    JObj(map["allOf" := JArr([RefTo(x), RevisitSecond(x, t)])])
  }

  /** A schema with nothing the search enters: a plain `{"type": "string"}`. */
  predicate PlainString(n: JNode)
  {
    n == JObj(map["type" := JStr("string")])
  }

  /**
   The node `{allOf: [{$ref: X}, {$ref: X, allOf: [{$ref: T}]}]}`, with `X` a
   plain string schema: the second member reaches `T` through its own
   `allOf`, but the code as written has already visited `X` and gives up on
   that member, so it answers no.
   */
  lemma RevisitCounterexample(S: map<string, JNode>, x: string, t: string)
    requires x in S && PlainString(S[x])
    requires '/' !in x && '/' !in t && x != "" && t != "" && t != x
    ensures !UsesSchemaAsWritten(S, t, RevisitNode(x, t)) && UsesSchema(S, t, RevisitNode(x, t))
  {
    RevisitAsWritten(S, x, t);
    RevisitReachable(S, x, t);
  }

  lemma RevisitAsWritten(S: map<string, JNode>, x: string, t: string)
    requires x in S && PlainString(S[x])
    requires '/' !in x && '/' !in t && x != "" && t != "" && t != x
    ensures Walk(AbandonNode, S, t, RevisitNode(x, t), {}) == Outcome(false, {x}, [x])
  {
    RevisitFirst(S, x, t);
    RevisitSecondAbandoned(S, x, t);
    RevisitOuter(S, x, t);
  }

  lemma RevisitFirst(S: map<string, JNode>, x: string, t: string)
    requires x in S && PlainString(S[x])
    requires '/' !in x && x != "" && t != "" && t != x
    ensures Walk(AbandonNode, S, t, RefTo(x), {}) == Outcome(false, {x}, [x])
  {
    var X := S[x];
    assert SchemaRef(X) == "" && !HasProps(X) && !HasItems(X);
    assert forall g :: !HasGroup(X, g);
    NoGroupsFrom(AbandonNode, S, t, X, 0, {x});
    PlainNode(AbandonNode, S, t, X, {x});
    assert {} + {x} == {x};
    BareRef(AbandonNode, S, t, x, {});
  }

  lemma RevisitSecondAbandoned(S: map<string, JNode>, x: string, t: string)
    requires '/' !in x && x != "" && t != x
    ensures Walk(AbandonNode, S, t, RevisitSecond(x, t), {x}) == Idle({x})
  {
    var second := RevisitSecond(x, t);
    RefRoundTrip(second, x);
    assert !HasProps(second) && !HasItems(second);
  }

  lemma RevisitOuter(S: map<string, JNode>, x: string, t: string)
    requires Walk(AbandonNode, S, t, RefTo(x), {}) == Outcome(false, {x}, [x])
    requires Walk(AbandonNode, S, t, RevisitSecond(x, t), {x}) == Idle({x})
    requires t != ""
    ensures Walk(AbandonNode, S, t, RevisitNode(x, t), {}) == Outcome(false, {x}, [x])
  {
    var n := RevisitNode(x, t);
    RevisitMembers(S, x, t);
    assert !HasGroup(n, "oneOf") && !HasGroup(n, "anyOf");
    NoGroupsFrom(AbandonNode, S, t, n, 1, {x});
    assert SchemaRef(n) == "" && !HasProps(n) && !HasItems(n);
    PlainNode(AbandonNode, S, t, n, {});
  }

  /** A node with no reference, no properties and no items is searched through its composites alone. */
  lemma PlainNode(mode: Revisit, S: map<string, JNode>, t: string, n: JNode, V: set<string>)
    requires n.JObj? && SchemaRef(n) == "" && t != "" && !HasProps(n) && !HasItems(n)
    ensures Walk(mode, S, t, n, V) == WalkGroups(mode, S, t, n, 0, V)
  {
  }

  lemma RevisitMembers(S: map<string, JNode>, x: string, t: string)
    requires Walk(AbandonNode, S, t, RefTo(x), {}) == Outcome(false, {x}, [x])
    requires Walk(AbandonNode, S, t, RevisitSecond(x, t), {x}) == Idle({x})
    ensures HasGroup(RevisitNode(x, t), "allOf")
    ensures WalkMembers(AbandonNode, S, t, RevisitNode(x, t), "allOf", 0, {}) == Outcome(false, {x}, [x])
  {
    var n := RevisitNode(x, t);
    assert n.fields["allOf"].elems == [RefTo(x), RevisitSecond(x, t)];
    assert WalkMembers(AbandonNode, S, t, n, "allOf", 2, {x}) == Idle({x});
    assert WalkMembers(AbandonNode, S, t, n, "allOf", 1, {x}) == Idle({x});
    assert [x] + [] == [x];
  }

  lemma RevisitReachable(S: map<string, JNode>, x: string, t: string)
    requires '/' !in t
    ensures Uses(S, t, RevisitNode(x, t))
  {
    var second, n := RevisitSecond(x, t), RevisitNode(x, t);
    assert Somewhere(RefTo(t), TargetOf(t));
    assert Somewhere(second, TargetOf(t)) by {
      assert HasGroup(second, "allOf") && second.fields["allOf"].elems[0] == RefTo(t);
    }
    assert Somewhere(n, TargetOf(t)) by {
      assert n.fields["allOf"].elems[1] == second;
    }
    assert UsesWithin(S, t, n, 0);
  }

  /**
   Two schemas that refer to each other, neither mentioning the target: the
   search stops after entering each once, and the answer is no.
   */
  lemma CycleExample(S: map<string, JNode>, a: string, b: string, t: string)
    requires '/' !in a && '/' !in b && a != "" && b != "" && a != b && t != a && t != b
    requires a in S && b in S && S[a] == RefTo(b) && S[b] == RefTo(a)
    ensures Walk(SkipExpansion, S, t, RefTo(a), {}) == Outcome(false, {a, b}, [a, b])
    ensures !UsesSchema(S, t, RefTo(a))
  {
    var AB: set<string> := {a, b};
    BareRef(SkipExpansion, S, t, a, AB);
    assert Expandable(S, a) && Expandable(S, b);
    BareRef(SkipExpansion, S, t, b, {a});
    assert {a} + {b} == AB;
    assert Walk(SkipExpansion, S, t, RefTo(b), {a}) == Outcome(false, AB, [b]);
    BareRef(SkipExpansion, S, t, a, {});
    assert {} + {a} == {a};
  }
}
